=== FILE: README.md ===
# Fancy-quote audit and AGENTS.md numbering, in Dafny

This project models two small tools of a documentation repository.

**The fancy-quote auditor and fixer** (`scripts/audit_fancy_quotes.py`). The house
rule for Markdown files: prose uses curly quotes (“ ” ’), and code uses straight
ones (" '). Code means fenced blocks opened by a line of three or more
back-ticks, and inline spans between runs of back-ticks. The model covers:

- the fence state machine shared by `get_prose_content`, `find_fancy_in_code` and
  `prose_offset_set` (module `Fences`);
- the back-tick scanner of `iter_prose_offsets`, as a recursive reference
  `ProseFrom` and as the source's nested loops (`InlineCode`). The loops show
  that the `while … else` fallbacks at lines 68–69 and 152–153 can never run.
  Their loops are guarded by `j <= len`, and `j` never passes the length, so
  they are only ever left through a `break`;
- the two finders and `line_and_column` (`Audit`, `CodeQuotes`, `Positions`);
- the `ok` flag of `audit_file` (`Audit.AuditFile`);
- `prose_offset_set` (`ProseOffsets`);
- the "Avoid:" line test (`Avoid`);
- `fix_prose_quotes`, with its alternating double-quote counter (`Fix`);
- the disagreement between the audit and the fixer about what is prose
  (`Disagreement`).

`Shape` shows that exchanging quote characters for one another changes nothing
that the scanners look at. This is what makes the fixer idempotent.

**The AGENTS.md builder** (`plugins/frontend-react/skills/frontend-react/build_agents.py`).
Rule files `rules/<prefix>-<name>.md` are grouped by prefix and sorted by name
(`RuleFiles`, `NameOrder`). `strip_frontmatter` cuts each file into a title and
a body (`Frontmatter`). The sections come in the order of `SECTION_ORDER`. Each
section keeps its position there as its number, so an empty section leaves a
gap. Rules are numbered from 1 inside their section (`AgentsIndex`).
Numerals are written by `Decimal`.

`AgentsIndex.HeadingId`, `AnchorMatchesHeading`, `SectionTitlesSafe`,
`RuleLabelRoundTrip` and the parsing half of `Decimal` do not model code of
`build_agents.py`. They state the heading-id convention of a Markdown renderer
such as GitHub's, which the builder relies on without containing it. Under that
convention, the anchor the table of contents writes at line 89 is the id of the
section heading written at line 104, and distinct rules get distinct
`section.rule` labels.

Text is `seq<char>` with Python's code points as `char`. Python's
`str.isspace()`, which is also what `\s` matches, is written out as
`Text.IsWhitespace`. Each regular expression of the source is a predicate. For
example, `^[\s\-]*\*?Avoid\*?:` is `Avoid.AvoidMarker`, and
`Avoid.AvoidMarkerMatches` proves it equal to the search a regex engine performs.

The operations model the code as written. Where it departs from what its
comments or docstrings describe, the corrected definitions stand beside the
as-written ones, and the intended property is proved of them (see
"## Findings").

## Model

| member | source | states |
|---|---|---|
| `Text.SplitJoin` | scripts/audit_fancy_quotes.py:20-37 | splitting at `\n` the lines joined with `\n` gives back the same lines, when no line contains `\n` |
| `Text.SplitAtMostJoin` | plugins/frontend-react/skills/frontend-react/build_agents.py:21 | the pieces of `split(sep, n)` joined with `sep` give back the text |
| `Text.SplitAtMostClean` | plugins/frontend-react/skills/frontend-react/build_agents.py:21 | no piece of `split(sep, n)` but the last holds the separator, and the last holds it only when all `n` cuts were made; for a separator that overlaps itself, such as `---`, this alone does not fix where the cuts are |
| `Text.SplitAtMostFirst` | plugins/frontend-react/skills/frontend-react/build_agents.py:21 | `split(sep, n)` cuts at the first occurrence each time: each piece but the last, followed by the separator, meets the separator first at its end; the last holds none unless all `n` cuts were made |
| `Text.SplitAtMostUnique` | plugins/frontend-react/skills/frontend-react/build_agents.py:21 | any pieces that join back to the text and are cut at first occurrences are the pieces of `split(sep, n)`, so that characterisation pins the split |
| `Text.OverlappingSeparatorCut` | plugins/frontend-react/skills/frontend-react/build_agents.py:21 | with `---`, the pieces `-` and `x` join to `----x` and neither holds `---`, yet they are not cut at first occurrences; `split` gives the empty text and `-x` |
| `Text.TrimNewlines` | plugins/frontend-react/skills/frontend-react/build_agents.py:23 | `lstrip("\n")` drops exactly the leading line feeds and leaves a suffix that does not start with one |
| `Text.TrimLeft` | scripts/audit_fancy_quotes.py:33 | `lstrip()` drops exactly the leading whitespace |
| `Text.TrimRight` | scripts/audit_fancy_quotes.py:33 | `rstrip()` drops exactly the trailing whitespace |
| `Text.IndexFrom` | scripts/audit_fancy_quotes.py:184-186 | `find` gives the first occurrence at or after the start, or -1 when there is none |
| `Text.LastIndexOf` | scripts/audit_fancy_quotes.py:108 | `rfind` gives the last occurrence, or -1 when there is none |
| `Fences.FenceRun` | scripts/audit_fancy_quotes.py:26-28 | the fence is the maximal run of at least three back-ticks at the start of the left-stripped line |
| `Fences.KindsStepwise` | scripts/audit_fancy_quotes.py:24-36 | every line gets the kind that the fence state machine gives it in the state its predecessor leaves |
| `Fences.StepwiseUnique` | scripts/audit_fancy_quotes.py:24-36 | only one classification follows the state machine, so the three scans of the source agree on it |
| `Fences.ProseAndOpening` | scripts/audit_fancy_quotes.py:25-31 | a line is prose exactly when it is met outside a fence and does not open one; it opens a fence exactly when it is met outside and matches the opener |
| `Fences.FenceBlock` | scripts/audit_fancy_quotes.py:32-35 | after an opener, each line is fenced until the first line that closes with the opener's run, which is the closing line |
| `Fences.FenceHasOpener` | scripts/audit_fancy_quotes.py:32-36 | every fenced or closing line has an opening line above it with the same run, with only fenced, unclosing lines in between |
| `Fences.GetProseContent` | scripts/audit_fancy_quotes.py:18-37 | the lines of the result are the lines of the input with the fences blanked |
| `Fences.ProseLineKept` | scripts/audit_fancy_quotes.py:18-37 | a non-empty line of the prose text is a prose line of the input, unchanged at the same line number |
| `InlineCode.RunEnd` | scripts/audit_fancy_quotes.py:45-49 | the end of the maximal run of back-ticks from a position |
| `InlineCode.RunEndUnique` | scripts/audit_fancy_quotes.py:45-49 | any end that bounds a back-tick run and is not followed by a back-tick is that end |
| `InlineCode.SkipSpanFindsClose` | scripts/audit_fancy_quotes.py:52-67 | the span ends after the first run at least as long as the opening run, or at the end of the text when there is none |
| `InlineCode.ProseFromFacts` | scripts/audit_fancy_quotes.py:40-72 | each yielded pair is an offset and the character there, never a back-tick, in increasing order |
| `InlineCode.NoBackticksAllProse` | scripts/audit_fancy_quotes.py:43-72 | without back-ticks, every character is yielded in order |
| `InlineCode.UnclosedSpanHidesRest` | scripts/audit_fancy_quotes.py:52-55 | a run with no closing run after it hides the rest of the text |
| `InlineCode.ClosedSpanResumes` | scripts/audit_fancy_quotes.py:56-64 | after the first closing run, the scan resumes as if it started there |
| `InlineCode.ScanRun` | scripts/audit_fancy_quotes.py:45-49 | the counting loop returns the run's length and its end |
| `InlineCode.SkipToClose` | scripts/audit_fancy_quotes.py:51-69 | the skipping loop stops where the reference span ends, leaving only through `break` |
| `InlineCode.IterProseOffsets` | scripts/audit_fancy_quotes.py:40-72 | the generator's loops yield exactly the reference sequence |
| `Audit.FindStraightQuotesInProse` | scripts/audit_fancy_quotes.py:75-77 | increasing offsets; a pair is listed exactly when it is yielded as prose and its character is a straight quote |
| `Audit.IncreasingUnique` | scripts/audit_fancy_quotes.py:75-77 | two increasing lists with the same elements are equal, so the contract above fixes the result |
| `CodeQuotes.FindFancyInCode` | scripts/audit_fancy_quotes.py:80-102 | reports exactly the fancy quotes on fenced lines, each at its offset, in document order; opening and closing lines are not searched |
| `CodeQuotes.ScanLines` | scripts/audit_fancy_quotes.py:82-102 | the loop over lines, with `pos` the start of each line, gives the reference list |
| `CodeQuotes.FanciesInFencesSound` | scripts/audit_fancy_quotes.py:98-100 | every listed entry is a fancy quote on a fenced line, found before the current line |
| `CodeQuotes.FanciesInFencesComplete` | scripts/audit_fancy_quotes.py:98-100 | every fancy quote on a fenced line before the current line is listed |
| `CodeQuotes.FanciesInFencesIncreasing` | scripts/audit_fancy_quotes.py:86-101 | the listed offsets increase |
| `Positions.LineAndColumnLocates` | scripts/audit_fancy_quotes.py:105-109 | the line is one more than the number of line feeds before the offset, and the column is the 1-based distance from that line's start |
| `Positions.PositionOfLineStart` | scripts/audit_fancy_quotes.py:105-109 | character `j` of line `i` is reported at line `i + 1`, column `j + 1` |
| `Positions.PositionOfChar` | scripts/audit_fancy_quotes.py:105-109 | the reported line and column hold the character at the offset |
| `Audit.FancyReportLocates` | scripts/audit_fancy_quotes.py:226 | a fancy quote found in code is reported on its fenced line at a column holding it |
| `Audit.StraightReportLocates` | scripts/audit_fancy_quotes.py:225 | a straight quote found in the prose text is reported on a prose line of the original document at a column holding it: blanking keeps line numbers |
| `Audit.LocateStraight` | scripts/audit_fancy_quotes.py:225 | each straight quote becomes a report on a prose line |
| `Audit.LocateFancy` | scripts/audit_fancy_quotes.py:226 | each fancy quote becomes a report inside a fence |
| `Audit.AuditFile` | scripts/audit_fancy_quotes.py:221-231 | `ok` holds exactly when both lists are empty, which is exactly when the prose has no straight quote and no fenced line has a fancy one; every report points at the character it names |
| `Audit.CleanIffNothingFound` | scripts/audit_fancy_quotes.py:222-231 | each finder returns nothing exactly when its part of the document is clean |
| `Audit.StraightIffProseClean` | scripts/audit_fancy_quotes.py:222 | no straight quote is found exactly when none is yielded as prose |
| `Audit.FancyIffFencesClean` | scripts/audit_fancy_quotes.py:223 | no fancy quote is found exactly when no fenced line holds one |
| `ProseOffsets.ProseOffsetSound` | scripts/audit_fancy_quotes.py:112-162 | each offset is a character of a prose line, neither a back-tick nor a line feed, that the line's own back-tick scan yields |
| `ProseOffsets.ProseOffsetComplete` | scripts/audit_fancy_quotes.py:126-156 | every character the back-tick scan yields on a prose line is in the set, at its line's start plus its column |
| `ProseOffsets.ProseOffsetSet` | scripts/audit_fancy_quotes.py:112-162 | the loops build exactly the reference set |
| `ProseOffsets.ScanProseLines` | scripts/audit_fancy_quotes.py:115-161 | the loop over lines adds each prose line's yielded columns, shifted by the line's start |
| `ProseOffsets.ProseOffsetsSimilar` | scripts/audit_fancy_quotes.py:112-162 | exchanging quotes for quotes does not change the set |
| `Avoid.DropDashSpace` | scripts/audit_fancy_quotes.py:188 | `[\s\-]*` consumes exactly the leading whitespace and dashes |
| `Avoid.AvoidMarkerMatches` | scripts/audit_fancy_quotes.py:188 | taking the whole prefix in one step matches exactly when some prefix of whitespace and dashes is followed by `*?Avoid*?:` |
| `Avoid.LineAroundIsLine` | scripts/audit_fancy_quotes.py:183-187 | the text between the previous and the next line feed is the line holding the offset |
| `Avoid.AvoidOffsetsAt` | scripts/audit_fancy_quotes.py:183-188 | an offset is on an Avoid line exactly when the line around it passes the test |
| `Avoid.DashItemIsAvoid` | scripts/audit_fancy_quotes.py:188 | a line starting `- Avoid:` is an Avoid line |
| `Avoid.BoldMarkerNotAvoid` | scripts/audit_fancy_quotes.py:182-188 | a line starting `**Avoid**:`, with no dash after, fails the test |
| `Avoid.BoldMarkerIsIntendedAvoid` | scripts/audit_fancy_quotes.py:182 | with the test the comment describes, a line starting `**Avoid**:` is an Avoid line |
| `Avoid.IntendedWidens` | scripts/audit_fancy_quotes.py:182-188 | the described test admits every line the written test admits, and the same lines when there is no `*` |
| `Fix.FixProseQuotes` | scripts/audit_fancy_quotes.py:165-212 | the loop with its counter computes the reference fixer |
| `Fix.FixLoop` | scripts/audit_fancy_quotes.py:170-212 | the loop over characters, given the prose offsets, computes the reference fixer with skipping on or off |
| `Fix.FixAt` | scripts/audit_fancy_quotes.py:175-211 | one step writes the reference character and advances the counter past a converted double quote |
| `Fix.KeptAt` | scripts/audit_fancy_quotes.py:180-191 | with skipping on, a quote is kept exactly when its line passes the Avoid test; with it off, none is kept |
| `Fix.DoublesBeforeCounts` | scripts/audit_fancy_quotes.py:192 | `double_quote_count` is the number of double quotes exchanged before the offset |
| `Fix.FixChangesOnlyProseQuotes` | scripts/audit_fancy_quotes.py:174-211 | a character changes exactly when it is a straight quote at a prose offset, not kept, and then it becomes a curly quote |
| `Fix.ApostropheBecomesRight` | scripts/audit_fancy_quotes.py:196-208 | an exchanged apostrophe becomes ’ |
| `Fix.DoubleQuoteOrdinal` | scripts/audit_fancy_quotes.py:192-193 | the k-th exchanged double quote becomes “ when k is odd and ” when k is even |
| `Fix.ConsecutiveDoublesAlternate` | scripts/audit_fancy_quotes.py:192-193 | of two exchanged double quotes with none exchanged between them, one opens and one closes |
| `Fix.SkipKeepsAvoidLines` | scripts/audit_fancy_quotes.py:180-191 | with skipping on, every character of an Avoid line is left as it is |
| `Fix.NoSkipConvertsAll` | scripts/audit_fancy_quotes.py:165 | with skipping off, every straight quote at a prose offset becomes curly |
| `Fix.FixKeepsCodeChar` | scripts/audit_fancy_quotes.py:174-178 | every character of a line that is not prose stays in place and unchanged in the fixed document, whose lines keep their kinds |
| `ProseOffsets.CodeCharNotProse` | scripts/audit_fancy_quotes.py:117-162 | no character of an opening, fenced or closing line is at a prose offset |
| `Fix.FixKeepsProse` | scripts/audit_fancy_quotes.py:170 | the fixed document has the same prose offsets, and the same Avoid lines, as the input |
| `Fix.NothingLeftToConvert` | scripts/audit_fancy_quotes.py:165-212 | in the fixed document, no offset is one the fixer would exchange |
| `Fix.FixIdempotent` | scripts/audit_fancy_quotes.py:165-212 | fixing a fixed document changes nothing |
| `Fix.NoProseQuoteUnchanged` | scripts/audit_fancy_quotes.py:174-211 | a document with no straight quote at a prose offset is left as it is |
| `Fix.BoldAvoidLineConverted` | scripts/audit_fancy_quotes.py:181-193 | with skipping on, a straight quote in prose on a `**Avoid**:` line is still made curly |
| `Fix.BoldAvoidLineKept` | scripts/audit_fancy_quotes.py:182 | with the described test, every character of a `**Avoid**:` line is kept |
| `Fix.IntendedAgreesWithoutAsterisks` | scripts/audit_fancy_quotes.py:188 | on a document without `*`, the fixer with the described test gives the same result as the fixer as written |
| `Disagreement.AuditPassesFixChanges` | scripts/audit_fancy_quotes.py:52-55 | on `` `a⏎" ``, the audit passes, because the open span hides the rest of the text, yet the fixer makes the quote “ |
| `Disagreement.AuditFailsFixKeeps` | scripts/audit_fancy_quotes.py:136-138 | on `` `a⏎b`" ``, the audit reports the quote, yet the fixer, whose span on line 2 never closes, leaves the document unchanged |
| `Disagreement.LineAuditAgreesWithFix` | scripts/audit_fancy_quotes.py:165-212 | with skipping off and prose read line by line, as the fixer reads it: the prose half of the audit passes a document exactly when the fixer leaves it unchanged, and the whole audit (that half and no fancy quote in a fence) passes exactly when the fixer leaves it unchanged and its fences hold no fancy quote |
| `Disagreement.FixKeepsFences` | scripts/audit_fancy_quotes.py:174-178 | the fixer neither removes nor adds a fancy quote inside a fence: the fixed document's fences are clean exactly when the input's are |
| `Disagreement.FixedPassesLineAudit` | scripts/audit_fancy_quotes.py:165-212 | with skipping off and prose read line by line, the prose half of the audit passes every fixed document, and the whole audit passes it exactly when the input's fences hold no fancy quote |
| `Disagreement.LineAuditOnExamples` | scripts/audit_fancy_quotes.py:126-156 | the line-by-line audit fails the first example and passes the second |
| `Frontmatter.FrontmatterByFind` | plugins/frontend-react/skills/frontend-react/build_agents.py:20-27 | with a closing `---` after the opening one, the body is what follows it with leading line feeds dropped; otherwise it is the whole content |
| `Frontmatter.ClosingAfterOpening` | plugins/frontend-react/skills/frontend-react/build_agents.py:21-22 | `split("---", 2)` has a third piece exactly when `---` occurs again after the opening one, and that piece is what follows it |
| `Frontmatter.TitleShape` | plugins/frontend-react/skills/frontend-react/build_agents.py:28-35 | the title loop keeps the title stripped and on one line |
| `Frontmatter.NoHeadingNoTitle` | plugins/frontend-react/skills/frontend-react/build_agents.py:28-35 | with no `## ` line, the title is empty and every line is kept |
| `Frontmatter.FirstHeadingIsTitle` | plugins/frontend-react/skills/frontend-react/build_agents.py:31-35 | when the first `## ` line has a text, that text is the title and only that line is removed |
| `Frontmatter.EmptyHeadingSkipped` | plugins/frontend-react/skills/frontend-react/build_agents.py:32-33 | a first `## ` line with an empty text is removed and the search goes on: the next `## ` line with a text gives the title and is removed too |
| `Frontmatter.EmptyTitleIff` | plugins/frontend-react/skills/frontend-react/build_agents.py:28-35 | the title is empty exactly when every `## ` line has an empty text |
| `Frontmatter.TitleFromFirstHeading` | plugins/frontend-react/skills/frontend-react/build_agents.py:18-37 | the title is the first `## ` line's text, and the body is the other lines of the body after the frontmatter, stripped |
| `Frontmatter.NoTitleWholeBody` | plugins/frontend-react/skills/frontend-react/build_agents.py:18-37 | with no `## ` line, the title is empty and the body is the stripped body after the frontmatter |
| `Frontmatter.FirstTitleRemovesOne` | plugins/frontend-react/skills/frontend-react/build_agents.py:19 | with the first `## ` line taken whatever its text, exactly that line is removed and its text is the title |
| `Frontmatter.FirstTitleAgrees` | plugins/frontend-react/skills/frontend-react/build_agents.py:28-35 | when the first `## ` line has a text, the corrected title loop and the written one agree |
| `RuleFiles.MarkdownSuffix` | plugins/frontend-react/skills/frontend-react/build_agents.py:43-45 | the suffix is `.md` exactly when the name is longer than `.md` and ends with it, and then the stem is the name without it |
| `RuleFiles.PrefixOf` | plugins/frontend-react/skills/frontend-react/build_agents.py:46-47 | the prefix has no `-`, and the stem is the prefix, `-`, and the rest |
| `RuleFiles.PrefixIsSplitHead` | plugins/frontend-react/skills/frontend-react/build_agents.py:47 | the prefix is the first piece of `split("-", 1)` |
| `RuleFiles.Members` | plugins/frontend-react/skills/frontend-react/build_agents.py:42-48 | a name is in a prefix's group exactly when it is a `.md` file not starting with `_`, its stem has a `-`, and its prefix matches |
| `RuleFiles.GroupsPartition` | plugins/frontend-react/skills/frontend-react/build_agents.py:42-48 | groups hold exactly their members; every grouped name has a group, and no group is empty |
| `RuleFiles.CollectGroups` | plugins/frontend-react/skills/frontend-react/build_agents.py:42-48 | the collecting loop has exactly the prefixes as keys, each with its members in listing order |
| `RuleFiles.SortGroups` | plugins/frontend-react/skills/frontend-react/build_agents.py:49-50 | each group is replaced by its sorted copy, and the keys are unchanged |
| `RuleFiles.GroupByPrefix` | plugins/frontend-react/skills/frontend-react/build_agents.py:41-50 | the keys are the prefixes, and each group is sorted and is a permutation of its members |
| `RuleFiles.GroupingIsByPrefix` | plugins/frontend-react/skills/frontend-react/build_agents.py:41-50 | any map with those keys and sorted permutations of the groups is the reference grouping, so the listing order does not matter |
| `NameOrder.LexTotal` | plugins/frontend-react/skills/frontend-react/build_agents.py:50 | code-point order compares any two names |
| `NameOrder.LexTrans` | plugins/frontend-react/skills/frontend-react/build_agents.py:50 | code-point order is transitive |
| `NameOrder.LexAntisym` | plugins/frontend-react/skills/frontend-react/build_agents.py:50 | code-point order is antisymmetric |
| `NameOrder.SortNames` | plugins/frontend-react/skills/frontend-react/build_agents.py:49-50 | the result is sorted and a permutation of the input |
| `NameOrder.SortedUnique` | plugins/frontend-react/skills/frontend-react/build_agents.py:49-50 | two sorted permutations of one list are equal |
| `Decimal.NatToString` | plugins/frontend-react/skills/frontend-react/build_agents.py:89 | a section number is written as at least one decimal digit, without a leading zero |
| `Decimal.DecimalRoundTrip` | plugins/frontend-react/skills/frontend-react/build_agents.py:94 | reading back a written number gives the number |
| `Decimal.NatToStringInjective` | plugins/frontend-react/skills/frontend-react/build_agents.py:94 | distinct numbers are written differently |
| `AgentsIndex.RuleEntries` | plugins/frontend-react/skills/frontend-react/build_agents.py:91-94 | the rules of a section are its files in order, numbered from 1, each with the title and body of its file |
| `AgentsIndex.SectionNumbers` | plugins/frontend-react/skills/frontend-react/build_agents.py:84-87 | every listed section's number is its position in `SECTION_ORDER`; a section is listed exactly when it has rule files; numbers increase |
| `AgentsIndex.OrderNumbers` | plugins/frontend-react/skills/frontend-react/build_agents.py:100-103 | the same for any section order, as the second loop repeats the first |
| `AgentsIndex.GapInNumbering` | plugins/frontend-react/skills/frontend-react/build_agents.py:84-87 | with no bundle rules and some client rules, the first section listed is numbered 2 |
| `AgentsIndex.RulesNumbered` | plugins/frontend-react/skills/frontend-react/build_agents.py:91-94 | the rules of section `i + 1` are numbered from 1, carry that section number, and are that prefix's files sorted by name |
| `AgentsIndex.RuleTitleFromFile` | plugins/frontend-react/skills/frontend-react/build_agents.py:106-109 | a listed rule read from a file whose first `## ` line after the frontmatter has a text is titled with that text, and its body is the rest of that text with the line removed, stripped |
| `AgentsIndex.ReadTitleOneLine` | plugins/frontend-react/skills/frontend-react/build_agents.py:92-94 | the title of every rule file read and stripped has no line feed and no surrounding whitespace, so the rule's entry in the table of contents stays on one line |
| `AgentsIndex.RulesFromFiles` | plugins/frontend-react/skills/frontend-react/build_agents.py:106-109 | each listed rule carries the title and body stripped from its own file |
| `AgentsIndex.RuleFilesSorted` | plugins/frontend-react/skills/frontend-react/build_agents.py:85 | a section's files are sorted and are a permutation of that prefix's members |
| `AgentsIndex.AnchorMatchesHeading` | plugins/frontend-react/skills/frontend-react/build_agents.py:89 | for a title of ASCII letters, digits, spaces, `-` and `_`, the anchor is `#` and the renderer's id of the section heading |
| `AgentsIndex.SectionTitlesSafe` | plugins/frontend-react/skills/frontend-react/build_agents.py:9-15 | every title of `SECTION_ORDER` is of that kind, so every anchor of the table of contents reaches its heading |
| `AgentsIndex.RuleLabelRoundTrip` | plugins/frontend-react/skills/frontend-react/build_agents.py:94 | a `section.rule` label splits at `.` into the two numerals, which read back as the section and rule numbers |

## Left out

- AgentsIndex.Slug: lower-cases ASCII letters only, while `str.lower()` at build_agents.py:89 folds all of Unicode. Only the five ASCII titles of `SECTION_ORDER` ever reach it.
- Audit.AuditFile: takes the content already read. The branch of `audit_file` that returns an error when the file cannot be read (lines 216–219) is file I/O and is not modelled.
- Fix.FixProseQuotes: the `skip_avoid_examples` argument, which defaults to `False`, is a required `skip` parameter.
- AgentsIndex.Index: gives the table of contents and the sections (build_agents.py:84–95, 100–113) as `SectionEntry` and `RuleEntry` records, not as rendered lines of AGENTS.md. The fixed header (lines 52–82), the `---` separators and the blank lines are not modelled.
- RuleFiles.GroupByPrefix: takes a list of file names in place of the directory listing of `RULES_DIR.iterdir()`, and the names stand for the `Path` objects. The file reads are the `read` parameter of `AgentsIndex.ReadRule`.
- `main` of audit_fancy_quotes.py (lines 235–299): finding the Markdown files, the command line, printing the report and writing fixed files are I/O.
- `main` of build_agents.py: writing AGENTS.md and printing (lines 115–116) are I/O.
- Regular expressions are predicates written for the three patterns the source uses: `Fences.OpensFence`, `Fences.FenceRun` and `Avoid.AvoidMarker`. No regex engine is modelled.

## Findings

| source | as written | input that shows it | evidently intended | confidence | as-written member | corrected member |
|---|---|---|---|---|---|---|
| scripts/audit_fancy_quotes.py:182-188 | the pattern `^[\s\-]*\*?Avoid\*?:` admits at most one `*` on each side of `Avoid`, so a bold `**Avoid**:` line fails the test and its quotes are made curly even with skipping on (the same pattern is at line 203) | `**Avoid**: "x"` with `skip_avoid_examples=True`: the quote becomes “ | the comment at line 182 says lines starting `**Avoid**` are Avoid examples, so their quotes stay straight | medium; not executed | `Avoid.BoldMarkerNotAvoid`, `Fix.BoldAvoidLineConverted` | `Avoid.BoldMarkerIsIntendedAvoid`, `Fix.BoldAvoidLineKept` |
| scripts/audit_fancy_quotes.py:222 | the audit runs the inline-code scan over the whole prose text, so a span opened on one line can hide or end on a later one; the fixer (lines 126–156) runs it line by line | `` `a⏎" ``: the audit passes but the fixer changes the quote; `` `a⏎b`" ``: the audit reports the quote but the fixer changes nothing | the fixer fixes what the audit reports in prose: with skipping off, the prose half of the audit passes exactly when fixing leaves the document unchanged and passes every fixed document; the fence half, which the fixer never touches, passes a fixed document exactly when it passed the input | medium; not executed | `Disagreement.AuditPassesFixChanges`, `Disagreement.AuditFailsFixKeeps` | `Disagreement.LineAuditAgreesWithFix`, `Disagreement.FixedPassesLineAudit`, `Disagreement.FixKeepsFences` |
| plugins/frontend-react/skills/frontend-react/build_agents.py:32-33 | a `## ` line whose text strips to empty leaves the title empty, so that line is dropped from the body and the next `## ` line is taken as well | body `## ⏎x⏎## T⏎y`: the title is `T` and the body is `x⏎y` | the docstring at line 19 takes the title from the first `## ` line, so only that line is removed: title empty, body `x⏎## T⏎y` | low; not executed | `Frontmatter.EmptyHeadingSkipped` | `Frontmatter.FirstTitleRemovesOne`, `Frontmatter.FirstTitleAgrees` |

In the inputs above, ⏎ stands for a line feed.

=== FILE: agents_index.dfy ===
/**
 The numbering of AGENTS.md. The sections come in the fixed order of
 `SECTION_ORDER` and keep their position in it as their number, so a section
 without rule files leaves a gap; inside a section the rule files, sorted by
 name, are numbered from 1. Each table-of-contents entry links to its
 section's heading through an anchor made from the number and the title.
 What `strip_frontmatter` gives for each rule file is a parameter `doc` from
 file name to title and body; `ReadRule` builds it from a parameter `read`,
 from file name to content, the way `main` does.
 */
module AgentsIndex {
  import opened Text
  import opened Decimal
  import opened NameOrder
  import opened Frontmatter
  import opened RuleFiles

  /** A category of rules: the file-name prefix that selects its files, its
      title and its impact label. */
  datatype Section = Section(prefix: string, title: string, impact: string)

  const SectionOrder: seq<Section> := [
    Section("bundle", "Bundle Size Optimization", "CRITICAL"),
    Section("client", "Client-Side Data Fetching", "MEDIUM-HIGH"),
    Section("rerender", "Re-render Optimization", "MEDIUM"),
    Section("rendering", "Rendering Performance", "MEDIUM"),
    Section("advanced", "Advanced Patterns", "LOW")
  ]

  /** `by_prefix.get(prefix, [])` */
  function Group(byPrefix: map<string, seq<string>>, prefix: string): seq<string> {
    if prefix in byPrefix then byPrefix[prefix] else []
  }

  /** A rule as listed: its section number, its number inside the section,
      its file, and the title and body `strip_frontmatter` gives for it. */
  datatype RuleEntry = RuleEntry(section: nat, number: nat, file: string, title: string, body: string)

  /** A section as listed: its number, title, impact, table-of-contents
      anchor and rules. */
  datatype SectionEntry = SectionEntry(number: nat, title: string, impact: string, anchor: string, rules: seq<RuleEntry>)

  /** `str.lower()` on one character, for ASCII letters. */
  function LowerAscii(c: char): char {
    if 'A' <= c <= 'Z' then (c as int + 32) as char else c
  }

  /** `title.lower().replace(' ', '-')`, for ASCII letters. */
  function Slug(title: string): (slug: string)
    ensures |slug| == |title|
  {
    seq(|title|, k requires 0 <= k < |title| => if title[k] == ' ' then '-' else LowerAscii(title[k]))
  }

  /** The link target of a table-of-contents entry: `#`, the section number,
      `-`, and the slug of the title. */
  function Anchor(number: nat, title: string): string {
    "#" + NatToString(number) + "-" + Slug(title)
  }

  /** The text of a section heading after `## `: the number, `. `, the title. */
  function SectionHeadingText(number: nat, title: string): string {
    NatToString(number) + ". " + title
  }

  /** `sec.rule`, the label a rule carries in the table of contents and in its
      own heading. */
  function RuleLabel(section: nat, number: nat): string {
    NatToString(section) + "." + NatToString(number)
  }

  /** The rules of a section, numbered from 1 in the order of `files`: the
      inner `enumerate(files, 1)` loops. */
  function RuleEntries(section: nat, files: seq<string>, doc: string -> Stripped): (rules: seq<RuleEntry>)
    ensures |rules| == |files|
    ensures forall k :: 0 <= k < |rules| ==> rules[k].number == k + 1 && rules[k].section == section && rules[k].file == files[k]
    ensures forall k :: 0 <= k < |rules| ==>
      rules[k].title == doc(files[k]).title && rules[k].body == doc(files[k]).body
  {
    if |files| == 0 then []
    else
      var last := files[|files| - 1];
      var st := doc(last);
      RuleEntries(section, files[..|files| - 1], doc) + [RuleEntry(section, |files|, last, st.title, st.body)]
  }

  /** The entry a section gets at position `i` of the order, numbered `i + 1`. */
  function EntryFor(i: nat, sec: Section, byPrefix: map<string, seq<string>>, doc: string -> Stripped): (e: SectionEntry)
    ensures e.number == i + 1
  {
    SectionEntry(i + 1, sec.title, sec.impact, Anchor(i + 1, sec.title), RuleEntries(i + 1, Group(byPrefix, sec.prefix), doc))
  }

  /** The entry the section at position `i` of `order` gets. */
  function EntryAt(order: seq<Section>, byPrefix: map<string, seq<string>>, doc: string -> Stripped, i: nat): SectionEntry
    requires i < |order|
  {
    EntryFor(i, order[i], byPrefix, doc)
  }

  /** A walk over `items` from position `i` on that skips the items `keep`
      rejects and turns each other one, with its position, into an entry. */
  function Listing<S, E>(items: seq<S>, keep: S -> bool, entry: (nat, S) -> E, i: nat): seq<E>
    requires i <= |items|
    decreases |items| - i
  {
    if i == |items| then []
    else if !keep(items[i]) then Listing(items, keep, entry, i + 1)
    else [entry(i, items[i])] + Listing(items, keep, entry, i + 1)
  }

  /** The two `enumerate(SECTION_ORDER, 1)` loops from position `i` of `order`
      on: a section without files is skipped, and the others keep their
      position. */
  function SectionsFrom(order: seq<Section>, byPrefix: map<string, seq<string>>, doc: string -> Stripped, i: nat): seq<SectionEntry>
    requires i <= |order|
  {
    Listing(order, (sec: Section) => Group(byPrefix, sec.prefix) != [], (k: nat, sec: Section) => EntryFor(k, sec, byPrefix, doc), i)
  }

  /** The sections AGENTS.md lists, in order. */
  function Index(byPrefix: map<string, seq<string>>, doc: string -> Stripped): seq<SectionEntry> {
    SectionsFrom(SectionOrder, byPrefix, doc, 0)
  }

  /** One step of a listing: the item at `i` is skipped or listed first. */
  lemma ListingStep<S, E>(items: seq<S>, keep: S -> bool, entry: (nat, S) -> E, i: nat)
    requires i < |items|
    ensures !keep(items[i]) ==> Listing(items, keep, entry, i) == Listing(items, keep, entry, i + 1)
    ensures keep(items[i]) ==> Listing(items, keep, entry, i) == [entry(i, items[i])] + Listing(items, keep, entry, i + 1)
  {
  }

  /** Every entry listed from position `i` on is the entry of a kept item at
      a position `j >= i`, which `key` recovers as `j + 1`. */
  lemma {:induction false} ListingSound<S, E>(items: seq<S>, keep: S -> bool, entry: (nat, S) -> E, key: E -> nat, i: nat)
    requires i <= |items|
    requires forall k: nat, x: S :: key(entry(k, x)) == k + 1
    ensures forall e :: e in Listing(items, keep, entry, i) ==>
      i < key(e) <= |items| && e == entry(key(e) - 1, items[key(e) - 1]) && keep(items[key(e) - 1])
    decreases |items| - i
  {
    if i < |items| {
      ListingSound(items, keep, entry, key, i + 1);
      ListingStep(items, keep, entry, i);
    }
  }

  /** Where the entry of a kept item at position `j` stands in the listing
      from `i` on. */
  lemma {:induction false} ListingAt<S, E>(items: seq<S>, keep: S -> bool, entry: (nat, S) -> E, i: nat, j: nat)
      returns (idx: nat)
    requires i <= j < |items| && keep(items[j])
    ensures idx < |Listing(items, keep, entry, i)|
    ensures Listing(items, keep, entry, i)[idx] == entry(j, items[j])
    decreases j - i
  {
    ListingStep(items, keep, entry, i);
    if i == j {
      idx := 0;
    } else {
      var later := ListingAt(items, keep, entry, i + 1, j);
      idx := if keep(items[i]) then later + 1 else later;
    }
  }

  /** The keys of the entries increase along `es`. */
  ghost predicate KeysIncrease<E>(es: seq<E>, key: E -> nat) {
    forall k, l :: 0 <= k < l < |es| ==> key(es[k]) < key(es[l])
  }

  /** The keys of a listing increase when each entry's key is its position plus one. */
  lemma {:induction false} ListingIncreasing<S, E>(items: seq<S>, keep: S -> bool, entry: (nat, S) -> E, key: E -> nat, i: nat)
    requires i <= |items|
    requires forall k: nat, x: S :: key(entry(k, x)) == k + 1
    ensures KeysIncrease(Listing(items, keep, entry, i), key)
    decreases |items| - i
  {
    if i < |items| {
      ListingIncreasing(items, keep, entry, key, i + 1);
      ListingSound(items, keep, entry, key, i + 1);
      ListingStep(items, keep, entry, i);
      if keep(items[i]) {
        ConsIncreasing(entry(i, items[i]), Listing(items, keep, entry, i + 1), key);
      }
    }
  }

  lemma ConsIncreasing<E>(head: E, rest: seq<E>, key: E -> nat)
    requires KeysIncrease(rest, key)
    requires forall e :: e in rest ==> key(head) < key(e)
    ensures KeysIncrease([head] + rest, key)
  {
    var es := [head] + rest;
    forall k, l | 0 <= k < l < |es|
      ensures key(es[k]) < key(es[l])
    {
      assert es[l] == rest[l - 1] && es[l] in rest;
      if k > 0 {
        assert es[k] == rest[k - 1];
      }
    }
  }

  /** Every section is numbered above the ones before it. */
  ghost predicate NumbersIncrease(es: seq<SectionEntry>) {
    forall k, l :: 0 <= k < l < |es| ==> es[k].number < es[l].number
  }

  /** Section numbers are positions in `SECTION_ORDER`, counted from 1: a
      section is listed, as the entry of its position, exactly when its group
      has files; the numbers increase, and are not closed up when a section is
      skipped. */
  lemma SectionNumbers(byPrefix: map<string, seq<string>>, doc: string -> Stripped)
    ensures forall e :: e in Index(byPrefix, doc) ==>
      1 <= e.number <= |SectionOrder| && e == EntryAt(SectionOrder, byPrefix, doc, e.number - 1)
    ensures forall i :: 0 <= i < |SectionOrder| ==>
      (EntryAt(SectionOrder, byPrefix, doc, i) in Index(byPrefix, doc) <==> Group(byPrefix, SectionOrder[i].prefix) != [])
    ensures NumbersIncrease(Index(byPrefix, doc))
  {
    OrderNumbers(SectionOrder, byPrefix, doc);
  }

  lemma OrderNumbers(order: seq<Section>, byPrefix: map<string, seq<string>>, doc: string -> Stripped)
    ensures forall e :: e in SectionsFrom(order, byPrefix, doc, 0) ==>
      1 <= e.number <= |order| && e == EntryAt(order, byPrefix, doc, e.number - 1)
    ensures forall i :: 0 <= i < |order| ==>
      (EntryAt(order, byPrefix, doc, i) in SectionsFrom(order, byPrefix, doc, 0) <==> Group(byPrefix, order[i].prefix) != [])
    ensures NumbersIncrease(SectionsFrom(order, byPrefix, doc, 0))
  {
    forall e | e in SectionsFrom(order, byPrefix, doc, 0)
      ensures 1 <= e.number <= |order| && e == EntryAt(order, byPrefix, doc, e.number - 1)
      ensures Group(byPrefix, order[e.number - 1].prefix) != []
    {
      ListedIsEntry(order, byPrefix, doc, e);
    }
    forall i | 0 <= i < |order| && Group(byPrefix, order[i].prefix) != []
      ensures EntryAt(order, byPrefix, doc, i) in SectionsFrom(order, byPrefix, doc, 0)
    {
      EntryIsListed(order, byPrefix, doc, i);
    }
    ListedIncreasing(order, byPrefix, doc);
  }

  /** A listed section is the entry of its own position, and its group has files. */
  lemma ListedIsEntry(order: seq<Section>, byPrefix: map<string, seq<string>>, doc: string -> Stripped, e: SectionEntry)
    requires e in SectionsFrom(order, byPrefix, doc, 0)
    ensures 1 <= e.number <= |order| && e == EntryAt(order, byPrefix, doc, e.number - 1)
    ensures Group(byPrefix, order[e.number - 1].prefix) != []
  {
    var keep := (sec: Section) => Group(byPrefix, sec.prefix) != [];
    var entry := (k: nat, sec: Section) => EntryFor(k, sec, byPrefix, doc);
    var key := (e: SectionEntry) => e.number;
    ListingSound(order, keep, entry, key, 0);
    assert e in Listing(order, keep, entry, 0);
    var j := e.number - 1;
    assert e == entry(j, order[j]) && keep(order[j]);
  }

  /** A section whose group has files is listed, as the entry of its position. */
  lemma EntryIsListed(order: seq<Section>, byPrefix: map<string, seq<string>>, doc: string -> Stripped, i: nat)
    requires i < |order| && Group(byPrefix, order[i].prefix) != []
    ensures EntryAt(order, byPrefix, doc, i) in SectionsFrom(order, byPrefix, doc, 0)
  {
    var keep := (sec: Section) => Group(byPrefix, sec.prefix) != [];
    var entry := (k: nat, sec: Section) => EntryFor(k, sec, byPrefix, doc);
    var idx := ListingAt(order, keep, entry, 0, i);
    assert Listing(order, keep, entry, 0)[idx] == EntryAt(order, byPrefix, doc, i);
  }

  /** The numbers of the listed sections increase. */
  lemma ListedIncreasing(order: seq<Section>, byPrefix: map<string, seq<string>>, doc: string -> Stripped)
    ensures NumbersIncrease(SectionsFrom(order, byPrefix, doc, 0))
  {
    var keep := (sec: Section) => Group(byPrefix, sec.prefix) != [];
    var entry := (k: nat, sec: Section) => EntryFor(k, sec, byPrefix, doc);
    var key := (e: SectionEntry) => e.number;
    ListingIncreasing(order, keep, entry, key, 0);
    assert KeysIncrease(Listing(order, keep, entry, 0), key);
  }

  /** With no bundle rules, the first section listed is numbered 2. */
  lemma GapInNumbering(byPrefix: map<string, seq<string>>, doc: string -> Stripped)
    requires Group(byPrefix, "bundle") == [] && Group(byPrefix, "client") != []
    ensures |Index(byPrefix, doc)| >= 1 && Index(byPrefix, doc)[0].number == 2
  {
    var order := SectionOrder;
    assert order[0].prefix == "bundle" && order[1].prefix == "client";
    assert Index(byPrefix, doc) == SectionsFrom(order, byPrefix, doc, 1);
    assert SectionsFrom(order, byPrefix, doc, 1) == [EntryAt(order, byPrefix, doc, 1)] + SectionsFrom(order, byPrefix, doc, 2);
  }

  /** The files of a list of rules, in order. */
  function FilesOf(rules: seq<RuleEntry>): (files: seq<string>)
    ensures |files| == |rules|
  {
    seq(|rules|, m requires 0 <= m < |rules| => rules[m].file)
  }

  /** Inside the section at position `i`, built from the grouping of a
      directory listing, the rules are numbered 1, 2, ... in turn and carry the
      section's number; their files are exactly the section's rule files,
      sorted by name; each rule's title and body are what `strip_frontmatter`
      gives for the file's content. */
  lemma RulesNumbered(names: seq<string>, doc: string -> Stripped, i: nat)
    requires i < |SectionOrder|
    ensures var rules := EntryAt(SectionOrder, ByPrefix(names), doc, i).rules;
      && (forall k :: 0 <= k < |rules| ==> rules[k].number == k + 1 && rules[k].section == i + 1)
      && Sorted(FilesOf(rules))
      && multiset(FilesOf(rules)) == multiset(Members(names, SectionOrder[i].prefix))
      && (forall k :: 0 <= k < |rules| ==>
            rules[k].title == doc(rules[k].file).title && rules[k].body == doc(rules[k].file).body)
  {
    var prefix := SectionOrder[i].prefix;
    RuleFilesSorted(names, prefix, doc, i + 1);
  }

  /** What `main` does for each rule file: read its content and strip the
      front matter off it. */
  function ReadRule(read: string -> string): (string -> Stripped)
  {
    file => StripFrontmatter(read(file))
  }

  /** Every title `ReadRule` gives fits on the one line of the index that
      lists its rule, and carries no surrounding whitespace. */
  lemma ReadTitleOneLine(read: string -> string, file: string)
    ensures var t := ReadRule(read)(file).title;
      && '\n' !in t
      && (t == "" || (!IsWhitespace(t[0]) && !IsWhitespace(t[|t| - 1])))
  {
    var st := StripFrontmatter(read(file));
    assert ReadRule(read)(file) == st;
  }


  /** Built from the files as `main` reads them, each rule carries the title
      and body `strip_frontmatter` takes from its file's content. */
  lemma RulesFromFiles(byPrefix: map<string, seq<string>>, read: string -> string, i: nat)
    requires i < |SectionOrder|
    ensures var rules := EntryAt(SectionOrder, byPrefix, ReadRule(read), i).rules;
      forall k :: 0 <= k < |rules| ==>
        rules[k].title == StripFrontmatter(read(rules[k].file)).title && rules[k].body == StripFrontmatter(read(rules[k].file)).body
  {
  }

  /** A rule listed from a file whose document is that file read and stripped
      of its frontmatter, as `ReadRule` gives it, is titled with the text of
      the file's first `## ` line after the frontmatter; its body is the rest
      of that text, that line removed and the whole stripped. */
  lemma RuleTitleFromFile(section: nat, files: seq<string>, read: string -> string, doc: string -> Stripped, k: nat, h: nat)
    requires k < |files| && doc(files[k]) == StripFrontmatter(read(files[k]))
    requires var lines := Lines(BodyAfterFrontmatter(read(files[k])));
      && h < |lines| && IsHeading(lines[h]) && HeadingText(lines[h]) != ""
      && forall m :: 0 <= m < h ==> !IsHeading(lines[m])
    ensures var lines := Lines(BodyAfterFrontmatter(read(files[k])));
      RuleEntries(section, files, doc)[k].title == HeadingText(lines[h])
    ensures var lines := Lines(BodyAfterFrontmatter(read(files[k])));
      RuleEntries(section, files, doc)[k].body == Strip(Join(lines[..h] + lines[h + 1..], '\n'))
  {
    RuleOfFile(section, files, doc, k);
    TitleFromFirstHeading(read(files[k]), h);
  }

  lemma RuleOfFile(section: nat, files: seq<string>, doc: string -> Stripped, k: nat)
    requires k < |files|
    ensures RuleEntries(section, files, doc)[k].title == doc(files[k]).title
    ensures RuleEntries(section, files, doc)[k].body == doc(files[k]).body
  {
  }

  lemma RuleFilesSorted(names: seq<string>, prefix: string, doc: string -> Stripped, section: nat)
    ensures var rules := RuleEntries(section, Group(ByPrefix(names), prefix), doc);
      && Sorted(FilesOf(rules))
      && multiset(FilesOf(rules)) == multiset(Members(names, prefix))
  {
    var group := Group(ByPrefix(names), prefix);
    assert FilesOf(RuleEntries(section, group, doc)) == group;
    if prefix !in Prefixes(names) {
      MembersAbsent(names, prefix);
    }
  }

  /** ASCII letters, digits, spaces, `-` and `_`: the characters a section
      title may use for its anchor to come out as the heading's id. */
  predicate AnchorSafe(title: string) {
    forall k :: 0 <= k < |title| ==> AnchorSafeChar(title[k])
  }

  predicate AnchorSafeChar(c: char) {
    ('a' <= c <= 'z') || ('A' <= c <= 'Z') || IsDigit(c) || c == ' ' || c == '-' || c == '_'
  }

  /** The id a Markdown renderer such as GitHub's derives from a heading text,
      on ASCII text: letters lower-cased, digits, `-` and `_` kept, spaces
      turned into `-`, and every other character dropped. The renderer also
      keeps non-ASCII letters and digits; every use here is on text that
      `AnchorSafe` admits, which has none. */
  function HeadingId(text: string): string
  {
    if |text| == 0 then ""
    else
      var c := text[0];
      var rest := HeadingId(text[1..]);
      if c == ' ' then "-" + rest
      else if AnchorSafeChar(c) then [LowerAscii(c)] + rest
      else rest
  }

  lemma {:induction false} HeadingIdConcat(a: string, b: string)
    ensures HeadingId(a + b) == HeadingId(a) + HeadingId(b)
  {
    if |a| > 0 {
      assert (a + b)[1..] == a[1..] + b;
      HeadingIdConcat(a[1..], b);
    } else {
      assert a + b == b;
    }
  }

  /** On a safe title the heading id is the slug. */
  lemma {:induction false} HeadingIdOfSafe(title: string)
    requires AnchorSafe(title)
    ensures HeadingId(title) == Slug(title)
  {
    if |title| > 0 {
      HeadingIdOfSafe(title[1..]);
      assert Slug(title) == [Slug(title)[0]] + Slug(title[1..]);
    }
  }

  /** A section's table-of-contents anchor is `#` followed by the id of its
      heading `## n. Title`, so the link lands on that heading. */
  lemma AnchorMatchesHeading(number: nat, title: string)
    requires AnchorSafe(title)
    ensures Anchor(number, title) == "#" + HeadingId(SectionHeadingText(number, title))
  {
    IdOfHeadingText(NatToString(number), title);
  }

  lemma IdOfHeadingText(n: string, title: string)
    requires forall k :: 0 <= k < |n| ==> IsDigit(n[k])
    requires AnchorSafe(title)
    ensures "#" + HeadingId(n + ". " + title) == "#" + n + "-" + Slug(title)
  {
    HeadingTextId(n, title);
    NumeralId(n);
    DotSpaceId();
    HeadingIdOfSafe(title);
    ConcatAssoc("#", n, "-", Slug(title));
  }

  lemma ConcatAssoc<T>(a: seq<T>, b: seq<T>, c: seq<T>, d: seq<T>)
    ensures a + (b + (c + d)) == a + b + c + d
  {
  }

  /** The id of `n. title` is put together from the ids of its three parts. */
  lemma HeadingTextId(n: string, title: string)
    ensures HeadingId(n + ". " + title) == HeadingId(n) + (HeadingId(". ") + HeadingId(title))
  {
    assert n + ". " + title == n + (". " + title);
    HeadingIdConcat(n, ". " + title);
    HeadingIdConcat(". ", title);
  }

  lemma DotSpaceId()
    ensures HeadingId(". ") == "-"
  {
    var d := ". ";
    var e := " ";
    assert d[1..] == e && e[1..] == "";
  }

  /** The decimal numeral of a number is its own heading id. */
  lemma NumeralId(n: string)
    requires forall k :: 0 <= k < |n| ==> IsDigit(n[k])
    ensures HeadingId(n) == n
  {
    assert AnchorSafe(n);
    HeadingIdOfSafe(n);
    NumeralUnchanged(n);
  }

  /** A numeral is its own slug. */
  lemma NumeralUnchanged(n: string)
    requires forall k :: 0 <= k < |n| ==> IsDigit(n[k])
    ensures Slug(n) == n
  {
  }

  /** Every title in `SECTION_ORDER` is safe, so every table-of-contents link
      of AGENTS.md lands on its section heading. */
  lemma SectionTitlesSafe(i: nat)
    requires i < |SectionOrder|
    ensures AnchorSafe(SectionOrder[i].title)
    ensures Anchor(i + 1, SectionOrder[i].title) == "#" + HeadingId(SectionHeadingText(i + 1, SectionOrder[i].title))
  {
    assert AnchorSafe(SectionOrder[i].title) by {
      TitleSafe(i);
    }
    AnchorMatchesHeading(i + 1, SectionOrder[i].title);
  }

  lemma TitleSafe(i: nat)
    requires i < |SectionOrder|
    ensures AnchorSafe(SectionOrder[i].title)
  {
    if i == 0 { BundleTitleSafe(); }
    else if i == 1 { ClientTitleSafe(); }
    else if i == 2 { RerenderTitleSafe(); }
    else if i == 3 { RenderingTitleSafe(); }
    else { AdvancedTitleSafe(); }
  }

  lemma BundleTitleSafe() ensures AnchorSafe("Bundle Size Optimization") {}
  lemma ClientTitleSafe() ensures AnchorSafe("Client-Side Data Fetching") {}
  lemma RerenderTitleSafe() ensures AnchorSafe("Re-render Optimization") {}
  lemma RenderingTitleSafe() ensures AnchorSafe("Rendering Performance") {}
  lemma AdvancedTitleSafe() ensures AnchorSafe("Advanced Patterns") {}

  /** A rule label splits at its `.` into the section and rule numerals, so
      distinct rules of AGENTS.md get distinct labels. */
  lemma RuleLabelRoundTrip(section: nat, number: nat)
    ensures var parts := SplitAtMost(RuleLabel(section, number), ".", 1);
      && |parts| == 2
      && (forall k :: 0 <= k < |parts[0]| ==> IsDigit(parts[0][k])) && ParseDecimal(parts[0]) == section
      && (forall k :: 0 <= k < |parts[1]| ==> IsDigit(parts[1][k])) && ParseDecimal(parts[1]) == number
  {
    var s := NatToString(section);
    var written := RuleLabel(section, number);
    FindCharIsIndex(written, '.', 0);
    assert IndexFrom(written, '.', 0) == |s| by {
      assert written[|s|] == '.';
      assert forall k :: 0 <= k < |s| ==> written[k] == s[k] && IsDigit(s[k]);
    }
    assert written[..|s|] == s;
    assert written[|s| + 1..] == NatToString(number);
    assert SplitAtMost(written[|s| + 1..], ".", 0) == [written[|s| + 1..]];
    DecimalRoundTrip(section);
    DecimalRoundTrip(number);
  }
}

=== FILE: audit.dfy ===
/**
 The audit half of the fancy-quotes auditor: straight quotes in prose (outside
 fences and inline code) and fancy quotes inside fenced code are reported with
 1-based line and column numbers, and a document passes when neither list has
 an entry.
 */
module Audit {
  import opened Text
  import opened InlineCode
  import opened Fences
  import opened Quotes
  import opened Positions
  import opened CodeQuotes

  /** The straight quotes of `xs`, in their order. */
  function KeepStraight(xs: seq<Located>): (r: seq<Located>)
    ensures forall k :: 0 <= k < |r| ==> r[k] in xs && IsStraightQuote(r[k].c)
    ensures forall x :: x in xs && IsStraightQuote(x.c) ==> x in r
    ensures Increasing(xs) ==> Increasing(r)
  {
    if |xs| == 0 then []
    else
      var rest := KeepStraight(xs[1..]);
      KeepSoundStep(xs, rest);
      KeepCompleteStep(xs, rest);
      KeepIncreasingStep(xs, rest);
      KeepOne(xs[0]) + rest
  }

  /** `x` alone if it is a straight quote, nothing otherwise. */
  function KeepOne(x: Located): seq<Located> {
    if IsStraightQuote(x.c) then [x] else []
  }

  lemma KeepSoundStep(xs: seq<Located>, rest: seq<Located>)
    requires |xs| > 0
    requires forall k :: 0 <= k < |rest| ==> rest[k] in xs[1..] && IsStraightQuote(rest[k].c)
    ensures forall k :: 0 <= k < |KeepOne(xs[0]) + rest| ==>
              (KeepOne(xs[0]) + rest)[k] in xs && IsStraightQuote((KeepOne(xs[0]) + rest)[k].c)
  {
    var r := KeepOne(xs[0]) + rest;
    forall k | 0 <= k < |r|
      ensures r[k] in xs && IsStraightQuote(r[k].c)
    {
      if k < |KeepOne(xs[0])| {
        assert r[k] == xs[0];
      } else {
        assert r[k] == rest[k - |KeepOne(xs[0])|];
        assert r[k] in xs[1..];
      }
    }
  }

  lemma KeepCompleteStep(xs: seq<Located>, rest: seq<Located>)
    requires |xs| > 0
    requires forall x :: x in xs[1..] && IsStraightQuote(x.c) ==> x in rest
    ensures forall x :: x in xs && IsStraightQuote(x.c) ==> x in KeepOne(xs[0]) + rest
  {
    forall x | x in xs && IsStraightQuote(x.c)
      ensures x in KeepOne(xs[0]) + rest
    {
      if x != xs[0] {
        assert x in xs[1..];
      }
    }
  }

  lemma KeepIncreasingStep(xs: seq<Located>, rest: seq<Located>)
    requires |xs| > 0
    requires forall k :: 0 <= k < |rest| ==> rest[k] in xs[1..]
    requires Increasing(xs[1..]) ==> Increasing(rest)
    ensures Increasing(xs) ==> Increasing(KeepOne(xs[0]) + rest)
  {
    if Increasing(xs) {
      assert Increasing(xs[1..]);
      forall k | 0 <= k < |rest|
        ensures xs[0].offset < rest[k].offset
      {
        var l :| 1 <= l < |xs| && xs[l] == rest[k];
      }
    }
  }

  /** `find_straight_quotes_in_prose`: exactly the straight quotes among the
      characters `iter_prose_offsets` yields, in the same order. */
  function FindStraightQuotesInProse(prose: string): (r: seq<Located>)
    ensures Increasing(r)
    ensures forall k :: 0 <= k < |r| ==> r[k] in ProseFrom(prose, 0) && IsStraightQuote(r[k].c)
    ensures forall x :: x in ProseFrom(prose, 0) && IsStraightQuote(x.c) ==> x in r
  {
    ProseFromFacts(prose, 0);
    KeepStraight(ProseFrom(prose, 0))
  }

  /** Two increasing sequences with the same elements are equal, so the three
      properties above determine the result of `FindStraightQuotesInProse`. */
  lemma {:induction false} IncreasingUnique(a: seq<Located>, b: seq<Located>)
    requires Increasing(a) && Increasing(b)
    requires forall x :: x in a <==> x in b
    ensures a == b
  {
    if |a| > 0 && |b| > 0 {
      assert a[0] == b[0] by {
        assert a[0] in b && b[0] in a;
      }
      forall x
        ensures x in a[1..] <==> x in b[1..]
      {
        if x in a[1..] {
          assert x in b && x != b[0];
        }
        if x in b[1..] {
          assert x in a && x != a[0];
        }
      }
      IncreasingUnique(a[1..], b[1..]);
      assert a == [a[0]] + a[1..];
      assert b == [b[0]] + b[1..];
    } else {
      EmptyWhenNoMembers(a);
      EmptyWhenNoMembers(b);
    }
  }

  lemma EmptyWhenNoMembers(s: seq<Located>)
    ensures |s| == 0 <==> forall x :: x !in s
  {
    if |s| > 0 {
      assert s[0] in s;
    }
  }

  /** A fancy quote found inside a fence is the character at its offset, and
      `line_and_column` places it on its fenced line. */
  lemma FancyReportLocates(content: string, x: Located)
    requires FancyInFence(Lines(content), Kinds(Lines(content)), x)
    ensures x.offset < |content| && content[x.offset] == x.c
    ensures PointsIntoFence(content, Finding(LineAndColumn(content, x.offset), x.c))
  {
    FancyCharAt(content, x);
    FancyFindingAt(content, x);
  }

  lemma FancyCharAt(content: string, x: Located)
    requires FancyInFence(Lines(content), Kinds(Lines(content)), x)
    ensures x.offset < |content| && content[x.offset] == x.c
  {
    var i, j := FancySpot(Lines(content), Kinds(Lines(content)), x);
    CharAtPosition(content, x.offset, i, j, x.c);
  }

  lemma CharAtPosition(content: string, o: nat, i: nat, j: nat, c: char)
    requires i < |Lines(content)| && j < |Lines(content)[i]| && o == LineStart(Lines(content), i) + j
    requires Lines(content)[i][j] == c
    ensures o < |content| && content[o] == c
  {
    CharOfLine(content, i, j);
  }

  lemma FancyFindingAt(content: string, x: Located)
    requires FancyInFence(Lines(content), Kinds(Lines(content)), x)
    ensures PointsIntoFence(content, Finding(LineAndColumn(content, x.offset), x.c))
  {
    var i, j := FancySpot(Lines(content), Kinds(Lines(content)), x);
    FancyPosition(content, x.offset, i, j, x.c);
  }

  lemma FancyPosition(content: string, o: nat, i: nat, j: nat, c: char)
    requires i < |Lines(content)| && j < |Lines(content)[i]| && o == LineStart(Lines(content), i) + j
    requires FancyAt(Lines(content), Kinds(Lines(content)), i, j) && Lines(content)[i][j] == c
    ensures PointsIntoFence(content, Finding(LineAndColumn(content, o), c))
  {
    PositionOfLineStart(content, i, j);
    FencedPosition(content, i, j, c);
  }

  /** The line and column of a fancy quote found in a fence. */
  lemma FancySpot(lines: seq<string>, kinds: seq<LineKind>, x: Located) returns (i: nat, j: nat)
    requires FancyInFence(lines, kinds, x)
    ensures i < |lines| && j < |lines[i]| && x.offset == LineStart(lines, i) + j
    ensures FancyAt(lines, kinds, i, j) && lines[i][j] == x.c
  {
    i := LineOf(lines, x.offset);
    j := x.offset - LineStart(lines, i);
  }

  lemma FancyReportAt(content: string, fancy: seq<Located>, k: nat)
    requires forall k :: 0 <= k < |fancy| ==> FancyInFence(Lines(content), Kinds(Lines(content)), fancy[k])
    requires k < |fancy|
    ensures PointsIntoFence(content, Finding(LineAndColumn(content, fancy[k].offset), fancy[k].c))
  {
    FancyReportLocates(content, fancy[k]);
  }

  lemma FencedPosition(content: string, i: nat, j: nat, c: char)
    requires FancyAt(Lines(content), Kinds(Lines(content)), i, j) && Lines(content)[i][j] == c
    ensures PointsIntoFence(content, Finding(Position(i + 1, j + 1), c))
  {
  }

  /** A straight quote found in the prose text lies on a line that is prose in
      the original document, at the line and column `line_and_column` gives: the
      blanking of fences keeps line numbers, though not offsets. */
  lemma StraightReportLocates(content: string, x: Located)
    requires x in FindStraightQuotesInProse(GetProseContent(content))
    ensures PointsAtProse(content, Finding(LineAndColumn(GetProseContent(content), x.offset), x.c))
  {
    var prose := GetProseContent(content);
    StraightFoundAt(prose, x);
    var i, j := ProseCharLine(prose, x.offset);
    ProseLineKept(content, i);
    ProsePosition(content, i, j, x.c);
  }

  /** A straight quote the scan finds is that character of the text it scans. */
  lemma StraightFoundAt(prose: string, x: Located)
    requires x in FindStraightQuotesInProse(prose)
    ensures x.offset < |prose| && prose[x.offset] == x.c && IsStraightQuote(x.c)
  {
    assert x in ProseFrom(prose, 0);
    ProseFromFacts(prose, 0);
  }

  /** A character that is not a line feed sits on line `i` at column `j`, both
      counted from 0, and `line_and_column` reports them counted from 1. */
  lemma ProseCharLine(prose: string, o: nat) returns (i: nat, j: nat)
    requires o < |prose| && prose[o] != '\n'
    ensures i < |Lines(prose)| && j < |Lines(prose)[i]| && Lines(prose)[i][j] == prose[o]
    ensures LineAndColumn(prose, o) == Position(i + 1, j + 1)
  {
    var lines := Lines(prose);
    PositionOfChar(prose, o);
    i := LineOf(lines, o);
    j := o - LineStart(lines, i);
  }

  lemma ProsePosition(content: string, i: nat, j: nat, c: char)
    requires i < |Lines(content)| && Kinds(Lines(content))[i] == Prose
    requires j < |Lines(content)[i]| && Lines(content)[i][j] == c
    ensures PointsAtProse(content, Finding(Position(i + 1, j + 1), c))
  {
  }

  /** A report of the audit: where the character is and which it is. */
  datatype Finding = Finding(at: Position, c: char)

  /** The result of `audit_file` for a document that could be read. */
  datatype AuditReport = AuditReport(straightInProse: seq<Finding>, fancyInCode: seq<Finding>, ok: bool)

  /** `f` names a line of `content` that is prose, and a column of it holding `f.c`. */
  ghost predicate PointsAtProse(content: string, f: Finding) {
    && 1 <= f.at.line <= |Lines(content)|
    && Kinds(Lines(content))[f.at.line - 1] == Prose
    && 1 <= f.at.col <= |Lines(content)[f.at.line - 1]|
    && Lines(content)[f.at.line - 1][f.at.col - 1] == f.c
  }

  /** `f` names a line of `content` strictly inside a fence, and a column of it holding `f.c`. */
  ghost predicate PointsIntoFence(content: string, f: Finding) {
    && 1 <= f.at.line <= |Lines(content)|
    && Kinds(Lines(content))[f.at.line - 1].Fenced?
    && 1 <= f.at.col <= |Lines(content)[f.at.line - 1]|
    && Lines(content)[f.at.line - 1][f.at.col - 1] == f.c
  }

  /** No straight quote is left in the prose the audit scans. */
  ghost predicate ProseIsClean(content: string) {
    forall x :: x in ProseFrom(GetProseContent(content), 0) ==> !IsStraightQuote(x.c)
  }

  /** No fancy quote sits on a line inside a fence. */
  ghost predicate FencesAreClean(content: string) {
    forall i: nat, j: nat {:trigger FancyAt(Lines(content), Kinds(Lines(content)), i, j)} ::
      !FancyAt(Lines(content), Kinds(Lines(content)), i, j)
  }

  /** The straight quotes of the prose text, each with its line and column. */
  function LocateStraight(content: string, straight: seq<Located>): (found: seq<Finding>)
    requires forall x :: x in straight ==> x in FindStraightQuotesInProse(GetProseContent(content))
    ensures |found| == |straight|
    ensures forall f :: f in found ==> PointsAtProse(content, f) && IsStraightQuote(f.c)
  {
    var prose := GetProseContent(content);
    var found := seq(|straight|, k requires 0 <= k < |straight| => Finding(LineAndColumn(prose, straight[k].offset), straight[k].c));
    assert forall f :: f in found ==> PointsAtProse(content, f) && IsStraightQuote(f.c) by {
      forall f | f in found
        ensures PointsAtProse(content, f) && IsStraightQuote(f.c)
      {
        var k :| 0 <= k < |found| && found[k] == f;
        assert straight[k] in straight;
        StraightReportLocates(content, straight[k]);
      }
    }
    found
  }

  /** The fancy quotes found in fences, each with its line and column. */
  function LocateFancy(content: string, fancy: seq<Located>): (found: seq<Finding>)
    requires forall k :: 0 <= k < |fancy| ==> FancyInFence(Lines(content), Kinds(Lines(content)), fancy[k])
    ensures |found| == |fancy|
    ensures forall f :: f in found ==> PointsIntoFence(content, f) && IsFancyQuote(f.c)
  {
    var found := seq(|fancy|, k requires 0 <= k < |fancy| => Finding(LineAndColumn(content, fancy[k].offset), fancy[k].c));
    assert forall f :: f in found ==> PointsIntoFence(content, f) && IsFancyQuote(f.c) by {
      forall f | f in found
        ensures PointsIntoFence(content, f) && IsFancyQuote(f.c)
      {
        var k :| 0 <= k < |found| && found[k] == f;
        FancyReportAt(content, fancy, k);
      }
    }
    found
  }

  /** `audit_file` on content already read: every report names a line and column
      of the document holding the offending character, and the document is `ok`
      exactly when its prose has no straight quote and its fences no fancy one. */
  method AuditFile(content: string) returns (report: AuditReport)
    ensures report.ok <==> report.straightInProse == [] && report.fancyInCode == []
    ensures report.ok <==> ProseIsClean(content) && FencesAreClean(content)
    ensures forall f :: f in report.straightInProse ==> PointsAtProse(content, f) && IsStraightQuote(f.c)
    ensures forall f :: f in report.fancyInCode ==> PointsIntoFence(content, f) && IsFancyQuote(f.c)
  {
    var prose := GetProseContent(content);
    var straight := FindStraightQuotesInProse(prose);
    var fancy := FindFancyInCode(content);
    var straightWithLoc := LocateStraight(content, straight);
    var fancyWithLoc := LocateFancy(content, fancy);
    CleanIffNothingFound(content, straight, fancy);
    report := AuditReport(straightWithLoc, fancyWithLoc, straightWithLoc == [] && fancyWithLoc == []);
  }

  /** The audit finds nothing exactly when the document is clean. */
  lemma CleanIffNothingFound(content: string, straight: seq<Located>, fancy: seq<Located>)
    requires straight == FindStraightQuotesInProse(GetProseContent(content))
    requires fancy == FanciesInFences(Lines(content), Kinds(Lines(content)), |Lines(content)|)
    ensures straight == [] <==> ProseIsClean(content)
    ensures fancy == [] <==> FencesAreClean(content)
  {
    StraightIffProseClean(content);
    FancyIffFencesClean(Lines(content), Kinds(Lines(content)));
  }

  lemma StraightIffProseClean(content: string)
    ensures FindStraightQuotesInProse(GetProseContent(content)) == [] <==> ProseIsClean(content)
  {
    var straight := FindStraightQuotesInProse(GetProseContent(content));
    HeadIsElement(straight);
  }

  lemma FancyIffFencesClean(lines: seq<string>, kinds: seq<LineKind>)
    requires |lines| >= 1 && |kinds| == |lines|
    ensures FanciesInFences(lines, kinds, |lines|) == [] <==>
      forall i: nat, j: nat {:trigger FancyAt(lines, kinds, i, j)} :: !FancyAt(lines, kinds, i, j)
  {
    var fancy := FanciesInFences(lines, kinds, |lines|);
    FanciesInFencesSound(lines, kinds, |lines|);
    FanciesInFencesComplete(lines, kinds, |lines|);
    HeadIsElement(fancy);
  }
}

=== FILE: avoid.dfy ===
/**
 The "Avoid:" examples the quote fixer can be told to leave alone: a line whose
 straight quotes illustrate what not to write. The fixer cuts out the line
 around a quote with `rfind`/`find` and tests it with a regular expression and
 a substring search; both are written out here as predicates on strings.
 */
module Avoid {
  import opened Text
  import opened Shape

  /** A character of the class `[\s\-]`. */
  predicate DashOrSpace(c: char) {
    IsWhitespace(c) || c == '-'
  }

  /** The text left after the longest prefix of whitespace and hyphens. */
  function DropDashSpace(s: string): (r: string)
    ensures |r| <= |s| && r == s[|s| - |r|..]
    ensures forall k :: 0 <= k < |s| - |r| ==> DashOrSpace(s[k])
    ensures r == [] || !DashOrSpace(r[0])
  {
    if |s| > 0 && DashOrSpace(s[0]) then DropDashSpace(s[1..]) else s
  }

  /** `\*?Avoid\*?:` at the start of `t`. */
  predicate MarkerAtStart(t: string) {
    || StartsWith(t, "Avoid:")
    || StartsWith(t, "Avoid*:")
    || StartsWith(t, "*Avoid:")
    || StartsWith(t, "*Avoid*:")
  }

  /** `re.match(r"^[\s\-]*\*?Avoid\*?:", line)`, with the greedy prefix taken
      in one step: neither `*` nor `A` is in the class, so no shorter prefix can
      be followed by the marker. */
  predicate AvoidMarker(line: string) {
    MarkerAtStart(DropDashSpace(line))
  }

  /** The regular expression read as a search over every prefix length. */
  ghost predicate MarkerAfterSomePrefix(line: string) {
    exists k :: 0 <= k <= |line| && (forall m :: 0 <= m < k ==> DashOrSpace(line[m])) && MarkerAtStart(line[k..])
  }

  /** The greedy reading and the search agree. */
  lemma AvoidMarkerMatches(line: string)
    ensures AvoidMarker(line) <==> MarkerAfterSomePrefix(line)
  {
    var r := DropDashSpace(line);
    var d := |line| - |r|;
    if AvoidMarker(line) {
      assert line[d..] == r;
    }
    if MarkerAfterSomePrefix(line) {
      var k :| 0 <= k <= |line| && (forall m :: 0 <= m < k ==> DashOrSpace(line[m])) && MarkerAtStart(line[k..]);
      MarkerStartsPlainly(line[k..]);
      assert line[k..][0] == line[k];
      DropExactly(line, k);
    }
  }

  /** A prefix of whitespace and hyphens followed by neither is exactly the
      one `DropDashSpace` removes. */
  lemma {:induction false} DropExactly(line: string, k: nat)
    requires k <= |line| && forall m :: 0 <= m < k ==> DashOrSpace(line[m])
    requires k == |line| || !DashOrSpace(line[k])
    ensures DropDashSpace(line) == line[k..]
    decreases k
  {
    if k > 0 {
      assert DashOrSpace(line[0]);
      assert forall m :: 0 <= m < k - 1 ==> line[1..][m] == line[m + 1];
      assert k - 1 == |line[1..]| || line[1..][k - 1] == line[k];
      DropExactly(line[1..], k - 1);
      assert line[1..][k - 1..] == line[k..];
    }
  }

  /** A marker starts with `A` or `*`, neither of which the prefix may hold. */
  lemma MarkerStartsPlainly(t: string)
    requires MarkerAtStart(t)
    ensures |t| > 0 && !DashOrSpace(t[0])
  {
    assert t[0] == t[..6][0];
  }

  /** `"- Avoid:" in line[:20]` */
  predicate EarlyDashAvoid(line: string) {
    Contains(line[..if |line| < 20 then |line| else 20], "- Avoid:")
  }

  /** A line the fixer leaves alone when asked to skip "Avoid:" examples. */
  predicate AvoidLine(line: string) {
    AvoidMarker(line) || EarlyDashAvoid(line)
  }

  /** Where the fixer's cut around offset `i` starts: just after the last line
      feed before `i`, or at 0. */
  function CutStart(content: string, i: nat): (r: nat)
    requires i <= |content|
    ensures r <= i
  {
    LastIndexOf(content[..i], '\n') + 1
  }

  /** Where the fixer's cut around offset `i` ends: at the next line feed at or
      after `i`, or at the end of the text. */
  function CutEnd(content: string, i: nat): (r: nat)
    requires i <= |content|
    ensures i <= r <= |content|
  {
    var e := IndexFrom(content, '\n', i);
    if e == -1 then |content| else e
  }

  /** The line holding offset `i`, cut as the fixer cuts it. */
  function LineAround(content: string, i: nat): string
    requires i < |content|
  {
    content[CutStart(content, i)..CutEnd(content, i)]
  }

  /** For an offset that is not a line feed, the cut is exactly the line the
      offset lies on. */
  lemma LineAroundIsLine(content: string, i: nat)
    requires i < |content| && content[i] != '\n'
    ensures LineAround(content, i) == Lines(content)[LineOf(Lines(content), i)]
  {
    var lines := Lines(content);
    var l := LineOf(lines, i);
    var ls := LineStart(lines, l);
    AroundStart(content, i);
    AroundEnd(content, i);
    LineSlice(content, l);
    SameSlice(content, CutStart(content, i), CutEnd(content, i), ls, ls + |lines[l]|, lines[l]);
  }

  /** A slice between bounds equal to those of a known slice is that slice. */
  lemma SameSlice<T>(s: seq<T>, a: nat, b: nat, c: nat, d: nat, t: seq<T>)
    requires a <= b <= |s| && a == c && b == d && s[c..d] == t
    ensures s[a..b] == t
  {
  }

  /** Line `l` is the slice of the text from its start. */
  lemma LineSlice(content: string, l: nat)
    requires l < |Lines(content)|
    ensures var ls := LineStart(Lines(content), l);
      ls + |Lines(content)[l]| <= |content| && content[ls..ls + |Lines(content)[l]|] == Lines(content)[l]
  {
    var lines := Lines(content);
    var ls := LineStart(lines, l);
    CharAtLineStart(lines, '\n', l, |lines[l]|);
    forall j | 0 <= j < |lines[l]|
      ensures content[ls..ls + |lines[l]|][j] == lines[l][j]
    {
      CharOfLine(content, l, j);
    }
  }

  /** The cut starts where the line of offset `i` does. */
  lemma AroundStart(content: string, i: nat)
    requires i < |content|
    ensures var lines := Lines(content);
      var l := LineOf(lines, i);
      && CutStart(content, i) == LineStart(lines, l)
      && LineStart(lines, l) <= i <= LineStart(lines, l) + |lines[l]|
  {
    LocateOffset(Lines(content), '\n', i);
  }

  /** The cut ends where the line of offset `i` does. */
  lemma AroundEnd(content: string, i: nat)
    requires i < |content| && content[i] != '\n'
    ensures var lines := Lines(content);
      var l := LineOf(lines, i);
      CutEnd(content, i) == LineStart(lines, l) + |lines[l]|
  {
    var lines := Lines(content);
    var l := LineOf(lines, i);
    AroundStart(content, i);
    LineEnd(content, l, i);
    CharAtLineStart(lines, '\n', l, |lines[l]|);
  }

  /** The first line feed at or after an offset of line `l` ends that line;
      the last line has none. */
  lemma LineEnd(content: string, l: nat, i: nat)
    requires l < |Lines(content)|
    requires LineStart(Lines(content), l) <= i <= LineStart(Lines(content), l) + |Lines(content)[l]|
    requires i < |content| && content[i] != '\n'
    ensures var le := LineStart(Lines(content), l) + |Lines(content)[l]|;
      IndexFrom(content, '\n', i) == if l + 1 < |Lines(content)| then le else -1
  {
    var lines := Lines(content);
    var ls := LineStart(lines, l);
    var le := ls + |lines[l]|;
    CharAtLineStart(lines, '\n', l, |lines[l]|);
    var r := IndexFrom(content, '\n', i);
    if r != -1 && r < le {
      CharOfLine(content, l, r - ls);
    }
  }

  /** The patterns the "Avoid:" test looks for hold no quote. */
  lemma PatternsNoPlain()
    ensures NoPlain("Avoid:") && NoPlain("Avoid*:") && NoPlain("*Avoid:") && NoPlain("*Avoid*:")
    ensures NoPlain("- Avoid:")
  {
  }

  lemma {:induction false} DropDashSpaceSimilar(a: string, b: string)
    requires Similar(a, b)
    ensures Similar(DropDashSpace(a), DropDashSpace(b))
    decreases |a|
  {
    if |a| > 0 {
      WhitespaceAt(a, b, 0);
      SameAt(a, b, 0, '-');
      if DashOrSpace(a[0]) {
        SimilarSlice(a, b, 1, |a|);
        DropDashSpaceSimilar(a[1..], b[1..]);
      }
    }
  }

  /** Exchanging quotes does not change whether a line is an "Avoid:" example. */
  lemma AvoidLineSimilar(a: string, b: string)
    requires Similar(a, b)
    ensures AvoidLine(a) <==> AvoidLine(b)
  {
    AvoidMarkerSimilar(a, b);
    EarlyDashAvoidSimilar(a, b);
  }

  lemma AvoidMarkerSimilar(a: string, b: string)
    requires Similar(a, b)
    ensures AvoidMarker(a) <==> AvoidMarker(b)
  {
    DropDashSpaceSimilar(a, b);
    MarkerAtStartSimilar(DropDashSpace(a), DropDashSpace(b));
  }

  lemma MarkerAtStartSimilar(a: string, b: string)
    requires Similar(a, b)
    ensures MarkerAtStart(a) <==> MarkerAtStart(b)
  {
    PatternsNoPlain();
    StartsWithSimilar(a, b, "Avoid:");
    StartsWithSimilar(a, b, "Avoid*:");
    StartsWithSimilar(a, b, "*Avoid:");
    StartsWithSimilar(a, b, "*Avoid*:");
  }

  lemma EarlyDashAvoidSimilar(a: string, b: string)
    requires Similar(a, b)
    ensures EarlyDashAvoid(a) <==> EarlyDashAvoid(b)
  {
    PatternsNoPlain();
    var n := if |a| < 20 then |a| else 20;
    SimilarSlice(a, b, 0, n);
    FindFromSimilar(a[..n], b[..n], "- Avoid:", 0);
  }

  /** Exchanging quotes does not change the line cut around an offset, beyond
      its quotes. */
  lemma LineAroundSimilar(a: string, b: string, i: nat)
    requires Similar(a, b) && i < |a|
    ensures Similar(LineAround(a, i), LineAround(b, i))
  {
    SimilarSlice(a, b, 0, i);
    LastIndexOfSimilar(a[..i], b[..i], '\n');
    IndexFromSimilar(a, b, '\n', i);
    SimilarSlice(a, b, CutStart(a, i), CutEnd(a, i));
  }

  /** So whether the fixer skips an offset is the same in similar texts. */
  lemma AvoidAtSimilar(a: string, b: string, i: nat)
    requires Similar(a, b) && i < |a|
    ensures AvoidLine(LineAround(a, i)) <==> AvoidLine(LineAround(b, i))
  {
    LineAroundSimilar(a, b, i);
    AvoidLineSimilar(LineAround(a, i), LineAround(b, i));
  }

  /** The offsets below `n` at which `p` holds. */
  function OffsetsWhere(n: nat, p: nat -> bool): set<nat> {
    if n == 0 then {}
    else OffsetsWhere(n - 1, p) + (if p(n - 1) then {n - 1} else {})
  }

  lemma {:induction false} OffsetsWhereAt(n: nat, p: nat -> bool, i: nat)
    requires i < n
    ensures i in OffsetsWhere(n, p) <==> p(i)
  {
    if i < n - 1 {
      OffsetsWhereAt(n - 1, p, i);
    } else {
      OffsetsWhereBounded(n - 1, p);
    }
  }

  lemma {:induction false} OffsetsWhereBounded(n: nat, p: nat -> bool)
    ensures forall o :: o in OffsetsWhere(n, p) ==> o < n
  {
    if n > 0 {
      OffsetsWhereBounded(n - 1, p);
    }
  }

  lemma {:induction false} OffsetsWhereSame(n: nat, p: nat -> bool, q: nat -> bool)
    requires forall i :: 0 <= i < n ==> p(i) == q(i)
    ensures OffsetsWhere(n, p) == OffsetsWhere(n, q)
  {
    if n > 0 {
      OffsetsWhereSame(n - 1, p, q);
    }
  }

  /** The offsets of a text that lie on "Avoid:" lines. */
  function AvoidOffsets(content: string): set<nat> {
    OffsetsWhere(|content|, (i: nat) => i < |content| && AvoidLine(LineAround(content, i)))
  }

  /** An offset is in `AvoidOffsets` exactly when the line cut around it is an
      "Avoid:" line. */
  lemma AvoidOffsetsAt(content: string, i: nat)
    requires i < |content|
    ensures i in AvoidOffsets(content) <==> AvoidLine(LineAround(content, i))
  {
    OffsetsWhereAt(|content|, (i: nat) => i < |content| && AvoidLine(LineAround(content, i)), i);
  }

  /** Exchanging quotes leaves the "Avoid:" offsets as they were. */
  lemma AvoidOffsetsSimilar(a: string, b: string)
    requires Similar(a, b)
    ensures AvoidOffsets(a) == AvoidOffsets(b)
  {
    var p := (i: nat) => i < |a| && AvoidLine(LineAround(a, i));
    var q := (i: nat) => i < |b| && AvoidLine(LineAround(b, i));
    forall i | 0 <= i < |a|
      ensures p(i) == q(i)
    {
      AvoidAtSimilar(a, b, i);
    }
    OffsetsWhereSame(|a|, p, q);
  }

  /** A bold `**Avoid**:` marker is not one the regular expression accepts:
      it has two asterisks where the pattern allows one, and no `- Avoid:`
      appears in it. */
  lemma BoldMarkerNotAvoid(rest: string)
    requires '-' !in rest
    ensures !AvoidLine("**Avoid**:" + rest)
  {
    var line := "**Avoid**:" + rest;
    assert line[0] == '*' && line[1] == '*';
    assert DropDashSpace(line) == line;
    assert !MarkerAtStart(line) by {
      NotStartsWith(line, "Avoid:", 0);
      NotStartsWith(line, "Avoid*:", 0);
      NotStartsWith(line, "*Avoid:", 1);
      NotStartsWith(line, "*Avoid*:", 1);
    }
    var n := if |line| < 20 then |line| else 20;
    assert '-' !in line[..n] by {
      forall k | 0 <= k < n ensures line[..n][k] != '-' {
        if k >= 10 { assert line[k] == rest[k - 10]; }
      }
    }
    NoDashNoPattern(line[..n]);
  }

  /** A text without a hyphen does not contain `- Avoid:`. */
  lemma NoDashNoPattern(t: string)
    requires '-' !in t
    ensures !Contains(t, "- Avoid:")
  {
    FoundAtFirstChar(t, "- Avoid:", 0);
  }

  /** A text whose `k`-th character differs from the pattern's does not start
      with it. */
  lemma NotStartsWith(t: string, p: string, k: nat)
    requires k < |p| && k < |t| && t[k] != p[k]
    ensures !StartsWith(t, p)
  {
    assert |p| > |t| || t[..|p|][k] == t[k];
  }

  /** A list item `- Avoid: ...` is an "Avoid:" example. */
  lemma DashItemIsAvoid(rest: string)
    ensures AvoidLine("- Avoid:" + rest)
  {
    var line := "- Avoid:" + rest;
    assert StartsWith(line[0..], "- Avoid:");
    var n := if |line| < 20 then |line| else 20;
    assert line[..n][..8] == "- Avoid:";
    assert FindFrom(line[..n], "- Avoid:", 0) == 0;
  }

  /** `\*{0,2}Avoid\*{0,2}:` at the start of `t`: the marker with the bold
      `**Avoid**:` form admitted as well as the italic one. */
  predicate IntendedMarkerAtStart(t: string) {
    || MarkerAtStart(t)
    || StartsWith(t, "**Avoid:")
    || StartsWith(t, "**Avoid*:")
    || StartsWith(t, "**Avoid**:")
    || StartsWith(t, "Avoid**:")
    || StartsWith(t, "*Avoid**:")
  }

  /** The "Avoid:" test as its comment describes it: a line starting with
      `- Avoid:` or with the bold `**Avoid**` marker. */
  predicate IntendedAvoidLine(line: string) {
    IntendedMarkerAtStart(DropDashSpace(line)) || EarlyDashAvoid(line)
  }

  /** The intended test accepts a bold marker line, which the written one
      rejects (see `BoldMarkerNotAvoid`). */
  lemma BoldMarkerIsIntendedAvoid(rest: string)
    ensures IntendedAvoidLine("**Avoid**:" + rest)
  {
    var line := "**Avoid**:" + rest;
    assert line[0] == '*';
    assert DropDashSpace(line) == line;
    assert line[..10] == "**Avoid**:";
  }

  /** Every line the written test accepts, the intended one accepts too, and
      on a line without an asterisk the two tests agree. */
  lemma IntendedWidens(line: string)
    ensures AvoidLine(line) ==> IntendedAvoidLine(line)
    ensures '*' !in line ==> (IntendedAvoidLine(line) <==> AvoidLine(line))
  {
    var t := DropDashSpace(line);
    if '*' !in line && IntendedMarkerAtStart(t) && !MarkerAtStart(t) {
      if StartsWith(t, "Avoid**:") {
        StarAt(t, "Avoid**:", 5);
      } else if StartsWith(t, "*Avoid**:") {
        StarAt(t, "*Avoid**:", 0);
      } else if StartsWith(t, "**Avoid:") {
        StarAt(t, "**Avoid:", 0);
      } else if StartsWith(t, "**Avoid*:") {
        StarAt(t, "**Avoid*:", 0);
      } else {
        StarAt(t, "**Avoid**:", 0);
      }
      assert false;
    }
  }

  /** A text starting with a pattern holds each of the pattern's characters. */
  lemma StarAt(t: string, p: string, k: nat)
    requires StartsWith(t, p) && k < |p| && p[k] == '*'
    ensures '*' in t
  {
    assert t[..|p|][k] == t[k];
  }

  /** The offsets of a text that lie on lines the intended test accepts. */
  function IntendedAvoidOffsets(content: string): set<nat> {
    OffsetsWhere(|content|, (i: nat) => i < |content| && IntendedAvoidLine(LineAround(content, i)))
  }

  /** An offset is in `IntendedAvoidOffsets` exactly when the line cut around
      it passes the intended test. */
  lemma IntendedAvoidOffsetsAt(content: string, i: nat)
    requires i < |content|
    ensures i in IntendedAvoidOffsets(content) <==> IntendedAvoidLine(LineAround(content, i))
  {
    OffsetsWhereAt(|content|, (i: nat) => i < |content| && IntendedAvoidLine(LineAround(content, i)), i);
  }
}

=== FILE: code_quotes.dfy ===
/**
 Fancy quotes inside fenced code: `find_fancy_in_code` walks the lines with the
 fence state machine, keeping the offset at which each line starts, and reports
 every curly quote on a line strictly inside a fence. Opening and closing lines
 are not scanned.
 */
module CodeQuotes {
  import opened Text
  import opened InlineCode
  import opened Fences
  import opened Quotes

  /** Character `j` of line `i` is a fancy quote on a line inside a fence. */
  ghost predicate FancyAt(lines: seq<string>, kinds: seq<LineKind>, i: nat, j: nat) {
    i < |lines| && |kinds| == |lines| && j < |lines[i]| && kinds[i].Fenced? && IsFancyQuote(lines[i][j])
  }

  /** `x` is a fancy quote at its offset, on a line strictly inside a fence. */
  ghost predicate FancyInFence(lines: seq<string>, kinds: seq<LineKind>, x: Located) {
    && |lines| >= 1
    && var i := LineOf(lines, x.offset);
    && LineStart(lines, i) <= x.offset
    && FancyAt(lines, kinds, i, x.offset - LineStart(lines, i))
    && lines[i][x.offset - LineStart(lines, i)] == x.c
  }

  /** The fancy quotes among the first `n` characters of a line that starts at
      offset `pos`, in order. */
  function FanciesIn(line: string, pos: nat, n: nat): seq<Located>
    requires n <= |line|
  {
    if n == 0 then []
    else FanciesIn(line, pos, n - 1)
         + (if IsFancyQuote(line[n - 1]) then [Located(pos + n - 1, line[n - 1])] else [])
  }

  /** The fancy quotes on the fenced lines among the first `n` lines, in order. */
  function FanciesInFences(lines: seq<string>, kinds: seq<LineKind>, n: nat): seq<Located>
    requires |kinds| == |lines| && n <= |lines|
  {
    if n == 0 then []
    else FanciesInFences(lines, kinds, n - 1)
         + (if kinds[n - 1].Fenced? then FanciesIn(lines[n - 1], LineStart(lines, n - 1), |lines[n - 1]|) else [])
  }

  /** `FanciesIn` unfolded once. */
  lemma FanciesInStep(line: string, pos: nat, n: nat)
    requires 0 < n <= |line|
    ensures FanciesIn(line, pos, n) == FanciesIn(line, pos, n - 1)
      + (if IsFancyQuote(line[n - 1]) then [Located(pos + n - 1, line[n - 1])] else [])
  {
  }

  /** What `FanciesIn` lists are fancy quotes of the line, at their offsets. */
  lemma {:induction false} FanciesInLocated(line: string, pos: nat, n: nat)
    requires n <= |line|
    ensures forall k :: 0 <= k < |FanciesIn(line, pos, n)| ==>
              pos <= FanciesIn(line, pos, n)[k].offset < pos + n
              && FanciesIn(line, pos, n)[k].c == line[FanciesIn(line, pos, n)[k].offset - pos]
              && IsFancyQuote(FanciesIn(line, pos, n)[k].c)
  {
    if n > 0 {
      FanciesInLocated(line, pos, n - 1);
      FanciesInStep(line, pos, n);
      var prev := FanciesIn(line, pos, n - 1);
      var last := if IsFancyQuote(line[n - 1]) then [Located(pos + n - 1, line[n - 1])] else [];
      assert forall k :: 0 <= k < |prev| ==> (prev + last)[k] == prev[k];
      assert forall k :: |prev| <= k < |prev + last| ==> (prev + last)[k] == last[k - |prev|];
    }
  }

  /** `FanciesIn` lists every fancy quote of the line. */
  lemma {:induction false} FanciesInComplete(line: string, pos: nat, n: nat)
    requires n <= |line|
    ensures forall j :: 0 <= j < n && IsFancyQuote(line[j]) ==> Located(pos + j, line[j]) in FanciesIn(line, pos, n)
  {
    if n > 0 {
      FanciesInComplete(line, pos, n - 1);
      FanciesInStep(line, pos, n);
    }
  }

  /** `FanciesIn` lists offsets in increasing order. */
  lemma {:induction false} FanciesInIncreasing(line: string, pos: nat, n: nat)
    requires n <= |line|
    ensures Increasing(FanciesIn(line, pos, n))
  {
    if n > 0 {
      FanciesInIncreasing(line, pos, n - 1);
      FanciesInLocated(line, pos, n - 1);
      FanciesInStep(line, pos, n);
      var prev := FanciesIn(line, pos, n - 1);
      var last := if IsFancyQuote(line[n - 1]) then [Located(pos + n - 1, line[n - 1])] else [];
      IncreasingAppend(prev, last);
    }
  }

  /** Every entry of `FanciesInFences` is a fancy quote inside a fence, found
      before line `n` starts. */
  lemma {:induction false} FanciesInFencesSound(lines: seq<string>, kinds: seq<LineKind>, n: nat)
    requires |kinds| == |lines| && n <= |lines|
    ensures forall k :: 0 <= k < |FanciesInFences(lines, kinds, n)| ==>
              FancyInFence(lines, kinds, FanciesInFences(lines, kinds, n)[k])
              && FanciesInFences(lines, kinds, n)[k].offset < LineStart(lines, n)
  {
    if n > 0 {
      var prev := FanciesInFences(lines, kinds, n - 1);
      var line := lines[n - 1];
      var last := if kinds[n - 1].Fenced? then FanciesIn(line, LineStart(lines, n - 1), |line|) else [];
      var all := prev + last;
      assert FanciesInFences(lines, kinds, n) == all;
      LineStartStep(lines, n - 1);
      forall k | 0 <= k < |all|
        ensures FancyInFence(lines, kinds, all[k]) && all[k].offset < LineStart(lines, n)
      {
        if k < |prev| {
          FanciesInFencesSound(lines, kinds, n - 1);
          assert all[k] == prev[k];
        } else {
          FencedLineSound(lines, kinds, n - 1, k - |prev|);
          assert all[k] == last[k - |prev|];
        }
      }
    }
  }

  /** The fancy quotes `FanciesIn` lists for a fenced line lie inside the fence,
      on that line. */
  lemma FencedLineSound(lines: seq<string>, kinds: seq<LineKind>, i: nat, k: nat)
    requires |kinds| == |lines| && i < |lines| && kinds[i].Fenced?
    requires k < |FanciesIn(lines[i], LineStart(lines, i), |lines[i]|)|
    ensures var x := FanciesIn(lines[i], LineStart(lines, i), |lines[i]|)[k];
      FancyInFence(lines, kinds, x) && x.offset < LineStart(lines, i) + |lines[i]|
  {
    var pos := LineStart(lines, i);
    var x := FanciesIn(lines[i], pos, |lines[i]|)[k];
    FanciesInLocated(lines[i], pos, |lines[i]|);
    var j := x.offset - pos;
    LineOfLineStart(lines, i, j);
    assert FancyAt(lines, kinds, i, j);
  }

  /** Every fancy quote on a fenced line before line `n` is listed. */
  lemma FanciesInFencesComplete(lines: seq<string>, kinds: seq<LineKind>, n: nat)
    requires |kinds| == |lines| && n <= |lines|
    ensures forall i: nat, j: nat {:trigger FancyAt(lines, kinds, i, j)} :: i < n && FancyAt(lines, kinds, i, j) ==>
              Located(LineStart(lines, i) + j, lines[i][j]) in FanciesInFences(lines, kinds, n)
  {
    forall i: nat, j: nat | i < n && FancyAt(lines, kinds, i, j)
      ensures Located(LineStart(lines, i) + j, lines[i][j]) in FanciesInFences(lines, kinds, n)
    {
      FancyInFences(lines, kinds, n, i, j);
    }
  }

  /** One fancy quote on fenced line `i < n` is listed by `FanciesInFences`. */
  lemma {:induction false} FancyInFences(lines: seq<string>, kinds: seq<LineKind>, n: nat, i: nat, j: nat)
    requires |kinds| == |lines| && i < n <= |lines|
    requires FancyAt(lines, kinds, i, j)
    ensures Located(LineStart(lines, i) + j, lines[i][j]) in FanciesInFences(lines, kinds, n)
  {
    var x := Located(LineStart(lines, i) + j, lines[i][j]);
    var prev := FanciesInFences(lines, kinds, n - 1);
    var last := if kinds[n - 1].Fenced? then FanciesIn(lines[n - 1], LineStart(lines, n - 1), |lines[n - 1]|) else [];
    assert FanciesInFences(lines, kinds, n) == prev + last;
    if i < n - 1 {
      FancyInFences(lines, kinds, n - 1, i, j);
      InLeft(x, prev, last);
    } else {
      FencedLineComplete(lines, kinds, i, j);
      InRight(x, prev, last);
    }
  }

  lemma InLeft<T>(x: T, a: seq<T>, b: seq<T>)
    requires x in a
    ensures x in a + b
  {
  }

  lemma InRight<T>(x: T, a: seq<T>, b: seq<T>)
    requires x in b
    ensures x in a + b
  {
  }

  /** A fancy quote on a fenced line is among those `FanciesIn` lists for it. */
  lemma FencedLineComplete(lines: seq<string>, kinds: seq<LineKind>, i: nat, j: nat)
    requires FancyAt(lines, kinds, i, j)
    ensures Located(LineStart(lines, i) + j, lines[i][j]) in FanciesIn(lines[i], LineStart(lines, i), |lines[i]|)
  {
    FanciesInComplete(lines[i], LineStart(lines, i), |lines[i]|);
  }

  /** `FanciesInFences` lists offsets in increasing order. */
  lemma {:induction false} FanciesInFencesIncreasing(lines: seq<string>, kinds: seq<LineKind>, n: nat)
    requires |kinds| == |lines| && n <= |lines|
    ensures Increasing(FanciesInFences(lines, kinds, n))
  {
    if n > 0 {
      FanciesInFencesIncreasing(lines, kinds, n - 1);
      FanciesInFencesSound(lines, kinds, n - 1);
      var prev := FanciesInFences(lines, kinds, n - 1);
      var pos := LineStart(lines, n - 1);
      var line := lines[n - 1];
      var last := if kinds[n - 1].Fenced? then FanciesIn(line, pos, |line|) else [];
      assert FanciesInFences(lines, kinds, n) == prev + last;
      if kinds[n - 1].Fenced? {
        FanciesInLocated(line, pos, |line|);
        FanciesInIncreasing(line, pos, |line|);
      }
      IncreasingAppend(prev, last);
    }
  }

  /** The inner loop of `find_fancy_in_code` over one fenced line starting at `pos`. */
  method ScanFencedLine(line: string, pos: nat) returns (found: seq<Located>)
    ensures found == FanciesIn(line, pos, |line|)
  {
    found := [];
    for j := 0 to |line|
      invariant found == FanciesIn(line, pos, j)
    {
      if IsFancyQuote(line[j]) {
        found := found + [Located(pos + j, line[j])];
      }
    }
  }

  /** `find_fancy_in_code`: it reports exactly the fancy quotes on lines inside
      fences, in document order. */
  method FindFancyInCode(content: string) returns (issues: seq<Located>)
    ensures issues == FanciesInFences(Lines(content), Kinds(Lines(content)), |Lines(content)|)
    ensures Increasing(issues)
    ensures forall k :: 0 <= k < |issues| ==> FancyInFence(Lines(content), Kinds(Lines(content)), issues[k])
    ensures forall i: nat, j: nat {:trigger FancyAt(Lines(content), Kinds(Lines(content)), i, j)} :: FancyAt(Lines(content), Kinds(Lines(content)), i, j) ==>
              Located(LineStart(Lines(content), i) + j, Lines(content)[i][j]) in issues
  {
    var lines := Lines(content);
    issues := ScanLines(lines);
    FanciesInFencesSound(lines, Kinds(lines), |lines|);
    FanciesInFencesComplete(lines, Kinds(lines), |lines|);
    FanciesInFencesIncreasing(lines, Kinds(lines), |lines|);
  }

  /** The source's loop over lines; `pos` is always the offset at which the
      current line starts, and `st` the fence state it is met in. */
  method ScanLines(lines: seq<string>) returns (issues: seq<Located>)
    ensures issues == FanciesInFences(lines, Kinds(lines), |lines|)
  {
    ghost var kinds := Kinds(lines);
    var st := Outside;
    issues := [];
    var pos := 0;
    for idx := 0 to |lines|
      invariant pos == LineStart(lines, idx)
      invariant st == StateAt(kinds, idx)
      invariant issues == FanciesInFences(lines, kinds, idx)
    {
      var line := lines[idx];
      KindStep(lines, idx);
      LineStartStep(lines, idx);
      ghost var next := FanciesInFences(lines, kinds, idx + 1);
      assert next == issues + (if kinds[idx].Fenced? then FanciesIn(line, pos, |line|) else []);
      match st {
        case Outside =>
          if OpensFence(line) {
            st := InFence(FenceRun(line));
          }
        case InFence(fence) =>
          if ClosesFence(line, fence) {
            st := Outside;
          } else {
            var found := ScanFencedLine(line, pos);
            issues := issues + found;
          }
      }
      pos := pos + |line| + 1;
    }
  }
}

=== FILE: decimal.dfy ===
/** Decimal numerals, as an f-string writes a non-negative `int`. */
module Decimal {

  predicate IsDigit(c: char) {
    '0' <= c <= '9'
  }

  function Digit(d: nat): (c: char)
    requires d < 10
    ensures IsDigit(c) && c as int - '0' as int == d
  {
    ('0' as int + d) as char
  }

  /** `str(n)`: decimal digits, most significant first, without leading zeros. */
  function NatToString(n: nat): (s: string)
    ensures |s| >= 1 && forall k :: 0 <= k < |s| ==> IsDigit(s[k])
    ensures s[0] == '0' ==> n == 0
    decreases n
  {
    if n < 10 then [Digit(n)] else NatToString(n / 10) + [Digit(n % 10)]
  }

  /** The value of a string of decimal digits. */
  function ParseDecimal(s: string): nat
    requires forall k :: 0 <= k < |s| ==> IsDigit(s[k])
  {
    if |s| == 0 then 0
    else
      assert IsDigit(s[|s| - 1]);
      ParseDecimal(s[..|s| - 1]) * 10 + (s[|s| - 1] as int - '0' as int)
  }

  /** Reading the numeral back gives the number. */
  lemma {:induction false} DecimalRoundTrip(n: nat)
    ensures ParseDecimal(NatToString(n)) == n
    decreases n
  {
    var s := NatToString(n);
    if n >= 10 {
      DecimalRoundTrip(n / 10);
      assert s[..|s| - 1] == NatToString(n / 10);
    }
  }

  /** Distinct numbers get distinct numerals. */
  lemma NatToStringInjective(m: nat, n: nat)
    requires NatToString(m) == NatToString(n)
    ensures m == n
  {
    DecimalRoundTrip(m);
    DecimalRoundTrip(n);
  }
}

=== FILE: disagreement.dfy ===
/**
 The audit and the fixer scan inline code differently. The audit runs the
 back-tick scanner over the whole prose text, so a span left open on one line
 can close on a later one; the fixer runs it line by line, so every span ends
 with its line. Two small documents show both ways this can go.
 */
module Disagreement {
  import opened Text
  import opened InlineCode
  import opened Fences
  import opened Quotes
  import opened Audit
  import opened ProseOffsets
  import opened Fix
  import opened CodeQuotes

  /** A back-tick left open on line 1, a straight quote on line 2. */
  const OpenTickThenQuote: string := "`a\n\""

  /** A span opened on line 1 and closed on line 2, followed by a straight quote. */
  const SpanAcrossLines: string := "`a\nb`\""

  /** The audit passes the first document, yet the fixer changes its quote. */
  lemma AuditPassesFixChanges(s: string)
    requires s == OpenTickThenQuote
    ensures ProseIsClean(s)
    ensures 3 in ProseOffsetsOf(s)
    ensures |s| == 4 && Fixed(s, false)[3] == FancyOpenDouble
  {
    OpenTickThenQuoteParts();
    OpenTickAuditClean(s);
    OpenTickQuoteIsProse(s);
    FirstConverted(s, 3);
  }

  lemma OpenTickThenQuoteParts()
    ensures OpenTickThenQuote == "`a" + "\n" + "\""
    ensures |OpenTickThenQuote| == 4 && OpenTickThenQuote[3] == StraightDouble
    ensures forall j :: 0 <= j < 3 ==> !IsStraightQuote(OpenTickThenQuote[j])
  {
  }

  lemma OpenTickAuditClean(s: string)
    requires s == "`a" + "\n" + "\""
    ensures ProseIsClean(s)
  {
    OpenTickBothProse(s);
    AllProseKept(s);
    assert ProseFrom(s, 0) == [] by {
      UnclosedSpanHidesRest(s, 0, 1);
    }
  }

  lemma OpenTickBothProse(s: string)
    requires s == "`a" + "\n" + "\""
    ensures BothProse(Kinds(Lines(s)))
  {
    FirstLinePlain();
    QuoteLinePlain();
    TwoProseLines(s, "`a", "\"");
  }

  lemma OpenTickQuoteIsProse(s: string)
    requires s == "`a" + "\n" + "\""
    ensures 3 in ProseOffsetsOf(s)
  {
    FirstLinePlain();
    QuoteLinePlain();
    assert Located(0, '"') in ProseFrom("\"", 0) by {
      SecondLineQuote();
    }
    SecondLineProse(s, "`a", "\"", Located(0, '"'), 3);
  }

  /** The audit fails the second document, and the fixer leaves it as it is,
      so the audit still fails after fixing. */
  lemma AuditFailsFixKeeps(s: string)
    requires s == SpanAcrossLines
    ensures !ProseIsClean(s)
    ensures Fixed(s, false) == s
  {
    SpanAcrossLinesParts();
    SpanAuditFails(s);
    SpanNoProseQuote(s);
    NoProseQuoteUnchanged(s, false);
  }

  /** The audit as it would read the prose if it scanned inline code line by
      line, as `prose_offset_set` does: no straight quote at a prose offset. */
  ghost predicate LineProseClean(content: string) {
    forall p :: p in ProseOffsetsOf(content) && p < |content| ==> !IsStraightQuote(content[p])
  }

  /** The corrected audit: `audit_file`'s verdict with the prose read line by
      line. Its second half, no fancy quote inside a fence, is the written one. */
  ghost predicate LineAuditOk(content: string) {
    LineProseClean(content) && FencesAreClean(content)
  }

  /** Reading prose line by line, the prose half of the audit passes a document
      exactly when the fixer, without the Avoid exception, leaves it as it is;
      so the whole corrected audit passes exactly when the fixer leaves the
      document as it is and no fence holds a fancy quote. */
  lemma LineAuditAgreesWithFix(content: string)
    ensures LineProseClean(content) <==> Fixed(content, false) == content
    ensures LineAuditOk(content) <==> Fixed(content, false) == content && FencesAreClean(content)
  {
    if LineProseClean(content) {
      NoProseQuoteUnchanged(content, false);
    } else {
      var p :| p in ProseOffsetsOf(content) && p < |content| && IsStraightQuote(content[p]);
      FixChangesOnlyProseQuotes(content, ProseOffsetsOf(content), KeptOffsets(content, false), p);
    }
  }

  /** The fixer never touches a fence, so it neither removes nor adds a fancy
      quote inside one. */
  lemma FixKeepsFences(content: string, skip: bool)
    ensures FencesAreClean(Fixed(content, skip)) <==> FencesAreClean(content)
  {
    var f := Fixed(content, skip);
    FixKeepsLines(content, skip);
    forall i: nat, j: nat
      ensures FancyAt(Lines(f), Kinds(Lines(f)), i, j) <==> FancyAt(Lines(content), Kinds(Lines(content)), i, j)
    {
      if i < |Lines(content)| && j < |Lines(content)[i]| && Kinds(Lines(content))[i].Fenced? {
        FixKeepsCodeChar(content, skip, i, j);
      }
    }
  }

  /** Reading prose line by line, the prose half of the audit passes every
      document the fixer has produced, and the whole corrected audit passes it
      exactly when the original's fences held no fancy quote. */
  lemma FixedPassesLineAudit(content: string)
    ensures LineProseClean(Fixed(content, false))
    ensures LineAuditOk(Fixed(content, false)) <==> FencesAreClean(content)
  {
    var f := Fixed(content, false);
    forall p | p in ProseOffsetsOf(f) && p < |f|
      ensures !IsStraightQuote(f[p])
    {
      NothingLeftToConvert(content, false, p);
    }
    FixKeepsFences(content, false);
  }

  /** On the two documents above, the line-by-line audit fails the first and
      passes the second, as the fixer's verdicts do. */
  lemma LineAuditOnExamples()
    ensures !LineProseClean(OpenTickThenQuote)
    ensures LineProseClean(SpanAcrossLines)
  {
    AuditPassesFixChanges(OpenTickThenQuote);
    OpenTickThenQuoteParts();
    SpanAcrossLinesParts();
    SpanNoProseQuote(SpanAcrossLines);
  }

  lemma SpanNoProseQuote(s: string)
    requires s == "`a" + "\n" + "b`\""
    ensures forall p :: p in ProseOffsetsOf(s) && p < |s| ==> !IsStraightQuote(s[p])
  {
    SpanProse(s);
    assert s[3] == 'b';
  }

  lemma SpanAcrossLinesParts()
    ensures SpanAcrossLines == "`a" + "\n" + "b`\""
    ensures |SpanAcrossLines| == 6 && SpanAcrossLines[3] == 'b'
  {
  }

  lemma SpanAuditFails(s: string)
    requires s == "`a" + "\n" + "b`\""
    ensures !ProseIsClean(s)
  {
    SpanBothProse(s);
    AllProseKept(s);
    assert Located(5, '"') in ProseFrom(s, 0) by {
      WholeTextScan();
    }
  }

  lemma SpanBothProse(s: string)
    requires s == "`a" + "\n" + "b`\""
    ensures BothProse(Kinds(Lines(s)))
  {
    FirstLinePlain();
    ScanLinePlain();
    TwoProseLines(s, "`a", "b`\"");
  }

  /** Over the whole text, the span opened on line 1 closes on line 2. */
  lemma WholeTextScan()
    ensures "`a" + "\n" + "b`\"" == "`a\nb`\""
    ensures ProseFrom("`a\nb`\"", 0) == [Located(5, '"')]
  {
  }

  lemma SpanProse(s: string)
    requires s == "`a" + "\n" + "b`\""
    ensures forall p :: p in ProseOffsetsOf(s) ==> p == 3
  {
    FirstLinePlain();
    ScanLinePlain();
    FirstLineUnclosed();
    SecondLineScan();
    OnlyProseOffset(s, "`a", "b`\"", 3);
  }

  /** A line without a line feed that is prose when met outside a fence. */
  ghost predicate PlainLine(line: string) {
    '\n' !in line && KindOf(Outside, line) == Prose
  }

  lemma FirstLinePlain()
    ensures PlainLine("`a")
  {
    ShortLinePlain("`a");
  }

  lemma QuoteLinePlain()
    ensures PlainLine("\"")
  {
    ShortLinePlain("\"");
  }

  lemma ScanLinePlain()
    ensures PlainLine("b`\"")
  {
    LetterLinePlain("b`\"");
  }

  /** A line too short to hold three back-ticks does not open a fence. */
  lemma ShortLinePlain(line: string)
    requires |line| < 3
    ensures KindOf(Outside, line) == Prose
  {
  }

  /** Nor does a line that starts with a character other than white space or a back-tick. */
  lemma LetterLinePlain(line: string)
    requires |line| > 0 && !IsWhitespace(line[0]) && line[0] != '`'
    ensures KindOf(Outside, line) == Prose
  {
    assert TrimLeft(line) == line;
  }

  lemma FirstLineUnclosed()
    ensures ProseFrom("`a", 0) == []
  {
    UnclosedSpanHidesRest("`a", 0, 1);
  }

  lemma SecondLineQuote()
    ensures ProseFrom("\"", 0) == [Located(0, '"')]
  {
  }

  lemma SecondLineScan()
    ensures ProseFrom("b`\"", 0) == [Located(0, 'b')]
  {
    UnclosedSpanHidesRest("b`\"", 1, 1);
  }

  /** In a two-line prose document, what the scan of the second line yields
      is a prose offset, moved by the length of the first line and its line feed. */
  lemma SecondLineProse(s: string, a: string, b: string, x: Located, o: nat)
    requires s == a + "\n" + b && PlainLine(a) && PlainLine(b)
    requires x in ProseFrom(b, 0) && o == |a| + 1 + x.offset
    ensures o in ProseOffsetsOf(s)
  {
    TwoProseLines(s, a, b);
    ProseOffsetComplete(s, 1, x);
  }

  /** In a two-line prose document whose first line yields nothing and whose
      second line yields one character, that character is the only prose offset. */
  lemma OnlyProseOffset(s: string, a: string, b: string, o: nat)
    requires s == a + "\n" + b && PlainLine(a) && PlainLine(b)
    requires ProseFrom(a, 0) == [] && |ProseFrom(b, 0)| == 1 && o == |a| + 1 + ProseFrom(b, 0)[0].offset
    ensures forall p :: p in ProseOffsetsOf(s) ==> p == o
  {
    TwoProseLines(s, a, b);
    OnlyOffsetOfLines(Lines(s), Kinds(Lines(s)), o);
  }

  lemma OnlyOffsetOfLines(lines: seq<string>, kinds: seq<LineKind>, o: nat)
    requires |lines| == 2 && |kinds| == 2
    requires ProseFrom(lines[0], 0) == [] && |ProseFrom(lines[1], 0)| == 1
    requires o == LineStart(lines, 1) + ProseFrom(lines[1], 0)[0].offset
    ensures ProseOffsetsUpTo(lines, kinds, 2) <= {o}
  {
    var y := ProseFrom(lines[1], 0)[0];
    assert ProseOffsetsUpTo(lines, kinds, 1) == {} by {
      assert Shifted([], 0) == {};
    }
    assert Shifted(ProseFrom(lines[1], 0), LineStart(lines, 1)) == {o} by {
      assert ProseFrom(lines[1], 0) == [y];
    }
  }

  /** A double quote at a prose offset with nothing exchanged before it opens. */
  lemma FirstConverted(s: string, i: nat)
    requires i < |s| && i in ProseOffsetsOf(s) && s[i] == StraightDouble
    requires forall j :: 0 <= j < i ==> !IsStraightQuote(s[j])
    ensures Fixed(s, false)[i] == FancyOpenDouble
  {
    FirstDoubleOpens(s, ProseOffsetsOf(s), KeptOffsets(s, false), i);
  }

  lemma FirstDoubleOpens(s: string, prose: set<nat>, kept: set<nat>, i: nat)
    requires i < |s| && ConvertsDouble(s, prose, kept, i)
    requires forall j :: 0 <= j < i ==> !IsStraightQuote(s[j])
    ensures FixWith(s, prose, kept)[i] == FancyOpenDouble
  {
    DoublesBeforeFlat(s, prose, kept, 0, i);
    DoubleWritten(s, prose, kept, i);
  }

  /** A text of two lines, neither of which opens a fence, is all prose. */
  lemma TwoProseLines(s: string, a: string, b: string)
    requires s == a + "\n" + b && PlainLine(a) && PlainLine(b)
    ensures Lines(s) == [a, b]
    ensures BothProse(Kinds(Lines(s)))
    ensures LineStart(Lines(s), 1) == |a| + 1
  {
    LinesOfTwo(s, a, b);
    KindsOfTwo(Lines(s));
  }

  lemma LinesOfTwo(s: string, a: string, b: string)
    requires s == a + "\n" + b && '\n' !in a && '\n' !in b
    ensures Lines(s) == [a, b]
  {
    assert IndexFrom(s, '\n', 0) == |a| by {
      assert s[..|a|] == a;
      IndexFromFirst(s, '\n', |a|);
    }
    assert Split(s, '\n') == [s[..|a|]] + Split(s[|a| + 1..], '\n');
    assert s[..|a|] == a;
    assert s[|a| + 1..] == b;
    NotFound(b, '\n');
    assert Split(b, '\n') == [b];
  }

  lemma KindsOfTwo(lines: seq<string>)
    requires |lines| == 2 && KindOf(Outside, lines[0]) == Prose && KindOf(Outside, lines[1]) == Prose
    ensures BothProse(Kinds(lines))
  {
    LineIsProse(lines, 0);
    LineIsProse(lines, 1);
  }

  /** A line that does not open a fence, first or after a prose line, is prose. */
  lemma LineIsProse(lines: seq<string>, i: nat)
    requires i < |lines| && (i == 0 || Kinds(lines)[i - 1] == Prose) && KindOf(Outside, lines[i]) == Prose
    ensures Kinds(lines)[i] == Prose
  {
    KindStep(lines, i);
  }

  /** Both lines of a two-line document are prose. */
  ghost predicate BothProse(kinds: seq<LineKind>) {
    |kinds| == 2 && kinds[0] == Prose && kinds[1] == Prose
  }

  /** A two-line document whose lines are both prose is its own prose text. */
  lemma AllProseKept(s: string)
    requires BothProse(Kinds(Lines(s)))
    ensures GetProseContent(s) == s
  {
    var lines := Lines(s);
    var p := GetProseContent(s);
    BlankNothing(lines, Kinds(lines));
    assert Lines(p) == lines;
    assert p == Join(Lines(p), '\n');
  }

  /** With both lines prose, blanking fences leaves the lines as they are. */
  lemma BlankNothing(lines: seq<string>, kinds: seq<LineKind>)
    requires |kinds| == |lines| && BothProse(kinds)
    ensures BlankFences(lines, kinds) == lines
  {
  }

  lemma IndexFromFirst(s: string, c: char, i: nat)
    requires i < |s| && s[i] == c && c !in s[..i]
    ensures IndexFrom(s, c, 0) == i
  {
    assert forall k :: 0 <= k < i ==> s[..i][k] == s[k];
  }

  lemma NotFound(s: string, c: char)
    requires c !in s
    ensures IndexFrom(s, c, 0) == -1
  {
  }
}

=== FILE: fences.dfy ===
/**
 Fenced code blocks as the quote auditor sees them. A line opens a fence when,
 after its leading whitespace, it starts with three back-ticks; the fence is the
 whole back-tick run found there. A later line closes it when its stripped text
 starts with that run. The same line-by-line state machine drives
 `get_prose_content`, `find_fancy_in_code` and `prose_offset_set`; it is
 defined once here as `Classify`.
 */
module Fences {
  import opened Text
  import opened InlineCode

  /** `re.match(r"^\s*```", line)` */
  predicate OpensFence(line: string) {
    StartsWith(TrimLeft(line), "```")
  }

  /** `re.match(r"^\s*(`+)", line).group(1)`: the back-tick run after the indentation. */
  function FenceRun(line: string): (run: string)
    requires OpensFence(line)
    ensures |run| >= 3 && forall k :: 0 <= k < |run| ==> run[k] == '`'
    ensures StartsWith(TrimLeft(line), run)
    ensures |run| == |TrimLeft(line)| || TrimLeft(line)[|run|] != '`'
  {
    LeadingRun(TrimLeft(line))
  }

  /** The back-tick run a text begins with, when it begins with three. */
  function LeadingRun(t: string): (run: string)
    requires StartsWith(t, "```")
    ensures |run| >= 3 && forall k :: 0 <= k < |run| ==> run[k] == '`'
    ensures StartsWith(t, run)
    ensures |run| == |t| || t[|run|] != '`'
  {
    assert t[..3] == "```";
    assert t[0] == '`' && t[1] == '`' && t[2] == '`' by {
      assert t[..3][0] == t[0] && t[..3][1] == t[1] && t[..3][2] == t[2];
    }
    var e := RunEnd(t, 0);
    assert e >= 3;
    t[..e]
  }

  /** `line.strip().startswith(fence) and len(line.strip()) >= len(fence)`; the
      second conjunct of the source already follows from the first. */
  predicate ClosesFence(line: string, fence: string) {
    StartsWith(Strip(line), fence) && |Strip(line)| >= |fence|
  }

  /** Whether the scan is inside a fence, and which run opened it. */
  datatype FenceState = Outside | InFence(fence: string)

  /** The role a line plays: ordinary text, the opening line of a fence, a line
      inside one, or the line that closes one. */
  datatype LineKind = Prose | Opening(run: string) | Fenced(run: string) | Closing(run: string)

  /** How the line `line`, met in state `st`, is treated. */
  function KindOf(st: FenceState, line: string): LineKind {
    match st
    case Outside => if OpensFence(line) then Opening(FenceRun(line)) else Prose
    case InFence(fence) => if ClosesFence(line, fence) then Closing(fence) else Fenced(fence)
  }

  /** The state after a line of the given kind. */
  function After(k: LineKind): FenceState {
    match k
    case Prose => Outside
    case Closing(_) => Outside
    case Opening(run) => InFence(run)
    case Fenced(run) => InFence(run)
  }

  /** The kind of every line, scanning from state `st`. */
  function Classify(lines: seq<string>, st: FenceState): (kinds: seq<LineKind>)
    ensures |kinds| == |lines|
  {
    Scan(lines, st, KindOf)
  }

  /** A line-by-line scan: each line gets the kind `step` gives it in the
      state its predecessor leaves. */
  function Scan(lines: seq<string>, st: FenceState, step: (FenceState, string) -> LineKind): (kinds: seq<LineKind>)
    ensures |kinds| == |lines|
  {
    if |lines| == 0 then []
    else
      var k := step(st, lines[0]);
      [k] + Scan(lines[1..], After(k), step)
  }

  /** Each line is classified in the state its predecessor leaves. */
  lemma ClassifyStep(lines: seq<string>, st: FenceState, i: nat)
    requires i < |lines|
    ensures Classify(lines, st)[i] == KindOf(if i == 0 then st else After(Classify(lines, st)[i - 1]), lines[i])
  {
    ScanStep(lines, st, KindOf, i);
  }

  /** The same for any scan: line `i` gets its kind from the state after line `i - 1`. */
  lemma {:induction false} ScanStep(lines: seq<string>, st: FenceState, step: (FenceState, string) -> LineKind, i: nat)
    requires i < |lines|
    ensures Scan(lines, st, step)[i] == step(if i == 0 then st else After(Scan(lines, st, step)[i - 1]), lines[i])
  {
    var k := step(st, lines[0]);
    var rest := Scan(lines[1..], After(k), step);
    assert Scan(lines, st, step) == [k] + rest;
    if i > 0 {
      ScanStep(lines[1..], After(k), step, i - 1);
      assert lines[1..][i - 1] == lines[i];
    }
  }

  /** The state in which line `i` is met. */
  function StateAt(kinds: seq<LineKind>, i: nat): FenceState
    requires i <= |kinds|
  {
    if i == 0 then Outside else After(kinds[i - 1])
  }

  /** `kinds` gives every line the kind the state machine assigns it. */
  ghost predicate Stepwise(lines: seq<string>, kinds: seq<LineKind>) {
    && |kinds| == |lines|
    && forall i {:trigger lines[i]} :: 0 <= i < |lines| ==> kinds[i] == KindOf(StateAt(kinds, i), lines[i])
  }

  /** The kinds of the lines of a document, which starts outside any fence. */
  function Kinds(lines: seq<string>): (kinds: seq<LineKind>)
    ensures |kinds| == |lines|
  {
    Classify(lines, Outside)
  }

  /** Line `i` of a document gets the kind the state machine assigns it. */
  lemma KindStep(lines: seq<string>, i: nat)
    requires i < |lines|
    ensures Kinds(lines)[i] == KindOf(StateAt(Kinds(lines), i), lines[i])
  {
    ClassifyStep(lines, Outside, i);
  }

  /** `Kinds` follows the state machine on every line. */
  lemma KindsStepwise(lines: seq<string>)
    ensures Stepwise(lines, Kinds(lines))
  {
    forall i | 0 <= i < |lines|
      ensures Kinds(lines)[i] == KindOf(StateAt(Kinds(lines), i), lines[i])
    {
      KindStep(lines, i);
    }
  }

  /** The state machine leaves no choice: `Kinds` is the only stepwise assignment. */
  lemma {:induction false} StepwiseUnique(lines: seq<string>, kinds: seq<LineKind>)
    requires Stepwise(lines, kinds)
    ensures kinds == Kinds(lines)
  {
    var ks := Kinds(lines);
    KindsStepwise(lines);
    forall i | 0 <= i < |lines|
      ensures kinds[i] == ks[i]
    {
      StepwiseAgree(lines, kinds, ks, i);
    }
  }

  lemma {:induction false} StepwiseAgree(lines: seq<string>, a: seq<LineKind>, b: seq<LineKind>, i: nat)
    requires Stepwise(lines, a) && Stepwise(lines, b) && i < |lines|
    ensures a[i] == b[i]
  {
    if i > 0 {
      StepwiseAgree(lines, a, b, i - 1);
      assert StateAt(a, i) == StateAt(b, i);
    }
    var st := StateAt(a, i);
    assert a[i] == KindOf(st, lines[i]);
    assert b[i] == KindOf(st, lines[i]);
  }

  /** A line is prose exactly when it is met outside a fence and does not look
      like an opening fence; it opens a fence exactly when it is met outside one
      and does look like an opening fence. */
  lemma ProseAndOpening(lines: seq<string>, kinds: seq<LineKind>, i: nat)
    requires Stepwise(lines, kinds) && i < |lines|
    ensures kinds[i] == Prose <==> StateAt(kinds, i) == Outside && !OpensFence(lines[i])
    ensures kinds[i].Opening? <==> StateAt(kinds, i) == Outside && OpensFence(lines[i])
  {
    assert kinds[i] == KindOf(StateAt(kinds, i), lines[i]);
  }

  /** From an opening line on, every line is inside the fence until the first
      line that closes it, which is its closing line. */
  lemma {:induction false} FenceBlock(lines: seq<string>, kinds: seq<LineKind>, o: nat, i: nat)
    requires Stepwise(lines, kinds) && o < i < |lines|
    requires kinds[o].Opening?
    requires forall m :: o < m < i ==> !ClosesFence(lines[m], kinds[o].run)
    ensures kinds[i] == if ClosesFence(lines[i], kinds[o].run) then Closing(kinds[o].run) else Fenced(kinds[o].run)
    decreases i - o
  {
    if i > o + 1 {
      FenceBlock(lines, kinds, o, i - 1);
    }
    assert kinds[i] == KindOf(StateAt(kinds, i), lines[i]);
    assert StateAt(kinds, i) == InFence(kinds[o].run);
  }

  /** The opening line of the fence that line `i` belongs to. */
  function OpenerOf(kinds: seq<LineKind>, i: nat): nat
    requires i < |kinds|
  {
    if i == 0 || kinds[i].Opening? || kinds[i].Prose? then i else OpenerOf(kinds, i - 1)
  }

  /** Every line inside a fence, or closing one, has an opening line above it
      with only fence content in between, none of which closes the fence. */
  lemma FenceHasOpener(lines: seq<string>, kinds: seq<LineKind>, i: nat)
    requires Stepwise(lines, kinds) && i < |lines|
    requires kinds[i].Fenced? || kinds[i].Closing?
    ensures OpenerOf(kinds, i) < i
    ensures kinds[OpenerOf(kinds, i)] == Opening(kinds[i].run)
    ensures forall m :: OpenerOf(kinds, i) < m < i ==> kinds[m] == Fenced(kinds[i].run)
    ensures forall m :: OpenerOf(kinds, i) < m < i ==> !ClosesFence(lines[m], kinds[i].run)
  {
    StepwiseNested(lines, kinds);
    NestedHasOpener(lines, kinds, ClosesFence, i);
  }

  /** Each fence line or closing line follows the opening line or a fence line
      of the same fence, and no fence line closes its fence by the test `closes`. */
  ghost predicate Nested(lines: seq<string>, kinds: seq<LineKind>, closes: (string, string) -> bool) {
    && |kinds| == |lines|
    && forall i :: 0 <= i < |kinds| && (kinds[i].Fenced? || kinds[i].Closing?) ==>
         && i > 0
         && (kinds[i - 1] == Opening(kinds[i].run) || kinds[i - 1] == Fenced(kinds[i].run))
         && (kinds[i].Fenced? ==> !closes(lines[i], kinds[i].run))
  }

  lemma StepwiseNested(lines: seq<string>, kinds: seq<LineKind>)
    requires Stepwise(lines, kinds)
    ensures Nested(lines, kinds, ClosesFence)
  {
    forall i | 0 <= i < |kinds| && (kinds[i].Fenced? || kinds[i].Closing?)
      ensures i > 0 && (kinds[i - 1] == Opening(kinds[i].run) || kinds[i - 1] == Fenced(kinds[i].run))
      ensures kinds[i].Fenced? ==> !ClosesFence(lines[i], kinds[i].run)
    {
      InsideStep(lines, kinds, i);
    }
  }

  lemma {:induction false} NestedHasOpener(lines: seq<string>, kinds: seq<LineKind>, closes: (string, string) -> bool, i: nat)
    requires Nested(lines, kinds, closes) && i < |lines|
    requires kinds[i].Fenced? || kinds[i].Closing?
    ensures OpenerOf(kinds, i) < i
    ensures kinds[OpenerOf(kinds, i)] == Opening(kinds[i].run)
    ensures forall m :: OpenerOf(kinds, i) < m < i ==> kinds[m] == Fenced(kinds[i].run)
    ensures forall m :: OpenerOf(kinds, i) < m < i ==> !closes(lines[m], kinds[i].run)
  {
    if !kinds[i - 1].Opening? {
      NestedHasOpener(lines, kinds, closes, i - 1);
    }
  }

  /** A fence line or closing line follows the opening line or a fence line
      of the same fence, and a fence line does not close it. */
  lemma InsideStep(lines: seq<string>, kinds: seq<LineKind>, i: nat)
    requires Stepwise(lines, kinds) && i < |lines|
    requires kinds[i].Fenced? || kinds[i].Closing?
    ensures i > 0 && (kinds[i - 1] == Opening(kinds[i].run) || kinds[i - 1] == Fenced(kinds[i].run))
    ensures kinds[i].Fenced? ==> !ClosesFence(lines[i], kinds[i].run)
  {
    assert kinds[i] == KindOf(StateAt(kinds, i), lines[i]);
    InsideKinds(StateAt(kinds, i), lines[i]);
  }

  /** Only a line met inside a fence is a fence line or a closing line, and a
      fence line does not close its fence. */
  lemma InsideKinds(st: FenceState, line: string)
    ensures KindOf(st, line).Fenced? || KindOf(st, line).Closing? ==> st == InFence(KindOf(st, line).run)
    ensures KindOf(st, line).Fenced? ==> !ClosesFence(line, KindOf(st, line).run)
  {
  }

  /** Fence lines, opening and closing lines included, replaced by empty lines:
      the line count is kept, a line of the result has text exactly when it is
      a prose line with text, and then it is that line. */
  function BlankFences(lines: seq<string>, kinds: seq<LineKind>): (out: seq<string>)
    requires |kinds| == |lines|
    ensures |out| == |lines|
    ensures forall i :: 0 <= i < |out| ==> (|out[i]| > 0 <==> kinds[i] == Prose && |lines[i]| > 0)
    ensures forall i :: 0 <= i < |out| && |out[i]| > 0 ==> out[i] == lines[i]
  {
    seq(|lines|, i requires 0 <= i < |lines| => if kinds[i] == Prose then lines[i] else "")
  }

  /** `get_prose_content`: every line of a fence, its opening and closing lines
      included, is blanked; the other lines are kept, so line numbers survive. */
  function GetProseContent(content: string): (prose: string)
    ensures Lines(prose) == BlankFences(Lines(content), Kinds(Lines(content)))
  {
    var lines := Lines(content);
    var out := BlankFences(lines, Kinds(lines));
    assert NoSeparator(out, '\n') by {
      forall i | 0 <= i < |out|
        ensures '\n' !in out[i]
      {
        assert out[i] == lines[i] || out[i] == "";
      }
    }
    SplitJoin(out, '\n');
    Join(out, '\n')
  }

  /** A line of the prose text that is not empty is a prose line of the
      document, kept as it was. */
  lemma ProseLineKept(content: string, i: nat)
    requires i < |Lines(GetProseContent(content))| && |Lines(GetProseContent(content))[i]| > 0
    ensures i < |Lines(content)| && Kinds(Lines(content))[i] == Prose
    ensures Lines(GetProseContent(content))[i] == Lines(content)[i]
  {
  }
}

=== FILE: fix.dfy ===
/**
 `fix_prose_quotes`: at every prose offset, a straight double quote becomes a
 curly one, opening and closing in turn across the whole document, and a
 straight apostrophe becomes a right single quotation mark. With
 `skip_avoid_examples`, quotes on "Avoid:" example lines stay straight.
 */
module Fix {
  import opened Text
  import opened Quotes
  import opened Shape
  import opened Avoid
  import opened ProseOffsets
  import opened Fences

  /** The fixer exchanges the quote at offset `i`: a straight quote at a prose
      offset that is not to be kept. */
  predicate Converts(content: string, prose: set<nat>, kept: set<nat>, i: nat)
    requires i < |content|
  {
    i in prose && IsStraightQuote(content[i]) && i !in kept
  }

  /** A straight double quote the fixer exchanges. */
  predicate ConvertsDouble(content: string, prose: set<nat>, kept: set<nat>, i: nat)
    requires i < |content|
  {
    Converts(content, prose, kept, i) && content[i] == StraightDouble
  }

  /** How many double quotes before offset `n` the fixer exchanges: the
      counter `double_quote_count` when the scan reaches `n`. */
  function DoublesBefore(content: string, prose: set<nat>, kept: set<nat>, n: nat): nat
    requires n <= |content|
  {
    if n == 0 then 0
    else DoublesBefore(content, prose, kept, n - 1) + (if ConvertsDouble(content, prose, kept, n - 1) then 1 else 0)
  }

  /** The character the fixer writes for offset `i`. */
  function FixedChar(content: string, prose: set<nat>, kept: set<nat>, i: nat): char
    requires i < |content|
  {
    if !Converts(content, prose, kept, i) then content[i]
    else if content[i] == StraightDouble then
      if (DoublesBefore(content, prose, kept, i) + 1) % 2 == 0 then FancyCloseDouble else FancyOpenDouble
    else FancyApostrophe
  }

  /** The text the fixer writes, given the prose offsets and the offsets to keep. */
  function FixWith(content: string, prose: set<nat>, kept: set<nat>): (r: string)
    ensures |r| == |content|
  {
    seq(|content|, i requires 0 <= i < |content| => FixedChar(content, prose, kept, i))
  }

  /** The offsets the fixer keeps straight: those on "Avoid:" lines when asked
      to skip such examples, and none otherwise. */
  function KeptOffsets(content: string, skip: bool): set<nat> {
    if skip then AvoidOffsets(content) else {}
  }

  lemma KeptAt(content: string, skip: bool, i: nat)
    requires i < |content|
    ensures i in KeptOffsets(content, skip) <==> skip && AvoidLine(LineAround(content, i))
  {
    if skip {
      AvoidOffsetsAt(content, i);
    }
  }

  /** The text the fixer writes for a document. */
  function Fixed(content: string, skip: bool): (r: string)
    ensures |r| == |content|
  {
    FixWith(content, ProseOffsetsOf(content), KeptOffsets(content, skip))
  }

  /** `fix_prose_quotes`, written with the source's loop and counter. */
  method FixProseQuotes(content: string, skip: bool) returns (r: string)
    ensures r == Fixed(content, skip)
  {
    var prose := ProseOffsetSet(content);
    r := FixLoop(content, prose, skip);
  }

  /** The loop of `fix_prose_quotes` over the characters of the document,
      given its prose offsets. */
  method FixLoop(content: string, prose: set<nat>, skip: bool) returns (r: string)
    ensures r == FixWith(content, prose, KeptOffsets(content, skip))
  {
    ghost var kept := KeptOffsets(content, skip);
    var result: string := [];
    var count := 0;
    for i := 0 to |content|
      invariant |result| == i
      invariant count == DoublesBefore(content, prose, kept, i)
      invariant forall k :: 0 <= k < i ==> result[k] == FixedChar(content, prose, kept, k)
    {
      var c;
      c, count := FixAt(content, prose, skip, i, count);
      result := result + [c];
    }
    r := result;
  }

  /** One turn of the fixer's loop: the character written for offset `i` and
      the counter of exchanged double quotes after it. The source repeats the
      "Avoid:" test in its double-quote and apostrophe branches; it is made
      once here, for either quote. */
  method FixAt(content: string, prose: set<nat>, skip: bool, i: nat, count: nat) returns (c: char, count': nat)
    requires i < |content| && count == DoublesBefore(content, prose, KeptOffsets(content, skip), i)
    ensures c == FixedChar(content, prose, KeptOffsets(content, skip), i)
    ensures count' == DoublesBefore(content, prose, KeptOffsets(content, skip), i + 1)
  {
    c := content[i];
    count' := count;
    if i in prose && IsStraightQuote(c) {
      var avoid := skip && AvoidLine(LineAround(content, i));
      KeptAt(content, skip, i);
      if !avoid {
        if c == StraightDouble {
          count' := count + 1;
          c := if count' % 2 == 0 then FancyCloseDouble else FancyOpenDouble;
        } else {
          c := FancyApostrophe;
        }
      }
    }
  }

  /** The exchanged double quotes below offset `n`. */
  ghost function ConvertedDoublesBelow(content: string, prose: set<nat>, kept: set<nat>, n: nat): set<nat>
    requires n <= |content|
  {
    set j: nat | j < n && ConvertsDouble(content, prose, kept, j)
  }

  /** The counter is the number of double quotes exchanged so far. */
  lemma {:induction false} DoublesBeforeCounts(content: string, prose: set<nat>, kept: set<nat>, n: nat)
    requires n <= |content|
    ensures DoublesBefore(content, prose, kept, n) == |ConvertedDoublesBelow(content, prose, kept, n)|
  {
    if n > 0 {
      DoublesBeforeCounts(content, prose, kept, n - 1);
      var below := ConvertedDoublesBelow(content, prose, kept, n - 1);
      if ConvertsDouble(content, prose, kept, n - 1) {
        assert ConvertedDoublesBelow(content, prose, kept, n) == below + {n - 1};
      } else {
        assert ConvertedDoublesBelow(content, prose, kept, n) == below;
      }
    }
  }

  /** The fixer changes a character exactly when it exchanges it, and then
      writes a curly quote. */
  lemma FixChangesOnlyProseQuotes(content: string, prose: set<nat>, kept: set<nat>, i: nat)
    requires i < |content|
    ensures FixWith(content, prose, kept)[i] != content[i] <==> Converts(content, prose, kept, i)
    ensures Converts(content, prose, kept, i) ==> IsFancyQuote(FixWith(content, prose, kept)[i])
  {
  }

  /** An exchanged apostrophe becomes a right single quotation mark. */
  lemma ApostropheBecomesRight(content: string, prose: set<nat>, kept: set<nat>, i: nat)
    requires i < |content| && Converts(content, prose, kept, i)
    requires content[i] == StraightApostrophe
    ensures FixWith(content, prose, kept)[i] == FancyApostrophe
  {
  }

  /** The `k`-th exchanged double quote of the document, counting from 1, opens
      when `k` is odd and closes when `k` is even. */
  lemma DoubleQuoteOrdinal(content: string, prose: set<nat>, kept: set<nat>, i: nat)
    requires i < |content| && ConvertsDouble(content, prose, kept, i)
    ensures var k := |ConvertedDoublesBelow(content, prose, kept, i + 1)|;
      FixWith(content, prose, kept)[i] == if k % 2 == 1 then FancyOpenDouble else FancyCloseDouble
  {
    DoublesBeforeCounts(content, prose, kept, i + 1);
    DoubleWritten(content, prose, kept, i);
  }

  /** No double quote is exchanged between `m` and `n`, so the counter stands still. */
  lemma {:induction false} DoublesBeforeFlat(content: string, prose: set<nat>, kept: set<nat>, m: nat, n: nat)
    requires m <= n <= |content|
    requires forall j :: m <= j < n ==> !ConvertsDouble(content, prose, kept, j)
    ensures DoublesBefore(content, prose, kept, n) == DoublesBefore(content, prose, kept, m)
    decreases n - m
  {
    if m < n {
      DoublesBeforeFlat(content, prose, kept, m, n - 1);
    }
  }

  /** Of two exchanged double quotes with none exchanged between them, one
      opens and the other closes. */
  lemma ConsecutiveDoublesAlternate(content: string, prose: set<nat>, kept: set<nat>, i: nat, j: nat)
    requires i < j < |content|
    requires ConvertsDouble(content, prose, kept, i)
    requires ConvertsDouble(content, prose, kept, j)
    requires forall m :: i < m < j ==> !ConvertsDouble(content, prose, kept, m)
    ensures FixWith(content, prose, kept)[i] != FixWith(content, prose, kept)[j]
    ensures FixWith(content, prose, kept)[i] in {FancyOpenDouble, FancyCloseDouble}
    ensures FixWith(content, prose, kept)[j] in {FancyOpenDouble, FancyCloseDouble}
  {
    var d := DoublesBefore(content, prose, kept, i) + 1;
    NextDouble(content, prose, kept, i, j);
    DoubleWritten(content, prose, kept, i);
    DoubleWritten(content, prose, kept, j);
    Parity(d);
  }

  lemma Parity(d: nat)
    ensures d % 2 == 1 <==> (d + 1) % 2 == 0
  {
  }

  /** The counter goes up by one from an exchanged double quote to the next. */
  lemma NextDouble(content: string, prose: set<nat>, kept: set<nat>, i: nat, j: nat)
    requires i < j < |content|
    requires ConvertsDouble(content, prose, kept, i)
    requires forall m :: i < m < j ==> !ConvertsDouble(content, prose, kept, m)
    ensures DoublesBefore(content, prose, kept, j) == DoublesBefore(content, prose, kept, i) + 1
  {
    DoublesBeforeFlat(content, prose, kept, i + 1, j);
  }

  /** An exchanged double quote opens when the counter, once incremented, is odd. */
  lemma DoubleWritten(content: string, prose: set<nat>, kept: set<nat>, i: nat)
    requires i < |content| && ConvertsDouble(content, prose, kept, i)
    ensures var d := DoublesBefore(content, prose, kept, i) + 1;
      FixWith(content, prose, kept)[i] == if d % 2 == 1 then FancyOpenDouble else FancyCloseDouble
  {
  }

  /** With skipping on, a character on an "Avoid:" line is left as it is. */
  lemma SkipKeepsAvoidLines(content: string, prose: set<nat>, i: nat)
    requires i < |content| && content[i] != '\n'
    requires AvoidLine(Lines(content)[LineOf(Lines(content), i)])
    ensures FixWith(content, prose, KeptOffsets(content, true))[i] == content[i]
  {
    LineAroundIsLine(content, i);
    KeptAt(content, true, i);
  }

  /** The offsets kept straight when the "Avoid:" test admits the bold
      `**Avoid**:` marker its comment names. */
  function IntendedKept(content: string, skip: bool): set<nat> {
    if skip then IntendedAvoidOffsets(content) else {}
  }

  /** The fixer with the intended "Avoid:" test. */
  function FixedIntended(content: string, skip: bool): (r: string)
    ensures |r| == |content|
  {
    FixWith(content, ProseOffsetsOf(content), IntendedKept(content, skip))
  }

  /** As written, a straight quote in prose on a `**Avoid**:` line is
      exchanged even with skipping on. */
  lemma BoldAvoidLineConverted(content: string, prose: set<nat>, i: nat, rest: string)
    requires i < |content| && content[i] != '\n' && i in prose && IsStraightQuote(content[i])
    requires Lines(content)[LineOf(Lines(content), i)] == "**Avoid**:" + rest && '-' !in rest
    ensures IsFancyQuote(FixWith(content, prose, KeptOffsets(content, true))[i])
  {
    LineAroundIsLine(content, i);
    BoldMarkerNotAvoid(rest);
    KeptAt(content, true, i);
  }

  /** With the intended test, every character of a `**Avoid**:` line is left
      as it is. */
  lemma BoldAvoidLineKept(content: string, prose: set<nat>, i: nat, rest: string)
    requires i < |content| && content[i] != '\n'
    requires Lines(content)[LineOf(Lines(content), i)] == "**Avoid**:" + rest
    ensures FixWith(content, prose, IntendedKept(content, true))[i] == content[i]
  {
    LineAroundIsLine(content, i);
    BoldMarkerIsIntendedAvoid(rest);
    IntendedAvoidOffsetsAt(content, i);
  }

  /** On a text without asterisks the intended fixer writes what the written
      one does. */
  lemma IntendedAgreesWithoutAsterisks(content: string, skip: bool)
    requires '*' !in content
    ensures FixedIntended(content, skip) == Fixed(content, skip)
  {
    if skip {
      var p := (i: nat) => i < |content| && IntendedAvoidLine(LineAround(content, i));
      var q := (i: nat) => i < |content| && AvoidLine(LineAround(content, i));
      forall i | 0 <= i < |content|
        ensures p(i) == q(i)
      {
        NoStarAround(content, i);
        IntendedWidens(LineAround(content, i));
      }
      OffsetsWhereSame(|content|, p, q);
    }
  }

  /** A line cut from a text without asterisks has none. */
  lemma NoStarAround(content: string, i: nat)
    requires i < |content| && '*' !in content
    ensures '*' !in LineAround(content, i)
  {
    var line := LineAround(content, i);
    forall k | 0 <= k < |line|
      ensures line[k] != '*'
    {
      assert line[k] == content[CutStart(content, i) + k];
    }
  }

  /** Without skipping, every straight quote at a prose offset is exchanged. */
  lemma NoSkipConvertsAll(content: string, prose: set<nat>, i: nat)
    requires i < |content| && i in prose && IsStraightQuote(content[i])
    ensures IsFancyQuote(FixWith(content, prose, KeptOffsets(content, false))[i])
  {
  }

  /** The fixer only exchanges quotes for quotes. */
  lemma FixedSimilar(content: string, prose: set<nat>, kept: set<nat>)
    ensures Similar(content, FixWith(content, prose, kept))
  {
    forall k | 0 <= k < |content|
      ensures content[k] == FixWith(content, prose, kept)[k] || (Plain(content[k]) && Plain(FixWith(content, prose, kept)[k]))
    {
      FixChangesOnlyProseQuotes(content, prose, kept, k);
    }
  }

  /** The fixed document has the same prose offsets, and the same offsets to
      keep, as the original. */
  lemma FixKeepsProse(content: string, skip: bool)
    ensures ProseOffsetsOf(Fixed(content, skip)) == ProseOffsetsOf(content)
    ensures KeptOffsets(Fixed(content, skip), skip) == KeptOffsets(content, skip)
  {
    var f := Fixed(content, skip);
    FixedSimilar(content, ProseOffsetsOf(content), KeptOffsets(content, skip));
    ProseOffsetsSimilar(content, f);
    AvoidOffsetsSimilar(content, f);
  }

  /** The fixer leaves every character of a line that is not prose where and as
      it was: the lines keep their lengths and kinds, and only prose offsets change. */
  lemma FixKeepsCodeChar(content: string, skip: bool, i: nat, j: nat)
    requires i < |Lines(content)| && j < |Lines(content)[i]| && Kinds(Lines(content))[i] != Prose
    ensures Kinds(Lines(Fixed(content, skip))) == Kinds(Lines(content))
    ensures i < |Lines(Fixed(content, skip))| && j < |Lines(Fixed(content, skip))[i]|
    ensures Lines(Fixed(content, skip))[i][j] == Lines(content)[i][j]
  {
    var f := Fixed(content, skip);
    FixKeepsLines(content, skip);
    LineStartSimilar(Lines(content), Lines(f), i);
    assert |Lines(f)[i]| == |Lines(content)[i]|;
    CharOfLine(content, i, j);
    CharOfLine(f, i, j);
    var o := LineStart(Lines(content), i) + j;
    CodeCharNotProse(content, i, j, o);
    FixChangesOnlyProseQuotes(content, ProseOffsetsOf(content), KeptOffsets(content, skip), o);
  }

  /** The fixed document splits into lines of the same lengths and kinds. */
  lemma FixKeepsLines(content: string, skip: bool)
    ensures SimilarLines(Lines(content), Lines(Fixed(content, skip)))
    ensures Kinds(Lines(Fixed(content, skip))) == Kinds(Lines(content))
  {
    FixedSimilar(content, ProseOffsetsOf(content), KeptOffsets(content, skip));
    KindsSimilar(content, Fixed(content, skip));
  }

  /** After the fixer, no offset of the fixed document is one it would exchange:
      the only straight quotes left in prose are on the lines it keeps. */
  lemma NothingLeftToConvert(content: string, skip: bool, i: nat)
    requires i < |content|
    ensures !Converts(Fixed(content, skip), ProseOffsetsOf(Fixed(content, skip)), KeptOffsets(Fixed(content, skip), skip), i)
  {
    FixKeepsProse(content, skip);
    FixChangesOnlyProseQuotes(content, ProseOffsetsOf(content), KeptOffsets(content, skip), i);
  }

  /** Fixing a fixed document changes nothing. */
  lemma FixIdempotent(content: string, skip: bool)
    ensures Fixed(Fixed(content, skip), skip) == Fixed(content, skip)
  {
    var f := Fixed(content, skip);
    forall k | 0 <= k < |f|
      ensures Fixed(f, skip)[k] == f[k]
    {
      FixedAgainAt(content, skip, k);
    }
  }

  /** A second fix leaves each character of the first one in place. */
  lemma FixedAgainAt(content: string, skip: bool, k: nat)
    requires k < |content|
    ensures Fixed(Fixed(content, skip), skip)[k] == Fixed(content, skip)[k]
  {
    var f := Fixed(content, skip);
    NothingLeftToConvert(content, skip, k);
    FixChangesOnlyProseQuotes(f, ProseOffsetsOf(f), KeptOffsets(f, skip), k);
  }

  /** A document with no straight quote at a prose offset is left as it is. */
  lemma NoProseQuoteUnchanged(content: string, skip: bool)
    requires forall p :: p in ProseOffsetsOf(content) && p < |content| ==> !IsStraightQuote(content[p])
    ensures Fixed(content, skip) == content
  {
    forall k | 0 <= k < |content|
      ensures Fixed(content, skip)[k] == content[k]
    {
      FixChangesOnlyProseQuotes(content, ProseOffsetsOf(content), KeptOffsets(content, skip), k);
    }
  }
}

=== FILE: frontmatter.dfy ===
/**
 `strip_frontmatter` of the AGENTS.md builder: a rule file is cut into a title
 and a body. An optional frontmatter block delimited by `---` is dropped, the
 first `## ` heading with a non-empty text gives the title and is removed, and
 what is left, stripped of surrounding whitespace, is the body.
 */
module Frontmatter {
  import opened Text

  const Delimiter: string := "---"
  const HeadingMarker: string := "## "

  /** The text searched for the title: when the content starts with `---` and a
      second `---` follows, everything up to the end of that second delimiter is
      dropped together with the line feeds right after it; otherwise the whole
      content. */
  function BodyAfterFrontmatter(content: string): (body: string)
  {
    if StartsWith(content, Delimiter) then
      var parts := SplitAtMost(content, Delimiter, 2);
      if |parts| >= 3 then TrimNewlines(parts[2]) else content
    else content
  }

  /** The same text, described with `find`: with an opening `---`, the
      frontmatter ends at the first `---` that starts at offset 3 or later, and
      without such a closing delimiter nothing is dropped. */
  lemma FrontmatterByFind(content: string)
    ensures var j := FindFrom(content, Delimiter, 3);
      BodyAfterFrontmatter(content) ==
        if StartsWith(content, Delimiter) && j != -1 then TrimNewlines(content[j + |Delimiter|..])
        else content
  {
    if StartsWith(content, Delimiter) {
      ClosingAfterOpening(content);
    }
  }

  /** With an opening delimiter, `split("---", 2)` yields a third piece
      exactly when `find` sees a closing delimiter, and that piece is what
      follows it. */
  lemma ClosingAfterOpening(content: string)
    requires StartsWith(content, Delimiter)
    ensures var parts := SplitAtMost(content, Delimiter, 2);
      var j := FindFrom(content, Delimiter, 3);
      && (|parts| >= 3 <==> j != -1)
      && (j != -1 ==> parts[2] == content[j + 3..])
  {
    var t := content[3..];
    var j := FindFrom(content, Delimiter, 3);
    OpeningCut(content);
    FindFromShift(content, t, Delimiter, 3, 3);
    ClosingCut(t);
    if j != -1 {
      assert content[j + 3..] == t[j - 3 + 3..];
    }
  }

  /** An opening `---` is the first cut, with nothing before it. */
  lemma OpeningCut(content: string)
    requires StartsWith(content, Delimiter)
    ensures SplitAtMost(content, Delimiter, 2) == [""] + SplitAtMost(content[3..], Delimiter, 1)
  {
    assert content[0..3] == content[..3];
    assert FindFrom(content, Delimiter, 0) == 0;
    assert content[..0] == "";
  }

  /** After the opening delimiter, one more cut is made exactly when a
      closing delimiter follows, and the piece after it is the rest. */
  lemma ClosingCut(t: string)
    ensures var j := FindFrom(t, Delimiter, 0);
      var parts := SplitAtMost(t, Delimiter, 1);
      && (|parts| >= 2 <==> j != -1)
      && (j != -1 ==> parts[1] == t[j + 3..])
  {
    var j := FindFrom(t, Delimiter, 0);
    if j != -1 {
      assert SplitAtMost(t[j + 3..], Delimiter, 0) == [t[j + 3..]];
    }
  }

  /** A line that starts with `## `. */
  predicate IsHeading(line: string) {
    StartsWith(line, HeadingMarker)
  }

  /** The text of a heading line, as the title would take it. */
  function HeadingText(line: string): string
    requires IsHeading(line)
  {
    Strip(line[3..])
  }

  /** The loop over the lines: `title` is the title found so far (the empty
      string while there is none); the result is the final title and the lines
      kept, in order. A heading line is taken as the title while the title is
      still empty, so a heading with an empty text does not stop the search. */
  function TakeTitle(lines: seq<string>, title: string): (r: (string, seq<string>))
    ensures |r.1| <= |lines|
  {
    if |lines| == 0 then (title, [])
    else if IsHeading(lines[0]) && title == "" then TakeTitle(lines[1..], HeadingText(lines[0]))
    else
      var r := TakeTitle(lines[1..], title);
      (r.0, [lines[0]] + r.1)
  }

  /** A rule file cut into its title and its body. */
  datatype Stripped = Stripped(title: string, body: string)

  /** `strip_frontmatter`: the title comes from the first heading line with a
      non-empty text after the frontmatter, and is empty when there is none; it
      carries no surrounding whitespace and no line feed. */
  function StripFrontmatter(content: string): (r: Stripped)
    ensures r.title == "" || (!IsWhitespace(r.title[0]) && !IsWhitespace(r.title[|r.title| - 1]))
    ensures '\n' !in r.title
  {
    var lines := Lines(BodyAfterFrontmatter(content));
    var taken := TakeTitle(lines, "");
    TitleShape(lines, "");
    Stripped(taken.0, Strip(Join(taken.1, '\n')))
  }

  /** The title `TakeTitle` ends with is the one it started with or the text of
      one of the lines. */
  lemma {:induction false} TitleShape(lines: seq<string>, title: string)
    requires NoSeparator(lines, '\n')
    requires title == "" || (!IsWhitespace(title[0]) && !IsWhitespace(title[|title| - 1]))
    requires '\n' !in title
    ensures var t := TakeTitle(lines, title).0;
      && (t == "" || (!IsWhitespace(t[0]) && !IsWhitespace(t[|t| - 1])))
      && '\n' !in t
  {
    if |lines| > 0 {
      assert NoSeparator(lines[1..], '\n') by {
        forall k | 0 <= k < |lines| - 1
          ensures '\n' !in lines[1..][k]
        {
          assert lines[1..][k] == lines[k + 1];
        }
      }
      if IsHeading(lines[0]) && title == "" {
        var h := HeadingText(lines[0]);
        assert '\n' !in h by {
          StripInside(lines[0][3..]);
          assert forall c :: c in lines[0][3..] ==> c in lines[0];
        }
        StripEnds(lines[0][3..]);
        TitleShape(lines[1..], h);
      } else {
        TitleShape(lines[1..], title);
      }
    }
  }

  /** `Strip` returns a piece of its argument. */
  lemma StripInside(s: string)
    ensures forall c :: c in Strip(s) ==> c in s
  {
    var l := TrimLeft(s);
    var r := TrimRight(l);
    assert forall c :: c in r ==> c in l;
    assert forall c :: c in l ==> c in s;
  }

  /** `Strip` leaves no whitespace at either end. */
  lemma StripEnds(s: string)
    ensures Strip(s) == "" || (!IsWhitespace(Strip(s)[0]) && !IsWhitespace(Strip(s)[|Strip(s)| - 1]))
  {
    var l := TrimLeft(s);
    var r := TrimRight(l);
    if r != "" {
      assert r[0] == l[0];
    }
  }

  /** Once a title is found, every later line is kept as it is. */
  lemma {:induction false} TitledKeepsAll(lines: seq<string>, title: string)
    requires title != ""
    ensures TakeTitle(lines, title) == (title, lines)
  {
    if |lines| > 0 {
      TitledKeepsAll(lines[1..], title);
      assert [lines[0]] + lines[1..] == lines;
    }
  }

  /** Lines before the first heading are kept in front of whatever the rest
      gives. */
  lemma {:induction false} NoHeadingPrefix(lines: seq<string>, i: nat)
    requires i <= |lines|
    requires forall m :: 0 <= m < i ==> !IsHeading(lines[m])
    ensures TakeTitle(lines, "").0 == TakeTitle(lines[i..], "").0
    ensures TakeTitle(lines, "").1 == lines[..i] + TakeTitle(lines[i..], "").1
  {
    if i > 0 {
      KeepFirst(lines);
      NoHeadingTail(lines, i);
      NoHeadingPrefix(lines[1..], i - 1);
      ShiftPrefix(lines, i, TakeTitle(lines[i..], "").1);
    } else {
      WholePrefix(lines, TakeTitle(lines, "").1);
    }
  }

  /** A first line that is no heading is kept, and the search goes on. */
  lemma KeepFirst(lines: seq<string>)
    requires |lines| > 0 && !IsHeading(lines[0])
    ensures TakeTitle(lines, "").0 == TakeTitle(lines[1..], "").0
    ensures TakeTitle(lines, "").1 == [lines[0]] + TakeTitle(lines[1..], "").1
  {
  }

  lemma NoHeadingTail(lines: seq<string>, i: nat)
    requires 0 < i <= |lines|
    requires forall m :: 0 <= m < i ==> !IsHeading(lines[m])
    ensures !IsHeading(lines[0])
    ensures forall m :: 0 <= m < i - 1 ==> !IsHeading(lines[1..][m])
  {
    assert forall m :: 0 <= m < i - 1 ==> lines[1..][m] == lines[m + 1];
  }

  lemma ShiftPrefix<T>(s: seq<T>, i: nat, x: seq<T>)
    requires 0 < i <= |s|
    ensures s[1..][i - 1..] == s[i..]
    ensures [s[0]] + (s[1..][..i - 1] + x) == s[..i] + x
  {
    assert [s[0]] + s[1..][..i - 1] == s[..i];
  }

  lemma WholePrefix<T>(s: seq<T>, x: seq<T>)
    ensures s[0..] == s && s[..0] + x == x
  {
  }

  /** Without any heading line the title is empty and every line is kept. */
  lemma {:induction false} NoHeadingNoTitle(lines: seq<string>)
    requires forall m :: 0 <= m < |lines| ==> !IsHeading(lines[m])
    ensures TakeTitle(lines, "") == ("", lines)
  {
    if |lines| > 0 {
      assert !IsHeading(lines[0]);
      assert forall m :: 0 <= m < |lines| - 1 ==> lines[1..][m] == lines[m + 1];
      NoHeadingNoTitle(lines[1..]);
      assert [lines[0]] + lines[1..] == lines;
    }
  }

  /** When the first heading line `i` has a non-empty text, that text is the
      title and line `i` is the only line removed; later headings stay. */
  lemma FirstHeadingIsTitle(lines: seq<string>, i: nat)
    requires i < |lines| && IsHeading(lines[i]) && HeadingText(lines[i]) != ""
    requires forall m :: 0 <= m < i ==> !IsHeading(lines[m])
    ensures TakeTitle(lines, "") == (HeadingText(lines[i]), lines[..i] + lines[i + 1..])
  {
    NoHeadingPrefix(lines, i);
    assert lines[i..][1..] == lines[i + 1..];
    TitledKeepsAll(lines[i + 1..], HeadingText(lines[i]));
  }

  /** A first heading line with an empty text is removed, and the search goes on:
      with the next heading line `m` having a text, both lines are removed and
      the title is the text of line `m`. */
  lemma EmptyHeadingSkipped(lines: seq<string>, i: nat, m: nat)
    requires i < m < |lines| && IsHeading(lines[i]) && HeadingText(lines[i]) == ""
    requires IsHeading(lines[m]) && HeadingText(lines[m]) != ""
    requires forall k :: 0 <= k < m && k != i ==> !IsHeading(lines[k])
    ensures TakeTitle(lines, "") == (HeadingText(lines[m]), lines[..i] + lines[i + 1..m] + lines[m + 1..])
  {
    EmptyHeadingDropped(lines, i);
    TitleFurtherDown(lines, i, m);
    ConcatAssoc3(lines[..i], lines[i + 1..m], lines[m + 1..]);
  }

  /** The title as the first `## ` line alone would give it: that line is
      removed and its text, even an empty one, is the title. */
  function FirstTitle(lines: seq<string>): (r: (string, seq<string>))
    ensures |r.1| <= |lines|
  {
    if |lines| == 0 then ("", [])
    else if IsHeading(lines[0]) then (HeadingText(lines[0]), lines[1..])
    else
      var r := FirstTitle(lines[1..]);
      (r.0, [lines[0]] + r.1)
  }

  /** `FirstTitle` removes exactly the first heading line and takes its text. */
  lemma {:induction false} FirstTitleRemovesOne(lines: seq<string>, i: nat)
    requires i < |lines| && IsHeading(lines[i])
    requires forall m :: 0 <= m < i ==> !IsHeading(lines[m])
    ensures FirstTitle(lines).0 == HeadingText(lines[i])
    ensures FirstTitle(lines).1 == lines[..i] + lines[i + 1..]
  {
    if i == 0 {
      assert lines[..0] + lines[1..] == lines[1..];
    } else {
      NoHeadingTail(lines, i);
      FirstTitleStep(lines);
      assert lines[1..][i - 1] == lines[i];
      FirstTitleRemovesOne(lines[1..], i - 1);
      assert lines[1..][i - 1 + 1..] == lines[i + 1..];
      ShiftPrefix(lines, i, lines[i + 1..]);
    }
  }

  /** Past a line that is not a heading, `FirstTitle` keeps that line first. */
  lemma FirstTitleStep(lines: seq<string>)
    requires |lines| > 0 && !IsHeading(lines[0])
    ensures FirstTitle(lines).0 == FirstTitle(lines[1..]).0
    ensures FirstTitle(lines).1 == [lines[0]] + FirstTitle(lines[1..]).1
  {
  }

  /** Where the first heading line has a text, `FirstTitle` and the source's
      loop agree; they differ only when that text is empty. */
  lemma FirstTitleAgrees(lines: seq<string>, i: nat)
    requires i < |lines| && IsHeading(lines[i]) && HeadingText(lines[i]) != ""
    requires forall m :: 0 <= m < i ==> !IsHeading(lines[m])
    ensures FirstTitle(lines) == TakeTitle(lines, "")
  {
    FirstTitleRemovesOne(lines, i);
    FirstHeadingIsTitle(lines, i);
  }

  lemma ConcatAssoc3<T>(a: seq<T>, b: seq<T>, c: seq<T>)
    ensures a + (b + c) == a + b + c
  {
  }

  lemma EmptyHeadingDropped(lines: seq<string>, i: nat)
    requires i < |lines| && IsHeading(lines[i]) && HeadingText(lines[i]) == ""
    requires forall k :: 0 <= k < i ==> !IsHeading(lines[k])
    ensures TakeTitle(lines, "").0 == TakeTitle(lines[i + 1..], "").0
    ensures TakeTitle(lines, "").1 == lines[..i] + TakeTitle(lines[i + 1..], "").1
  {
    NoHeadingPrefix(lines, i);
    DropEmptyHeading(lines, i);
  }

  /** A heading line with an empty text, while no title is found, is dropped. */
  lemma DropEmptyHeading(lines: seq<string>, i: nat)
    requires i < |lines| && IsHeading(lines[i]) && HeadingText(lines[i]) == ""
    ensures TakeTitle(lines[i..], "") == TakeTitle(lines[i + 1..], "")
  {
    assert lines[i..][0] == lines[i];
    assert lines[i..][1..] == lines[i + 1..];
  }

  lemma TitleFurtherDown(lines: seq<string>, i: nat, m: nat)
    requires i < m < |lines| && IsHeading(lines[m]) && HeadingText(lines[m]) != ""
    requires forall k :: i < k < m ==> !IsHeading(lines[k])
    ensures TakeTitle(lines[i + 1..], "").0 == HeadingText(lines[m])
    ensures TakeTitle(lines[i + 1..], "").1 == lines[i + 1..m] + lines[m + 1..]
  {
    var after := lines[i + 1..];
    var n := m - i - 1;
    assert after[n] == lines[m];
    assert forall k :: 0 <= k < n ==> !IsHeading(after[k]) by {
      assert forall k :: 0 <= k < n ==> after[k] == lines[k + i + 1];
    }
    FirstHeadingIsTitle(after, n);
    assert after[..n] == lines[i + 1..m];
    assert after[n + 1..] == lines[m + 1..];
  }

  /** The title is empty exactly when no heading line has a non-empty text. */
  lemma {:induction false} EmptyTitleIff(lines: seq<string>)
    ensures TakeTitle(lines, "").0 == "" <==>
      forall m :: 0 <= m < |lines| && IsHeading(lines[m]) ==> HeadingText(lines[m]) == ""
  {
    if |lines| > 0 {
      EmptyTitleIff(lines[1..]);
      HeadingsEmptyStep(lines);
      if IsHeading(lines[0]) && HeadingText(lines[0]) != "" {
        TitledKeepsAll(lines[1..], HeadingText(lines[0]));
      }
    }
  }

  /** Every heading line has an empty text exactly when the first line's does
      and every later heading line's does. */
  lemma HeadingsEmptyStep(lines: seq<string>)
    requires |lines| > 0
    ensures (forall m :: 0 <= m < |lines| && IsHeading(lines[m]) ==> HeadingText(lines[m]) == "") <==>
      && (IsHeading(lines[0]) ==> HeadingText(lines[0]) == "")
      && (forall m :: 0 <= m < |lines[1..]| && IsHeading(lines[1..][m]) ==> HeadingText(lines[1..][m]) == "")
  {
    assert forall m :: 1 <= m < |lines| ==> lines[m] == lines[1..][m - 1];
  }

  /** A rule file whose first heading line after the frontmatter has a text:
      that text is the title, and the body is the rest without that line. */
  lemma TitleFromFirstHeading(content: string, i: nat)
    requires var lines := Lines(BodyAfterFrontmatter(content));
      && i < |lines| && IsHeading(lines[i]) && HeadingText(lines[i]) != ""
      && forall m :: 0 <= m < i ==> !IsHeading(lines[m])
    ensures var lines := Lines(BodyAfterFrontmatter(content));
      StripFrontmatter(content) == Stripped(HeadingText(lines[i]), Strip(Join(lines[..i] + lines[i + 1..], '\n')))
  {
    FirstHeadingIsTitle(Lines(BodyAfterFrontmatter(content)), i);
  }

  /** A rule file without heading lines after the frontmatter has an empty
      title, and its body is that text, stripped. */
  lemma NoTitleWholeBody(content: string)
    requires var lines := Lines(BodyAfterFrontmatter(content));
      forall m :: 0 <= m < |lines| ==> !IsHeading(lines[m])
    ensures StripFrontmatter(content) == Stripped("", Strip(BodyAfterFrontmatter(content)))
  {
    NoHeadingNoTitle(Lines(BodyAfterFrontmatter(content)));
  }
}

=== FILE: inline_code.dfy ===
/**
 The back-tick scanner of the quote auditor: which characters of a text lie
 outside inline code spans. A span opens at a run of back-ticks and closes at
 the first later run that is AT LEAST as long (CommonMark asks for an equal
 length; the auditor does not); an unclosed span swallows the rest of the text.
 */
module InlineCode {
  import opened Text

  /** A character of the scanned text together with its offset. */
  datatype Located = Located(offset: nat, c: char)

  /** Offsets strictly increase along `xs`. */
  predicate Increasing(xs: seq<Located>) {
    forall k, l :: 0 <= k < l < |xs| ==> xs[k].offset < xs[l].offset
  }

  /** Two increasing sequences, the first ending below where the second starts,
      make an increasing sequence. */
  lemma IncreasingAppend(a: seq<Located>, b: seq<Located>)
    requires Increasing(a) && Increasing(b)
    requires |a| == 0 || |b| == 0 || a[|a| - 1].offset < b[0].offset
    ensures Increasing(a + b)
  {
    forall k, l | 0 <= k < l < |a + b|
      ensures (a + b)[k].offset < (a + b)[l].offset
    {
      if k < |a| && l >= |a| {
        assert a[k].offset <= a[|a| - 1].offset;
        assert b[0].offset <= b[l - |a|].offset;
      }
    }
  }

  /** The end of the maximal run of back-ticks that begins at `i`. */
  function RunEnd(s: string, i: nat): (k: nat)
    requires i <= |s|
    ensures i <= k <= |s|
    ensures forall m :: i <= m < k ==> s[m] == '`'
    ensures k == |s| || s[k] != '`'
    decreases |s| - i
  {
    if i < |s| && s[i] == '`' then RunEnd(s, i + 1) else i
  }

  /** Any index that ends a back-tick run begun at `i` is the one `RunEnd` finds. */
  lemma RunEndUnique(s: string, i: nat, k: nat)
    requires i <= k <= |s|
    requires forall m :: i <= m < k ==> s[m] == '`'
    requires k == |s| || s[k] != '`'
    ensures RunEnd(s, i) == k
    decreases k - i
  {
    if i < k {
      RunEndUnique(s, i + 1, k);
    }
  }

  /** `p` is the first back-tick of a run. */
  predicate RunStart(s: string, p: nat) {
    p < |s| && s[p] == '`' && (p == 0 || s[p - 1] != '`')
  }

  /** Position `j` is not strictly inside a back-tick run. */
  predicate NotMidRun(s: string, j: nat) {
    j <= |s| && (j == 0 || j == |s| || s[j - 1] != '`' || s[j] != '`')
  }

  /** The run starting at `p` is long enough to close a span opened by `n` back-ticks. */
  predicate ClosesSpan(s: string, p: nat, n: nat) {
    RunStart(s, p) && RunEnd(s, p) - p >= n
  }

  /** Where scanning resumes after a span opened by `n` back-ticks whose content
      starts at `j`: just past the first closing run, or the end of the text. */
  function SkipSpan(s: string, j: nat, n: nat): (k: nat)
    requires j <= |s|
    ensures j <= k <= |s|
    decreases |s| - j
  {
    if j == |s| then |s|
    else if s[j] == '`' then
      var k := RunEnd(s, j);
      if k - j >= n then k else SkipSpan(s, k, n)
    else SkipSpan(s, j + 1, n)
  }

  /** `SkipSpan` stops right after the first run of at least `n` back-ticks, and
      at the end of the text when there is none. */
  lemma {:induction false} SkipSpanFindsClose(s: string, j: nat, n: nat)
    requires NotMidRun(s, j)
    ensures var k := SkipSpan(s, j, n);
      && (k == |s| || exists p :: j <= p < k && ClosesSpan(s, p, n) && RunEnd(s, p) == k)
      && (forall p :: j <= p < |s| && ClosesSpan(s, p, n) ==> k <= RunEnd(s, p))
    decreases |s| - j
  {
    if j < |s| {
      if s[j] == '`' {
        var k := RunEnd(s, j);
        if k - j >= n {
          assert ClosesSpan(s, j, n);
        } else {
          assert forall p :: j < p < k ==> !RunStart(s, p);
          SkipSpanFindsClose(s, k, n);
        }
      } else {
        SkipSpanFindsClose(s, j + 1, n);
      }
    }
  }

  /** The characters from offset `i` on that lie outside inline code, in order:
      the generator `iter_prose_offsets` started at `i`. */
  function ProseFrom(s: string, i: nat): seq<Located>
    requires i <= |s|
    decreases |s| - i
  {
    if i == |s| then []
    else if s[i] == '`' then
      var j := RunEnd(s, i);
      ProseFrom(s, SkipSpan(s, j, j - i))
    else
      [Located(i, s[i])] + ProseFrom(s, i + 1)
  }

  /** `iter_prose_offsets` yields, in strictly increasing order, offsets of the
      text paired with the character found there, and never a back-tick. */
  lemma ProseFromFacts(s: string, i: nat)
    requires i <= |s|
    ensures forall k :: 0 <= k < |ProseFrom(s, i)| ==>
              i <= ProseFrom(s, i)[k].offset < |s| && ProseFrom(s, i)[k].c == s[ProseFrom(s, i)[k].offset]
    ensures forall k :: 0 <= k < |ProseFrom(s, i)| ==> ProseFrom(s, i)[k].c != '`'
    ensures Increasing(ProseFrom(s, i))
  {
    ProseFromLocated(s, i);
    ProseFromIncreasing(s, i);
  }

  /** A pair the scan yields names a character of the text that is not a back-tick. */
  lemma ProseMember(s: string, x: Located)
    requires x in ProseFrom(s, 0)
    ensures x.offset < |s| && s[x.offset] == x.c && x.c != '`'
  {
    ProseFromLocated(s, 0);
  }

  lemma {:induction false} ProseFromLocated(s: string, i: nat)
    requires i <= |s|
    ensures forall k :: 0 <= k < |ProseFrom(s, i)| ==>
              i <= ProseFrom(s, i)[k].offset < |s| && ProseFrom(s, i)[k].c == s[ProseFrom(s, i)[k].offset]
              && ProseFrom(s, i)[k].c != '`'
    decreases |s| - i
  {
    if i < |s| {
      if s[i] == '`' {
        var j := RunEnd(s, i);
        ProseFromLocated(s, SkipSpan(s, j, j - i));
      } else {
        var rest := ProseFrom(s, i + 1);
        ProseFromLocated(s, i + 1);
        var r := [Located(i, s[i])] + rest;
        assert ProseFrom(s, i) == r;
        assert forall k :: 1 <= k < |r| ==> r[k] == rest[k - 1];
      }
    }
  }

  lemma {:induction false} ProseFromIncreasing(s: string, i: nat)
    requires i <= |s|
    ensures Increasing(ProseFrom(s, i))
    decreases |s| - i
  {
    if i < |s| {
      if s[i] == '`' {
        var j := RunEnd(s, i);
        ProseFromIncreasing(s, SkipSpan(s, j, j - i));
      } else {
        var rest := ProseFrom(s, i + 1);
        ProseFromIncreasing(s, i + 1);
        ProseFromLocated(s, i + 1);
        assert ProseFrom(s, i) == [Located(i, s[i])] + rest;
        IncreasingAppend([Located(i, s[i])], rest);
      }
    }
  }

  /** A text without back-ticks is prose from end to end. */
  lemma {:induction false} NoBackticksAllProse(s: string, i: nat)
    requires i <= |s| && '`' !in s
    ensures |ProseFrom(s, i)| == |s| - i
    ensures forall k :: 0 <= k < |s| - i ==> ProseFrom(s, i)[k] == Located(i + k, s[i + k])
    decreases |s| - i
  {
    if i < |s| {
      NoBackticksAllProse(s, i + 1);
      assert s[i] in s;
      CharStep(s, i);
      ConsShift(Located(i, s[i]), ProseFrom(s, i + 1));
    }
  }

  /** A span whose opening run of `n` back-ticks is never matched by a run at
      least as long hides everything after it. */
  lemma UnclosedSpanHidesRest(s: string, i: nat, n: nat)
    requires RunStart(s, i) && n == RunEnd(s, i) - i
    requires forall p :: RunEnd(s, i) <= p < |s| ==> !ClosesSpan(s, p, n)
    ensures ProseFrom(s, i) == []
  {
    SkipSpanFindsClose(s, RunEnd(s, i), n);
  }

  /** A span opened by `n` back-ticks and first closed by the run at `p` resumes
      the scan right after that run. */
  lemma ClosedSpanResumes(s: string, i: nat, n: nat, p: nat)
    requires RunStart(s, i) && n == RunEnd(s, i) - i
    requires RunEnd(s, i) <= p && ClosesSpan(s, p, n)
    requires forall q :: RunEnd(s, i) <= q < p ==> !ClosesSpan(s, q, n)
    ensures ProseFrom(s, i) == ProseFrom(s, RunEnd(s, p))
  {
    SpanStep(s, i);
    FirstCloseEndsSpan(s, RunEnd(s, i), n, p);
  }

  /** At a back-tick, the scan carries on after the span it opens. */
  lemma SpanStep(s: string, i: nat)
    requires i < |s| && s[i] == '`'
    ensures ProseFrom(s, i) == ProseFrom(s, SkipSpan(s, RunEnd(s, i), RunEnd(s, i) - i))
  {
  }

  /** Outside a span, the scan yields the character at `i` and carries on at `i + 1`. */
  lemma CharStep(s: string, i: nat)
    requires i < |s| && s[i] != '`'
    ensures ProseFrom(s, i) == [Located(i, s[i])] + ProseFrom(s, i + 1)
  {
  }

  /** A span whose content starts at `j` ends just past the first run at or
      after `j` that closes it. */
  lemma FirstCloseEndsSpan(s: string, j: nat, n: nat, p: nat)
    requires j <= p && ClosesSpan(s, p, n) && (j == |s| || s[j] != '`')
    requires forall q :: j <= q < p ==> !ClosesSpan(s, q, n)
    ensures SkipSpan(s, j, n) == RunEnd(s, p)
  {
    var k := SkipSpan(s, j, n);
    SkipSpanFindsClose(s, j, n);
    if k < |s| {
      var p' :| j <= p' < k && ClosesSpan(s, p', n) && RunEnd(s, p') == k;
      RunsOrdered(s, p, p');
      RunsOrdered(s, p', p);
    }
  }

  /** Of two distinct runs, the earlier one ends before the later one starts. */
  lemma RunsOrdered(s: string, p: nat, q: nat)
    requires RunStart(s, p) && RunStart(s, q)
    ensures p < q ==> RunEnd(s, p) < q <= RunEnd(s, q)
  {
  }

  /** The counting loop of the source: the length of the back-tick run at `j`
      and the index just past it. */
  method ScanRun(s: string, j: nat) returns (run: nat, k: nat)
    requires j <= |s|
    ensures k == RunEnd(s, j) && run == k - j
  {
    run := 0;
    k := j;
    while k < |s| && s[k] == '`'
      invariant j <= k <= |s| && run == k - j
      invariant forall m :: j <= m < k ==> s[m] == '`'
    {
      run := run + 1;
      k := k + 1;
    }
    RunEndUnique(s, j, k);
  }

  /** The skipping loop of the source for a span opened by `n` back-ticks whose
      content starts at `start`. The loop is guarded by `j <= |s|`, which is
      also one of its invariants: it is only ever left through a `break`, so the
      source's `while ... else` fallback can never run. */
  method SkipToClose(s: string, start: nat, n: nat) returns (i: nat)
    requires start <= |s|
    ensures i == SkipSpan(s, start, n)
  {
    var j := start;
    i := start;
    while j <= |s|
      invariant start <= j <= |s|
      invariant SkipSpan(s, j, n) == SkipSpan(s, start, n)
      decreases |s| - j
    {
      if j == |s| {
        i := j;
        break;
      }
      if s[j] == '`' {
        var run, k := ScanRun(s, j);
        if run >= n {
          i := k;
          break;
        }
        j := k;
        continue;
      }
      j := j + 1;
    }
  }

  /** The generator `iter_prose_offsets`, written with the source's loops. */
  method IterProseOffsets(s: string) returns (r: seq<Located>)
    ensures r == ProseFrom(s, 0)
  {
    r := [];
    var i := 0;
    while i < |s|
      invariant i <= |s|
      invariant r + ProseFrom(s, i) == ProseFrom(s, 0)
      decreases |s| - i
    {
      if s[i] == '`' {
        var backtickRun, j := ScanRun(s, i);
        SpanStep(s, i);
        i := SkipToClose(s, j, backtickRun);
        continue;
      }
      CharStep(s, i);
      AppendAssoc(r, [Located(i, s[i])], ProseFrom(s, i + 1));
      r := r + [Located(i, s[i])];
      i := i + 1;
    }
  }

  lemma ConsShift<T>(x: T, xs: seq<T>)
    ensures forall k :: 1 <= k <= |xs| ==> ([x] + xs)[k] == xs[k - 1]
  {
  }

  lemma AppendAssoc<T>(a: seq<T>, b: seq<T>, c: seq<T>)
    ensures (a + b) + c == a + (b + c)
  {
  }
}

=== FILE: name_order.dfy ===
/**
 Python's ordering of strings, which compares code point by code point and
 puts a proper prefix first, and sorting by it. The AGENTS.md builder sorts
 the rule files of each group by their names.
 */
module NameOrder {

  /** `a <= b` on Python strings. */
  predicate LexLe(a: string, b: string)
    decreases |a|
  {
    |a| == 0 || (|b| > 0 && (a[0] < b[0] || (a[0] == b[0] && LexLe(a[1..], b[1..]))))
  }

  lemma {:induction false} LexRefl(a: string)
    ensures LexLe(a, a)
    decreases |a|
  {
    if |a| > 0 {
      LexRefl(a[1..]);
    }
  }

  /** Any two strings are ordered one way or the other. */
  lemma {:induction false} LexTotal(a: string, b: string)
    ensures LexLe(a, b) || LexLe(b, a)
    decreases |a|
  {
    if |a| > 0 && |b| > 0 && a[0] == b[0] {
      LexTotal(a[1..], b[1..]);
    }
  }

  lemma {:induction false} LexTrans(a: string, b: string, c: string)
    requires LexLe(a, b) && LexLe(b, c)
    ensures LexLe(a, c)
    decreases |a|
  {
    if |a| > 0 && a[0] == b[0] && b[0] == c[0] {
      LexTrans(a[1..], b[1..], c[1..]);
    }
  }

  /** Only equal strings are ordered both ways. */
  lemma {:induction false} LexAntisym(a: string, b: string)
    requires LexLe(a, b) && LexLe(b, a)
    ensures a == b
    decreases |a|
  {
    if |a| > 0 {
      LexAntisym(a[1..], b[1..]);
      assert a == [a[0]] + a[1..] && b == [b[0]] + b[1..];
    }
  }

  /** Every name is at most every later one. */
  predicate Sorted(xs: seq<string>) {
    forall k, l :: 0 <= k < l < |xs| ==> LexLe(xs[k], xs[l])
  }

  /** `x` put into the sorted `xs` before the first name above it. */
  function Insert(x: string, xs: seq<string>): (r: seq<string>)
    requires Sorted(xs)
    ensures Sorted(r)
    ensures multiset(r) == multiset(xs) + multiset{x}
    ensures forall y :: y in r ==> y == x || y in xs
  {
    if |xs| == 0 then [x]
    else if LexLe(x, xs[0]) then
      InsertFront(x, xs);
      [x] + xs
    else
      assert xs == [xs[0]] + xs[1..];
      var rest := Insert(x, xs[1..]);
      LexTotal(x, xs[0]);
      InsertBehind(xs[0], x, xs[1..], rest);
      [xs[0]] + rest
  }

  lemma InsertFront(x: string, xs: seq<string>)
    requires Sorted(xs) && |xs| > 0 && LexLe(x, xs[0])
    ensures Sorted([x] + xs)
  {
    forall l | 1 <= l < |xs| + 1
      ensures LexLe(x, ([x] + xs)[l])
    {
      if l > 1 {
        LexTrans(x, xs[0], xs[l - 1]);
      }
    }
  }

  lemma InsertBehind(h: string, x: string, tail: seq<string>, rest: seq<string>)
    requires Sorted([h] + tail) && Sorted(rest) && LexLe(h, x)
    requires forall y :: y in rest ==> y == x || y in tail
    ensures Sorted([h] + rest)
  {
    forall l | 0 <= l < |rest|
      ensures LexLe(h, rest[l])
    {
      assert rest[l] in rest;
      if rest[l] != x {
        var m :| 0 <= m < |tail| && tail[m] == rest[l];
        assert ([h] + tail)[0] == h && ([h] + tail)[m + 1] == tail[m];
      }
    }
  }

  /** `sorted(xs)`: the same names, as a multiset, in ascending order. */
  function SortNames(xs: seq<string>): (r: seq<string>)
    ensures Sorted(r)
    ensures multiset(r) == multiset(xs)
  {
    if |xs| == 0 then []
    else
      assert xs == [xs[0]] + xs[1..];
      Insert(xs[0], SortNames(xs[1..]))
  }

  /** There is only one sorted arrangement of a multiset of names, so the
      result of sorting does not depend on the order the names came in. */
  lemma {:induction false} SortedUnique(a: seq<string>, b: seq<string>)
    requires Sorted(a) && Sorted(b) && multiset(a) == multiset(b)
    ensures a == b
  {
    if |a| > 0 {
      SameHead(a, b);
      SortedTail(a);
      SortedTail(b);
      SortedUnique(a[1..], b[1..]);
      assert a == [a[0]] + a[1..] && b == [b[0]] + b[1..];
    }
  }

  /** Two sorted arrangements of one multiset start alike and continue with
      the same multiset. */
  lemma SameHead(a: seq<string>, b: seq<string>)
    requires Sorted(a) && Sorted(b) && multiset(a) == multiset(b) && |a| > 0
    ensures |b| > 0 && a[0] == b[0] && multiset(a[1..]) == multiset(b[1..])
  {
    assert |b| > 0 by {
      assert |multiset(b)| == |multiset(a)|;
    }
    assert a[0] == b[0] by {
      assert a[0] in multiset(b) && b[0] in multiset(a);
      FirstIsLeast(a, b[0]);
      FirstIsLeast(b, a[0]);
      LexAntisym(a[0], b[0]);
    }
    assert a == [a[0]] + a[1..] && b == [b[0]] + b[1..];
    assert multiset(a[1..]) == multiset(a) - multiset{a[0]};
    assert multiset(b[1..]) == multiset(b) - multiset{b[0]};
  }

  lemma FirstIsLeast(a: seq<string>, y: string)
    requires Sorted(a) && y in a
    ensures LexLe(a[0], y)
  {
    var k :| 0 <= k < |a| && a[k] == y;
    if k == 0 {
      LexRefl(y);
    }
  }

  lemma SortedTail(a: seq<string>)
    requires Sorted(a) && |a| > 0
    ensures Sorted(a[1..])
  {
    forall k, l | 0 <= k < l < |a| - 1
      ensures LexLe(a[1..][k], a[1..][l])
    {
      assert a[1..][k] == a[k + 1] && a[1..][l] == a[l + 1];
    }
  }
}

=== FILE: positions.dfy ===
/**
 Line and column numbers as the quote auditor reports them: both count from 1,
 and a line feed belongs to the line it ends.
 */
module Positions {
  import opened Text

  /** A 1-based line and column. */
  datatype Position = Position(line: nat, col: nat)

  /** `line_and_column`: one more than the number of line feeds before `offset`,
      and one more than the distance from the start of that line. Python's
      slicing clamps an offset beyond the end to the end. */
  function LineAndColumn(content: string, offset: nat): (p: Position)
    ensures p.line >= 1 && p.col >= 1
  {
    var before := content[..if offset <= |content| then offset else |content|];
    var line := Count(before, '\n') + 1;
    var col := if '\n' in before then offset - LastIndexOf(before, '\n') else offset + 1;
    Position(line, col)
  }

  /** `LineAndColumn` reports the line an offset falls on and its distance from
      that line's start, both counted from 1. */
  lemma LineAndColumnLocates(content: string, offset: nat)
    requires offset <= |content|
    ensures var lines := Lines(content);
      var i := LineOf(lines, offset);
      && LineStart(lines, i) <= offset <= LineStart(lines, i) + |lines[i]|
      && LineAndColumn(content, offset) == Position(i + 1, offset - LineStart(lines, i) + 1)
  {
    var lines := Lines(content);
    LocateOffset(lines, '\n', offset);
    var i := LineOf(lines, offset);
    var before := content[..offset];
    assert Count(before, '\n') == i;
    assert '\n' in before <==> i > 0;
  }

  /** Conversely, character `j` of line `i` is reported at line `i + 1`,
      column `j + 1`. */
  lemma PositionOfLineStart(content: string, i: nat, j: nat)
    requires i < |Lines(content)| && j <= |Lines(content)[i]|
    ensures LineStart(Lines(content), i) + j <= |content|
    ensures LineAndColumn(content, LineStart(Lines(content), i) + j) == Position(i + 1, j + 1)
  {
    OffsetInText(content, i, j);
    LineOfLineStart(Lines(content), i, j);
    LineAndColumnOn(content, LineStart(Lines(content), i) + j, i);
  }

  lemma OffsetInText(content: string, i: nat, j: nat)
    requires i < |Lines(content)| && j <= |Lines(content)[i]|
    ensures LineStart(Lines(content), i) + j <= |content|
  {
    CharAtLineStart(Lines(content), '\n', i, j);
  }

  /** An offset known to lie on line `i` is reported on line `i + 1`. */
  lemma LineAndColumnOn(content: string, o: nat, i: nat)
    requires o <= |content| && LineOf(Lines(content), o) == i
    ensures LineStart(Lines(content), i) <= o
    ensures LineAndColumn(content, o) == Position(i + 1, o - LineStart(Lines(content), i) + 1)
  {
    LineAndColumnLocates(content, o);
  }

  /** A character other than a line feed is reported at the line it sits on
      and its 1-based place in that line. */
  lemma PositionOfChar(content: string, o: nat)
    requires o < |content| && content[o] != '\n'
    ensures var lines := Lines(content);
      var i := LineOf(lines, o);
      && LineStart(lines, i) <= o < LineStart(lines, i) + |lines[i]|
      && lines[i][o - LineStart(lines, i)] == content[o]
      && LineAndColumn(content, o) == Position(i + 1, o - LineStart(lines, i) + 1)
  {
    var lines := Lines(content);
    LineAndColumnLocates(content, o);
    var i := LineOf(lines, o);
    var j := o - LineStart(lines, i);
    CharAtLineStart(lines, '\n', i, j);
  }
}

=== FILE: prose_offsets.dfy ===
/**
 `prose_offset_set`: the offsets of the document the quote fixer may touch. It
 walks the lines with the fence state machine and, on each prose line, runs the
 inline-code scan over that line alone, so an unclosed back-tick span ends at
 the end of its line.
 */
module ProseOffsets {
  import opened Text
  import opened InlineCode
  import opened Fences
  import opened Shape

  /** The offsets of `xs`, each moved by `pos`. */
  function Shifted(xs: seq<Located>, pos: nat): set<nat> {
    set x | x in xs :: pos + x.offset
  }

  /** The prose offsets of the first `n` lines. */
  function ProseOffsetsUpTo(lines: seq<string>, kinds: seq<LineKind>, n: nat): set<nat>
    requires |kinds| == |lines| && n <= |lines|
  {
    if n == 0 then {}
    else ProseOffsetsUpTo(lines, kinds, n - 1)
         + (if kinds[n - 1] == Prose then Shifted(ProseFrom(lines[n - 1], 0), LineStart(lines, n - 1)) else {})
  }

  /** The prose offsets of a document. */
  function ProseOffsetsOf(content: string): set<nat> {
    ProseOffsetsUpTo(Lines(content), Kinds(Lines(content)), |Lines(content)|)
  }

  /** Every prose offset of the first `n` lines comes from the inline scan of a
      prose line among them. */
  lemma {:induction false} UpToSound(lines: seq<string>, kinds: seq<LineKind>, n: nat, o: nat) returns (i: nat, x: Located)
    requires |kinds| == |lines| && n <= |lines| && o in ProseOffsetsUpTo(lines, kinds, n)
    ensures i < n && kinds[i] == Prose && x in ProseFrom(lines[i], 0) && o == LineStart(lines, i) + x.offset
  {
    if o !in ProseOffsetsUpTo(lines, kinds, n - 1) {
      i := n - 1;
      x :| x in ProseFrom(lines[n - 1], 0) && o == LineStart(lines, n - 1) + x.offset;
    } else {
      i, x := UpToSound(lines, kinds, n - 1, o);
    }
  }

  /** And every such offset is listed. */
  lemma {:induction false} UpToComplete(lines: seq<string>, kinds: seq<LineKind>, n: nat, i: nat, x: Located)
    requires |kinds| == |lines| && i < n <= |lines|
    requires kinds[i] == Prose && x in ProseFrom(lines[i], 0)
    ensures LineStart(lines, i) + x.offset in ProseOffsetsUpTo(lines, kinds, n)
  {
    if i < n - 1 {
      UpToComplete(lines, kinds, n - 1, i, x);
    }
  }

  /** A prose offset of a document lies on a prose line, at a character the
      inline scan of that line yields: a character of the document that is
      neither a back-tick nor a line feed. */
  lemma ProseOffsetSound(content: string, o: nat)
    requires o in ProseOffsetsOf(content)
    ensures o < |content| && content[o] != '`' && content[o] != '\n'
    ensures var lines := Lines(content);
      var i := LineOf(lines, o);
      && Kinds(lines)[i] == Prose
      && LineStart(lines, i) <= o
      && Located(o - LineStart(lines, i), content[o]) in ProseFrom(lines[i], 0)
  {
    var lines := Lines(content);
    var kinds := Kinds(lines);
    var i, x := UpToSound(lines, kinds, |lines|, o);
    ProseCharAt(content, o, i, x);
  }

  /** No character of a line that is not prose is at a prose offset. */
  lemma CodeCharNotProse(content: string, i: nat, j: nat, o: nat)
    requires i < |Lines(content)| && j < |Lines(content)[i]| && Kinds(Lines(content))[i] != Prose
    requires o == LineStart(Lines(content), i) + j
    ensures o !in ProseOffsetsOf(content)
  {
    LineOfLineChar(content, i, j);
    OffsetOffProse(content, o);
  }

  lemma LineOfLineChar(content: string, i: nat, j: nat)
    requires i < |Lines(content)| && j < |Lines(content)[i]|
    ensures LineOf(Lines(content), LineStart(Lines(content), i) + j) == i
  {
    CharOfLine(content, i, j);
  }

  /** An offset whose line is not prose is not a prose offset. */
  lemma OffsetOffProse(content: string, o: nat)
    requires Kinds(Lines(content))[LineOf(Lines(content), o)] != Prose
    ensures o !in ProseOffsetsOf(content)
  {
    if o in ProseOffsetsOf(content) {
      ProseOffsetSound(content, o);
      assert false;
    }
  }

  /** A character the inline scan of prose line `i` yields, seen in the
      document. */
  lemma ProseCharAt(content: string, o: nat, i: nat, x: Located)
    requires i < |Lines(content)| && Kinds(Lines(content))[i] == Prose && x in ProseFrom(Lines(content)[i], 0)
    requires o == LineStart(Lines(content), i) + x.offset
    ensures o < |content| && content[o] != '`' && content[o] != '\n'
    ensures var lines := Lines(content);
      var i := LineOf(lines, o);
      && Kinds(lines)[i] == Prose
      && LineStart(lines, i) <= o
      && Located(o - LineStart(lines, i), content[o]) in ProseFrom(lines[i], 0)
  {
    ProseMember(Lines(content)[i], x);
    CharOfLine(content, i, x.offset);
  }

  /** Every character the inline scan of a prose line yields is a prose offset. */
  lemma ProseOffsetComplete(content: string, i: nat, x: Located)
    requires i < |Lines(content)| && Kinds(Lines(content))[i] == Prose
    requires x in ProseFrom(Lines(content)[i], 0)
    ensures LineStart(Lines(content), i) + x.offset in ProseOffsetsOf(content)
  {
    UpToComplete(Lines(content), Kinds(Lines(content)), |Lines(content)|, i, x);
  }

  /** Exchanging quotes leaves the prose offsets as they were. */
  lemma ProseOffsetsSimilar(a: string, b: string)
    requires Similar(a, b)
    ensures ProseOffsetsOf(a) == ProseOffsetsOf(b)
  {
    KindsSimilar(a, b);
    UpToSimilar(Lines(a), Lines(b), Kinds(Lines(a)), |Lines(a)|);
  }

  lemma {:induction false} UpToSimilar(la: seq<string>, lb: seq<string>, kinds: seq<LineKind>, n: nat)
    requires SimilarLines(la, lb) && |kinds| == |la| && n <= |la|
    ensures ProseOffsetsUpTo(la, kinds, n) == ProseOffsetsUpTo(lb, kinds, n)
  {
    if n > 0 {
      UpToSimilar(la, lb, kinds, n - 1);
      LineStartSimilar(la, lb, n - 1);
      ProseFromSimilar(la[n - 1], lb[n - 1], 0);
      ShiftedSame(ProseFrom(la[n - 1], 0), ProseFrom(lb[n - 1], 0), LineStart(la, n - 1));
    }
  }

  /** Lines of equal lengths start at equal offsets. */
  lemma {:induction false} LineStartSimilar(la: seq<string>, lb: seq<string>, i: nat)
    requires SimilarLines(la, lb) && i <= |la|
    ensures LineStart(la, i) == LineStart(lb, i)
  {
    if i > 0 {
      assert SimilarLines(la[1..], lb[1..]) by {
        assert forall m :: 0 <= m < |la| - 1 ==> la[1..][m] == la[m + 1] && lb[1..][m] == lb[m + 1];
      }
      LineStartSimilar(la[1..], lb[1..], i - 1);
    }
  }

  lemma ShiftedSame(xs: seq<Located>, ys: seq<Located>, pos: nat)
    requires Offsets(xs) == Offsets(ys)
    ensures Shifted(xs, pos) == Shifted(ys, pos)
  {
    ShiftedSubset(xs, ys, pos);
    ShiftedSubset(ys, xs, pos);
  }

  lemma ShiftedSubset(xs: seq<Located>, ys: seq<Located>, pos: nat)
    requires Offsets(xs) == Offsets(ys)
    ensures Shifted(xs, pos) <= Shifted(ys, pos)
  {
    forall o | o in Shifted(xs, pos) ensures o in Shifted(ys, pos) {
      var k := ShiftedIndex(xs, pos, o);
      assert Offsets(xs)[k] == Offsets(ys)[k];
      ShiftedHas(ys, pos, k);
    }
  }

  lemma ShiftedIndex(xs: seq<Located>, pos: nat, o: nat) returns (k: nat)
    requires o in Shifted(xs, pos)
    ensures k < |xs| && o == pos + xs[k].offset
  {
    var x :| x in xs && o == pos + x.offset;
    k :| k < |xs| && xs[k] == x;
  }

  lemma ShiftedHas(xs: seq<Located>, pos: nat, k: nat)
    requires k < |xs|
    ensures pos + xs[k].offset in Shifted(xs, pos)
  {
    assert xs[k] in xs;
  }

  /** The offsets of the first `k` entries, moved by `pos`, grow one entry at a time. */
  lemma ShiftedStep(xs: seq<Located>, pos: nat, k: nat)
    requires k < |xs|
    ensures Shifted(xs[..k + 1], pos) == Shifted(xs[..k], pos) + {pos + xs[k].offset}
  {
    assert xs[..k + 1] == xs[..k] + [xs[k]];
  }

  /** Every prose offset is a character of the document that is neither a
      back-tick nor a line feed. */
  lemma ProseOffsetsBounded(content: string)
    ensures forall o :: o in ProseOffsetsOf(content) ==> o < |content| && content[o] != '`' && content[o] != '\n'
  {
    forall o | o in ProseOffsetsOf(content)
      ensures o < |content| && content[o] != '`' && content[o] != '\n'
    {
      ProseOffsetSound(content, o);
    }
  }

  /** `prose_offset_set`. The scan of a prose line is the same back-tick
      scanner `iter_prose_offsets` runs. */
  method ProseOffsetSet(content: string) returns (prose: set<nat>)
    ensures prose == ProseOffsetsOf(content)
    ensures forall o :: o in prose ==> o < |content| && content[o] != '`' && content[o] != '\n'
  {
    prose := ScanProseLines(Lines(content));
    ProseOffsetsBounded(content);
  }

  /** The source's loop over lines; `pos` is always the offset at which the
      current line starts, and `st` the fence state it is met in. */
  method ScanProseLines(lines: seq<string>) returns (prose: set<nat>)
    ensures prose == ProseOffsetsUpTo(lines, Kinds(lines), |lines|)
  {
    ghost var kinds := Kinds(lines);
    var st := Outside;
    prose := {};
    var pos := 0;
    for idx := 0 to |lines|
      invariant pos == LineStart(lines, idx)
      invariant st == StateAt(kinds, idx)
      invariant prose == ProseOffsetsUpTo(lines, kinds, idx)
    {
      var line := lines[idx];
      KindStep(lines, idx);
      LineStartStep(lines, idx);
      match st {
        case Outside =>
          if OpensFence(line) {
            st := InFence(FenceRun(line));
          } else {
            var xs := IterProseOffsets(line);
            prose := AddShifted(prose, xs, pos);
          }
        case InFence(fence) =>
          if ClosesFence(line, fence) {
            st := Outside;
          }
      }
      pos := pos + |line| + 1;
    }
  }

  /** The inner loop of `prose_offset_set`: the offsets of a line's prose
      characters, moved by the line's start, are added to the set. */
  method AddShifted(prose: set<nat>, xs: seq<Located>, pos: nat) returns (r: set<nat>)
    ensures r == prose + Shifted(xs, pos)
  {
    r := prose;
    for k := 0 to |xs|
      invariant r == prose + Shifted(xs[..k], pos)
    {
      ShiftedStep(xs, pos, k);
      r := r + {pos + xs[k].offset};
    }
    assert xs[..|xs|] == xs;
  }
}

=== FILE: quotes.dfy ===
/** The quote characters the auditor looks for and writes. */
module Quotes {

  const StraightDouble: char := '"'
  const StraightApostrophe: char := '\''
  /** U+201C LEFT DOUBLE QUOTATION MARK */
  const FancyOpenDouble: char := '\U{201C}'
  /** U+201D RIGHT DOUBLE QUOTATION MARK */
  const FancyCloseDouble: char := '\U{201D}'
  /** U+2019 RIGHT SINGLE QUOTATION MARK */
  const FancyApostrophe: char := '\U{2019}'

  predicate IsStraightQuote(c: char) {
    c == StraightDouble || c == StraightApostrophe
  }

  predicate IsFancyQuote(c: char) {
    c == FancyOpenDouble || c == FancyCloseDouble || c == FancyApostrophe
  }
}

=== FILE: rule_files.dfy ===
/**
 Which entries of the rules directory the AGENTS.md builder takes, and how it
 groups them: a Markdown file whose name does not start with `_` and whose
 stem holds a `-` belongs to the group named by the part of the stem before
 the first `-`; each group is sorted by file name. Directory entries are
 modelled by their names, in the order the directory listing gives them.
 */
module RuleFiles {
  import opened Text
  import opened NameOrder

  /** `Path(name).suffix`: from the last dot on, unless that dot is the first
      or the last character of the name. */
  function Suffix(name: string): string {
    var i := LastIndexOf(name, '.');
    if 0 < i < |name| - 1 then name[i..] else ""
  }

  /** `Path(name).stem`: the name without its suffix. */
  function Stem(name: string): string {
    var i := LastIndexOf(name, '.');
    if 0 < i < |name| - 1 then name[..i] else name
  }

  /** A name has the suffix `.md` exactly when it ends with `.md` and has
      something before it; the stem is then the name without those three
      characters. */
  lemma MarkdownSuffix(name: string)
    ensures Suffix(name) == ".md" <==> |name| > 3 && EndsWith(name, ".md")
    ensures Suffix(name) == ".md" ==> Stem(name) == name[..|name| - 3]
  {
    var i := LastIndexOf(name, '.');
    if |name| > 3 && EndsWith(name, ".md") {
      assert name[|name| - 3..] == ".md";
      assert name[|name| - 3] == '.' && name[|name| - 2] == 'm' && name[|name| - 1] == 'd' by {
        assert name[|name| - 3..][0] == name[|name| - 3];
        assert name[|name| - 3..][1] == name[|name| - 2];
        assert name[|name| - 3..][2] == name[|name| - 1];
      }
      assert i == |name| - 3;
    }
    if Suffix(name) == ".md" {
      assert name[i..] == ".md";
      assert |name| - i == 3;
    }
  }

  /** The loop's first test: a Markdown file whose name does not start with `_`. */
  predicate IsRuleFile(name: string) {
    Suffix(name) == ".md" && !StartsWith(name, "_")
  }

  /** A rule file that goes into a group: its stem holds a `-`. */
  predicate IsGrouped(name: string) {
    IsRuleFile(name) && '-' in Stem(name)
  }

  /** The part of the stem before its first `-`. */
  function PrefixOf(name: string): (prefix: string)
    requires IsGrouped(name)
    ensures '-' !in prefix
    ensures exists rest :: Stem(name) == prefix + "-" + rest
  {
    var stem := Stem(name);
    var i := IndexFrom(stem, '-', 0);
    assert stem == stem[..i] + "-" + stem[i + 1..];
    stem[..i]
  }

  /** `PrefixOf` is what the source computes, `name.split("-", 1)[0]`. */
  lemma PrefixIsSplitHead(name: string)
    requires IsGrouped(name)
    ensures PrefixOf(name) == SplitAtMost(Stem(name), "-", 1)[0]
  {
    FindCharIsIndex(Stem(name), '-', 0);
  }

  /** The rule files of the listing that go into the group `p`, in listing order. */
  function Members(names: seq<string>, p: string): (r: seq<string>)
    ensures forall n :: n in r <==> n in names && IsGrouped(n) && PrefixOf(n) == p
  {
    if |names| == 0 then []
    else
      var last := names[|names| - 1];
      var rest := Members(names[..|names| - 1], p);
      assert names == names[..|names| - 1] + [last];
      if IsGrouped(last) && PrefixOf(last) == p then rest + [last] else rest
  }

  /** The group names present in the listing. */
  function Prefixes(names: seq<string>): set<string> {
    set n | n in names && IsGrouped(n) :: PrefixOf(n)
  }

  /** The groups `main` builds, keyed by prefix, each sorted by name. */
  function ByPrefix(names: seq<string>): map<string, seq<string>> {
    map p | p in Prefixes(names) :: SortNames(Members(names, p))
  }

  /** The groups partition the grouped rule files: a name is in the group `p`
      exactly when it is a grouped rule file of the listing with prefix `p`, so
      every such file is in exactly one group, and no group is empty. */
  lemma GroupsPartition(names: seq<string>, p: string, n: string)
    ensures p in ByPrefix(names) ==> (n in ByPrefix(names)[p] <==> n in names && IsGrouped(n) && PrefixOf(n) == p)
    ensures n in names && IsGrouped(n) ==> PrefixOf(n) in ByPrefix(names)
    ensures p in ByPrefix(names) ==> ByPrefix(names)[p] != []
  {
    if p in ByPrefix(names) {
      assert ByPrefix(names)[p] == SortNames(Members(names, p));
      GroupHolds(names, p, n);
      GroupNotEmpty(names, p);
    }
    if n in names && IsGrouped(n) {
      assert PrefixOf(n) in Prefixes(names);
    }
  }

  lemma GroupHolds(names: seq<string>, p: string, n: string)
    ensures n in SortNames(Members(names, p)) <==> n in names && IsGrouped(n) && PrefixOf(n) == p
  {
    var g := SortNames(Members(names, p));
    assert n in g <==> n in multiset(g);
    assert n in Members(names, p) <==> n in multiset(Members(names, p));
  }

  lemma GroupNotEmpty(names: seq<string>, p: string)
    requires p in Prefixes(names)
    ensures SortNames(Members(names, p)) != []
  {
    var w :| w in names && IsGrouped(w) && PrefixOf(w) == p;
    assert w in multiset(Members(names, p));
  }

  /** The loops of `main` that fill `by_prefix` and sort each group, over the
      directory listing `names`: every key is the prefix of some grouped rule
      file, and every group holds exactly the listing's files with that prefix,
      sorted by name. */
  method GroupByPrefix(names: seq<string>) returns (byPrefix: map<string, seq<string>>)
    ensures byPrefix.Keys == Prefixes(names)
    ensures forall p :: p in byPrefix ==> Sorted(byPrefix[p]) && multiset(byPrefix[p]) == multiset(Members(names, p))
  {
    var unsorted := CollectGroups(names);
    byPrefix := SortGroups(unsorted);
  }

  /** The first loop: each grouped rule file appended to its prefix's list. */
  method CollectGroups(names: seq<string>) returns (byPrefix: map<string, seq<string>>)
    ensures byPrefix.Keys == Prefixes(names)
    ensures forall p :: p in byPrefix ==> byPrefix[p] == Members(names, p)
  {
    byPrefix := map[];
    for i := 0 to |names|
      invariant byPrefix.Keys == Prefixes(names[..i])
      invariant forall p :: p in byPrefix ==> byPrefix[p] == Members(names[..i], p)
    {
      byPrefix := AddEntry(names, i, byPrefix);
    }
    assert names[..|names|] == names;
  }

  /** One turn of the first loop, for the entry `names[i]`. */
  method AddEntry(names: seq<string>, i: nat, acc: map<string, seq<string>>) returns (byPrefix: map<string, seq<string>>)
    requires i < |names|
    requires acc.Keys == Prefixes(names[..i])
    requires forall p :: p in acc ==> acc[p] == Members(names[..i], p)
    ensures byPrefix.Keys == Prefixes(names[..i + 1])
    ensures forall p :: p in byPrefix ==> byPrefix[p] == Members(names[..i + 1], p)
  {
    var name := names[i];
    if IsRuleFile(name) && '-' in Stem(name) {
      var prefix := PrefixOf(name);
      var group := if prefix in acc then acc[prefix] else [];
      assert group == Members(names[..i], prefix) by {
        if prefix !in acc {
          MembersAbsent(names[..i], prefix);
        }
      }
      byPrefix := acc[prefix := group + [name]];
      EntryAdded(names, i, acc);
    } else {
      byPrefix := acc;
      EntrySkipped(names, i, acc);
    }
  }

  lemma EntryAdded(names: seq<string>, i: nat, acc: map<string, seq<string>>)
    requires i < |names| && IsGrouped(names[i])
    requires acc.Keys == Prefixes(names[..i])
    requires forall p :: p in acc ==> acc[p] == Members(names[..i], p)
    ensures var q := PrefixOf(names[i]);
      var m := acc[q := Members(names[..i], q) + [names[i]]];
      && m.Keys == Prefixes(names[..i + 1])
      && forall p :: p in m ==> m[p] == Members(names[..i + 1], p)
  {
    PrefixesStep(names, i);
    GroupsStep(names, i, acc);
  }

  lemma GroupsStep(names: seq<string>, i: nat, acc: map<string, seq<string>>)
    requires i < |names| && IsGrouped(names[i])
    requires forall p :: p in acc ==> acc[p] == Members(names[..i], p)
    ensures var q := PrefixOf(names[i]);
      var m := acc[q := Members(names[..i], q) + [names[i]]];
      forall p :: p in m ==> m[p] == Members(names[..i + 1], p)
  {
    forall p
      ensures Members(names[..i + 1], p) ==
        Members(names[..i], p) + (if PrefixOf(names[i]) == p then [names[i]] else [])
    {
      MembersStep(names, i, p);
    }
  }

  lemma EntrySkipped(names: seq<string>, i: nat, acc: map<string, seq<string>>)
    requires i < |names| && !IsGrouped(names[i])
    requires acc.Keys == Prefixes(names[..i])
    requires forall p :: p in acc ==> acc[p] == Members(names[..i], p)
    ensures acc.Keys == Prefixes(names[..i + 1])
    ensures forall p :: p in acc ==> acc[p] == Members(names[..i + 1], p)
  {
    PrefixesStep(names, i);
    forall p
      ensures Members(names[..i + 1], p) == Members(names[..i], p)
    {
      MembersStep(names, i, p);
    }
  }

  /** The second loop: every group sorted by name. */
  method SortGroups(unsorted: map<string, seq<string>>) returns (byPrefix: map<string, seq<string>>)
    ensures byPrefix.Keys == unsorted.Keys
    ensures forall p :: p in byPrefix ==> byPrefix[p] == SortNames(unsorted[p])
  {
    byPrefix := unsorted;
    var pending := byPrefix.Keys;
    while pending != {}
      invariant pending <= byPrefix.Keys && byPrefix.Keys == unsorted.Keys
      invariant forall p :: p in pending ==> byPrefix[p] == unsorted[p]
      invariant forall p :: p in byPrefix && p !in pending ==> byPrefix[p] == SortNames(unsorted[p])
      decreases |pending|
    {
      var p :| p in pending;
      byPrefix := byPrefix[p := SortNames(byPrefix[p])];
      pending := pending - {p};
    }
  }

  /** One more entry adds itself to its own group and to no other. */
  lemma MembersStep(names: seq<string>, i: nat, p: string)
    requires i < |names|
    ensures Members(names[..i + 1], p) ==
      Members(names[..i], p) + (if IsGrouped(names[i]) && PrefixOf(names[i]) == p then [names[i]] else [])
  {
    var pre := names[..i + 1];
    assert pre[..|pre| - 1] == names[..i];
    assert pre[|pre| - 1] == names[i];
  }

  /** A prefix not yet present has no members so far. */
  lemma MembersAbsent(names: seq<string>, p: string)
    requires p !in Prefixes(names)
    ensures Members(names, p) == []
  {
    HeadIsElement(Members(names, p));
  }

  lemma PrefixesStep(names: seq<string>, i: nat)
    requires i < |names|
    ensures Prefixes(names[..i + 1]) == Prefixes(names[..i]) + (if IsGrouped(names[i]) then {PrefixOf(names[i])} else {})
  {
    assert names[..i + 1] == names[..i] + [names[i]];
  }

  /** What the loops build is the grouping `ByPrefix` describes. */
  lemma GroupingIsByPrefix(names: seq<string>, byPrefix: map<string, seq<string>>)
    requires byPrefix.Keys == Prefixes(names)
    requires forall p :: p in byPrefix ==> Sorted(byPrefix[p]) && multiset(byPrefix[p]) == multiset(Members(names, p))
    ensures byPrefix == ByPrefix(names)
  {
    var groups := ByPrefix(names);
    assert groups.Keys == Prefixes(names);
    forall p | p in byPrefix
      ensures byPrefix[p] == groups[p]
    {
      GroupIsSorted(names, byPrefix[p], p);
    }
    SameMaps(byPrefix, groups);
  }

  /** Maps with the same keys and the same value at each key are equal. */
  lemma SameMaps<K, V>(a: map<K, V>, b: map<K, V>)
    requires a.Keys == b.Keys
    requires forall k :: k in a ==> a[k] == b[k]
    ensures a == b
  {
  }

  /** A sorted arrangement of the members with prefix `p` is group `p`. */
  lemma GroupIsSorted(names: seq<string>, group: seq<string>, p: string)
    requires p in Prefixes(names)
    requires Sorted(group) && multiset(group) == multiset(Members(names, p))
    ensures group == ByPrefix(names)[p]
  {
    var sorted := SortNames(Members(names, p));
    SortedUnique(group, sorted);
  }
}

=== FILE: shape.dfy ===
/**
 Replacing quote characters by other quote characters changes nothing the
 scanners look at: line feeds, whitespace, back-ticks and the letters of an
 "Avoid:" marker all stay where they are. `Similar` captures such a pair of
 texts, and the lemmas here show that line splitting, fence classification and
 the inline-code scan treat similar texts alike. They are what makes a second
 run of the quote fixer see the same prose as the first.
 */
module Shape {
  import opened Text
  import opened InlineCode
  import opened Fences
  import opened Quotes

  /** The characters the fixer may exchange for one another. */
  predicate Plain(c: char) {
    IsStraightQuote(c) || IsFancyQuote(c)
  }

  /** `a` and `b` have the same length and differ only where both hold quotes. */
  predicate Similar(a: string, b: string) {
    |a| == |b| && forall k :: 0 <= k < |a| ==> a[k] == b[k] || (Plain(a[k]) && Plain(b[k]))
  }

  /** A pattern none of whose characters is a quote. */
  predicate NoPlain(p: string) {
    forall k :: 0 <= k < |p| ==> !Plain(p[k])
  }

  lemma SimilarSlice(a: string, b: string, i: nat, j: nat)
    requires Similar(a, b) && i <= j <= |a|
    ensures Similar(a[i..j], b[i..j])
  {
    assert forall k :: 0 <= k < j - i ==> a[i..j][k] == a[i + k] && b[i..j][k] == b[i + k];
  }

  /** Similar texts agree on every character that is not a quote. */
  lemma SameAt(a: string, b: string, k: nat, c: char)
    requires Similar(a, b) && k < |a| && !Plain(c)
    ensures a[k] == c <==> b[k] == c
  {
  }

  lemma WhitespaceAt(a: string, b: string, k: nat)
    requires Similar(a, b) && k < |a|
    ensures IsWhitespace(a[k]) <==> IsWhitespace(b[k])
  {
  }

  lemma {:induction false} TrimLeftSimilar(a: string, b: string)
    requires Similar(a, b)
    ensures |TrimLeft(a)| == |TrimLeft(b)| && Similar(TrimLeft(a), TrimLeft(b))
    decreases |a|
  {
    if |a| > 0 {
      WhitespaceAt(a, b, 0);
      if IsWhitespace(a[0]) {
        SimilarSlice(a, b, 1, |a|);
        TrimLeftSimilar(a[1..], b[1..]);
      }
    }
  }

  lemma {:induction false} TrimRightSimilar(a: string, b: string)
    requires Similar(a, b)
    ensures |TrimRight(a)| == |TrimRight(b)| && Similar(TrimRight(a), TrimRight(b))
    decreases |a|
  {
    if |a| > 0 {
      WhitespaceAt(a, b, |a| - 1);
      if IsWhitespace(a[|a| - 1]) {
        SimilarSlice(a, b, 0, |a| - 1);
        TrimRightSimilar(a[..|a| - 1], b[..|b| - 1]);
      } else {
        assert TrimRight(a) == a && TrimRight(b) == b;
      }
    }
  }

  lemma StripSimilar(a: string, b: string)
    requires Similar(a, b)
    ensures Similar(Strip(a), Strip(b))
  {
    TrimLeftSimilar(a, b);
    TrimRightSimilar(TrimLeft(a), TrimLeft(b));
  }

  /** A pattern without quotes starts similar texts alike. */
  lemma StartsWithSimilar(a: string, b: string, p: string)
    requires Similar(a, b) && NoPlain(p)
    ensures StartsWith(a, p) <==> StartsWith(b, p)
  {
    if |p| <= |a| {
      if StartsWith(a, p) {
        forall k | 0 <= k < |p| ensures b[k] == p[k] {
          assert a[..|p|][k] == a[k];
          SameAt(a, b, k, p[k]);
        }
        assert b[..|p|] == p;
      }
      if StartsWith(b, p) {
        forall k | 0 <= k < |p| ensures a[k] == p[k] {
          assert b[..|p|][k] == b[k];
          SameAt(a, b, k, p[k]);
        }
        assert a[..|p|] == p;
      }
    }
  }

  /** A pattern without quotes occurs in similar texts alike, at the same place. */
  lemma {:induction false} FindFromSimilar(a: string, b: string, p: string, from: nat)
    requires Similar(a, b) && NoPlain(p)
    ensures FindFrom(a, p, from) == FindFrom(b, p, from)
    decreases |a| - from
  {
    if from <= |a| {
      FindStepSimilar(a, b, p, from);
      FindFromSimilar(a, b, p, from + 1);
    }
  }

  /** One step of the search: similar texts agree at `from` once they agree
      from `from + 1` on. */
  lemma FindStepSimilar(a: string, b: string, p: string, from: nat)
    requires Similar(a, b) && NoPlain(p) && from <= |a|
    ensures FindFrom(a, p, from + 1) == FindFrom(b, p, from + 1) ==> FindFrom(a, p, from) == FindFrom(b, p, from)
  {
    if from + |p| <= |a| {
      SimilarSlice(a, b, from, from + |p|);
      SimilarMatch(a[from..from + |p|], b[from..from + |p|], p);
    }
  }

  /** A pattern without quotes equals both of two similar texts or neither. */
  lemma SimilarMatch(x: string, y: string, p: string)
    requires Similar(x, y) && NoPlain(p)
    ensures x == p <==> y == p
  {
    if x == p {
      assert forall k :: 0 <= k < |p| ==> y[k] == p[k];
    }
    if y == p {
      assert forall k :: 0 <= k < |p| ==> x[k] == p[k];
    }
  }

  lemma {:induction false} IndexFromSimilar(a: string, b: string, c: char, from: nat)
    requires Similar(a, b) && !Plain(c)
    ensures IndexFrom(a, c, from) == IndexFrom(b, c, from)
    decreases |a| - from
  {
    if from < |a| {
      SameAt(a, b, from, c);
      if a[from] != c {
        IndexFromSimilar(a, b, c, from + 1);
      }
    }
  }

  lemma {:induction false} LastIndexOfSimilar(a: string, b: string, c: char)
    requires Similar(a, b) && !Plain(c)
    ensures LastIndexOf(a, c) == LastIndexOf(b, c)
    decreases |a|
  {
    if |a| > 0 {
      SameAt(a, b, |a| - 1, c);
      if a[|a| - 1] != c {
        SimilarSlice(a, b, 0, |a| - 1);
        LastIndexOfSimilar(a[..|a| - 1], b[..|b| - 1], c);
      }
    }
  }

  /** Line by line, two sequences of lines are similar. */
  predicate SimilarLines(la: seq<string>, lb: seq<string>) {
    |la| == |lb| && forall k :: 0 <= k < |la| ==> Similar(la[k], lb[k])
  }

  /** Splitting similar texts at a separator that is not a quote gives similar lines. */
  lemma {:induction false} SplitSimilar(a: string, b: string, sep: char)
    requires Similar(a, b) && !Plain(sep)
    ensures SimilarLines(Split(a, sep), Split(b, sep))
    decreases |a|
  {
    IndexFromSimilar(a, b, sep, 0);
    if IndexFrom(a, sep, 0) != -1 {
      var ta, tb := SplitStepSimilar(a, b, sep);
      SplitSimilar(ta, tb, sep);
    } else {
      SplitNoneSimilar(a, b, sep);
    }
  }

  /** The first cut of similar texts: similar first lines, and similar rests
      whose similar lines make those of the whole texts similar. */
  lemma SplitStepSimilar(a: string, b: string, sep: char) returns (ta: string, tb: string)
    requires Similar(a, b) && IndexFrom(a, sep, 0) != -1 && IndexFrom(a, sep, 0) == IndexFrom(b, sep, 0)
    ensures |ta| < |a| && Similar(ta, tb)
    ensures SimilarLines(Split(ta, sep), Split(tb, sep)) ==> SimilarLines(Split(a, sep), Split(b, sep))
  {
    var i := IndexFrom(a, sep, 0);
    SimilarSlice(a, b, 0, i);
    SimilarSlice(a, b, i + 1, |a|);
    ta, tb := a[i + 1..], b[i + 1..];
    SplitCut(a, sep, i);
    SplitCut(b, sep, i);
    if SimilarLines(Split(ta, sep), Split(tb, sep)) {
      SimilarLinesCons(a[..i], b[..i], Split(ta, sep), Split(tb, sep));
    }
  }

  lemma SplitCut(s: string, sep: char, i: int)
    requires i == IndexFrom(s, sep, 0) != -1
    ensures Split(s, sep) == [s[..i]] + Split(s[i + 1..], sep)
  {
  }

  lemma SimilarLinesCons(a: string, b: string, la: seq<string>, lb: seq<string>)
    requires Similar(a, b) && SimilarLines(la, lb)
    ensures SimilarLines([a] + la, [b] + lb)
  {
    assert forall k :: 1 <= k <= |la| ==> ([a] + la)[k] == la[k - 1] && ([b] + lb)[k] == lb[k - 1];
  }

  lemma SplitNoneSimilar(a: string, b: string, sep: char)
    requires Similar(a, b) && IndexFrom(a, sep, 0) == -1 && IndexFrom(b, sep, 0) == -1
    ensures SimilarLines(Split(a, sep), Split(b, sep))
  {
    assert Split(a, sep) == [a] && Split(b, sep) == [b];
  }

  lemma LinesSimilar(a: string, b: string)
    requires Similar(a, b)
    ensures SimilarLines(Lines(a), Lines(b))
  {
    SplitSimilar(a, b, '\n');
  }

  lemma {:induction false} RunEndSimilar(a: string, b: string, i: nat)
    requires Similar(a, b) && i <= |a|
    ensures RunEnd(a, i) == RunEnd(b, i)
    decreases |a| - i
  {
    if i < |a| {
      SameAt(a, b, i, '`');
      if a[i] == '`' {
        RunEndSimilar(a, b, i + 1);
      }
    }
  }

  /** A fence state whose fence, if any, is made of back-ticks. */
  predicate TickState(st: FenceState) {
    st.InFence? ==> forall k :: 0 <= k < |st.fence| ==> st.fence[k] == '`'
  }

  lemma FenceRunSimilar(a: string, b: string)
    requires Similar(a, b) && OpensFence(a)
    ensures OpensFence(b) && FenceRun(a) == FenceRun(b)
  {
    TrimLeftSimilar(a, b);
    TicksNoPlain();
    StartsWithSimilar(TrimLeft(a), TrimLeft(b), "```");
    var ra := FenceRun(a);
    var rb := FenceRun(b);
    RunEndSimilar(TrimLeft(a), TrimLeft(b), 0);
    assert |ra| == |rb|;
  }

  lemma OpensFenceSimilar(a: string, b: string)
    requires Similar(a, b)
    ensures OpensFence(a) <==> OpensFence(b)
  {
    TrimLeftSimilar(a, b);
    TicksNoPlain();
    StartsWithSimilar(TrimLeft(a), TrimLeft(b), "```");
  }

  lemma TicksNoPlain()
    ensures NoPlain("```")
  {
  }

  lemma ClosesFenceSimilar(a: string, b: string, fence: string)
    requires Similar(a, b) && forall k :: 0 <= k < |fence| ==> fence[k] == '`'
    ensures ClosesFence(a, fence) <==> ClosesFence(b, fence)
  {
    StripSimilar(a, b);
    TickRunNoPlain(fence);
    StartsWithSimilar(Strip(a), Strip(b), fence);
  }

  lemma TickRunNoPlain(run: string)
    requires forall k :: 0 <= k < |run| ==> run[k] == '`'
    ensures NoPlain(run)
  {
  }

  /** Similar lines met in the same state are given the same kind. */
  lemma KindOfSimilar(st: FenceState, a: string, b: string)
    requires Similar(a, b) && TickState(st)
    ensures KindOf(st, a) == KindOf(st, b)
    ensures TickState(After(KindOf(st, a)))
  {
    if st.Outside? {
      OutsideKindSimilar(a, b);
    } else {
      InsideKindSimilar(a, b, st.fence);
    }
  }

  lemma OutsideKindSimilar(a: string, b: string)
    requires Similar(a, b)
    ensures KindOf(Outside, a) == KindOf(Outside, b)
    ensures TickState(After(KindOf(Outside, a)))
  {
    OpensFenceSimilar(a, b);
    if OpensFence(a) {
      FenceRunSimilar(a, b);
    }
  }

  lemma InsideKindSimilar(a: string, b: string, fence: string)
    requires Similar(a, b) && forall k :: 0 <= k < |fence| ==> fence[k] == '`'
    ensures KindOf(InFence(fence), a) == KindOf(InFence(fence), b)
    ensures TickState(After(KindOf(InFence(fence), a)))
  {
    ClosesFenceSimilar(a, b, fence);
  }

  lemma {:induction false} ClassifySimilar(la: seq<string>, lb: seq<string>, st: FenceState)
    requires SimilarLines(la, lb) && TickState(st)
    ensures Classify(la, st) == Classify(lb, st)
    decreases |la|
  {
    if |la| > 0 {
      KindOfSimilar(st, la[0], lb[0]);
      var k := KindOf(st, la[0]);
      assert SimilarLines(la[1..], lb[1..]) by {
        assert forall m :: 0 <= m < |la| - 1 ==> la[1..][m] == la[m + 1] && lb[1..][m] == lb[m + 1];
      }
      ClassifySimilar(la[1..], lb[1..], After(k));
    }
  }

  /** Similar documents have similar lines of the same kinds. */
  lemma KindsSimilar(a: string, b: string)
    requires Similar(a, b)
    ensures SimilarLines(Lines(a), Lines(b))
    ensures Kinds(Lines(a)) == Kinds(Lines(b))
  {
    LinesSimilar(a, b);
    ClassifySimilar(Lines(a), Lines(b), Outside);
  }

  lemma {:induction false} SkipSpanSimilar(a: string, b: string, j: nat, n: nat)
    requires Similar(a, b) && j <= |a|
    ensures SkipSpan(a, j, n) == SkipSpan(b, j, n)
    decreases |a| - j
  {
    if j < |a| {
      SameAt(a, b, j, '`');
      if a[j] == '`' {
        RunEndSimilar(a, b, j);
        var k := RunEnd(a, j);
        if k - j < n {
          SkipSpanSimilar(a, b, k, n);
        }
      } else {
        SkipSpanSimilar(a, b, j + 1, n);
      }
    }
  }

  /** The offsets in a sequence of located characters. */
  function Offsets(xs: seq<Located>): (r: seq<nat>)
    ensures |r| == |xs|
    ensures forall k :: 0 <= k < |xs| ==> r[k] == xs[k].offset
  {
    if |xs| == 0 then [] else [xs[0].offset] + Offsets(xs[1..])
  }

  /** The inline-code scan keeps the same offsets of similar texts. */
  lemma {:induction false} ProseFromSimilar(a: string, b: string, i: nat)
    requires Similar(a, b) && i <= |a|
    ensures Offsets(ProseFrom(a, i)) == Offsets(ProseFrom(b, i))
    decreases |a| - i
  {
    if i < |a| {
      var k := ProseStepSimilar(a, b, i);
      ProseFromSimilar(a, b, k);
    }
  }

  /** One step of the scan: similar texts yield the same offsets from `i` on
      once they do from the place `k` the scan moves on to. */
  lemma ProseStepSimilar(a: string, b: string, i: nat) returns (k: nat)
    requires Similar(a, b) && i < |a|
    ensures i < k <= |a|
    ensures Offsets(ProseFrom(a, k)) == Offsets(ProseFrom(b, k)) ==> Offsets(ProseFrom(a, i)) == Offsets(ProseFrom(b, i))
  {
    SameAt(a, b, i, '`');
    if a[i] == '`' {
      k := SpanSkippedAlike(a, b, i);
    } else {
      OffsetsStep(a, i);
      OffsetsStep(b, i);
      k := i + 1;
    }
  }

  /** An inline span opening at `i` is skipped to the same place in similar texts. */
  lemma SpanSkippedAlike(a: string, b: string, i: nat) returns (k: nat)
    requires Similar(a, b) && i < |a| && a[i] == '`' && b[i] == '`'
    ensures i < k <= |a|
    ensures ProseFrom(a, i) == ProseFrom(a, k) && ProseFrom(b, i) == ProseFrom(b, k)
  {
    var j := RunEnd(a, i);
    RunEndSimilar(a, b, i);
    k := SkipSpan(a, j, j - i);
    SkipSpanSimilar(a, b, j, j - i);
    SpanStep(a, i);
    SpanStep(b, i);
  }

  /** Outside a span, the scan yields offset `i` and carries on at `i + 1`. */
  lemma OffsetsStep(s: string, i: nat)
    requires i < |s| && s[i] != '`'
    ensures Offsets(ProseFrom(s, i)) == [i] + Offsets(ProseFrom(s, i + 1))
  {
    CharStep(s, i);
    OffsetsCons(Located(i, s[i]), ProseFrom(s, i + 1));
  }

  lemma OffsetsCons(x: Located, xs: seq<Located>)
    ensures Offsets([x] + xs) == [x.offset] + Offsets(xs)
  {
    assert ([x] + xs)[1..] == xs;
  }
}

=== FILE: text.dfy ===
/**
 Character-level helpers shared by the quote auditor and the AGENTS.md builder:
 Python's notion of whitespace, `strip`, `startswith`, `find`/`rfind`/`count`,
 and `split`/`join` on a one-character separator, together with the facts that
 relate a joined text to the offsets of its lines.
 */
module Text {

  /** The characters for which Python's `str.isspace()` holds; the `\s` class of
      `re` on `str` patterns matches exactly the same set. */
  predicate IsWhitespace(c: char) {
    var n := c as int;
    || n == 0x20
    || (0x09 <= n <= 0x0D)
    || (0x1C <= n <= 0x1F)
    || n == 0x85
    || n == 0xA0
    || n == 0x1680
    || (0x2000 <= n <= 0x200A)
    || n == 0x2028
    || n == 0x2029
    || n == 0x202F
    || n == 0x205F
    || n == 0x3000
  }

  /** `s.startswith(p)` */
  predicate StartsWith(s: string, p: string) {
    |p| <= |s| && s[..|p|] == p
  }

  /** `s.lstrip()`: the suffix left after dropping leading whitespace. */
  function TrimLeft(s: string): (r: string)
    ensures |r| <= |s| && r == s[|s| - |r|..]
    ensures forall k :: 0 <= k < |s| - |r| ==> IsWhitespace(s[k])
    ensures r == [] || !IsWhitespace(r[0])
    decreases |s|
  {
    if |s| > 0 && IsWhitespace(s[0]) then TrimLeft(s[1..]) else s
  }

  /** `s.rstrip()`: the prefix left after dropping trailing whitespace. */
  function TrimRight(s: string): (r: string)
    ensures |r| <= |s| && r == s[..|r|]
    ensures forall k :: |r| <= k < |s| ==> IsWhitespace(s[k])
    ensures r == [] || !IsWhitespace(r[|r| - 1])
    decreases |s|
  {
    if |s| > 0 && IsWhitespace(s[|s| - 1]) then TrimRight(s[..|s| - 1]) else s
  }

  /** `s.strip()` */
  function Strip(s: string): string {
    TrimRight(TrimLeft(s))
  }

  /** `s.lstrip("\n")`: only line feeds are dropped. */
  function TrimNewlines(s: string): (r: string)
    ensures |r| <= |s| && r == s[|s| - |r|..]
    ensures forall k :: 0 <= k < |s| - |r| ==> s[k] == '\n'
    ensures r == [] || r[0] != '\n'
    decreases |s|
  {
    if |s| > 0 && s[0] == '\n' then TrimNewlines(s[1..]) else s
  }

  /** `s.find(c, from)` for a single character: the first index at or after
      `from` holding `c`, or -1. */
  function IndexFrom(s: string, c: char, from: nat): (r: int)
    ensures r == -1 || (from <= r < |s| && s[r] == c)
    ensures forall k :: from <= k < |s| && (r == -1 || k < r) ==> s[k] != c
    decreases |s| - from
  {
    if from >= |s| then -1
    else if s[from] == c then from
    else IndexFrom(s, c, from + 1)
  }

  /** `s.rfind(c)`: the last index holding `c`, or -1. */
  function LastIndexOf(s: string, c: char): (r: int)
    ensures -1 <= r < |s|
    ensures r >= 0 ==> s[r] == c
    ensures forall k :: r < k < |s| ==> s[k] != c
  {
    if |s| == 0 then -1
    else if s[|s| - 1] == c then |s| - 1
    else LastIndexOf(s[..|s| - 1], c)
  }

  /** `s.count(c)` for a single character. */
  function Count(s: string, c: char): (r: nat)
    ensures r <= |s|
    ensures r == 0 <==> c !in s
  {
    if |s| == 0 then 0
    else Count(s[..|s| - 1], c) + (if s[|s| - 1] == c then 1 else 0)
  }

  /** A non-empty sequence holds its first element. */
  lemma HeadIsElement<T>(r: seq<T>)
    ensures |r| > 0 ==> r[0] in r
  {
  }

  /** `s.find(p, from)` for a pattern string: the first index at or after
      `from` where `p` occurs. */
  function FindFrom(s: string, p: string, from: nat): (r: int)
    ensures r == -1 || (from <= r && r + |p| <= |s| && s[r..r + |p|] == p)
    decreases |s| - from
  {
    if from + |p| > |s| then -1
    else if s[from..from + |p|] == p then from
    else FindFrom(s, p, from + 1)
  }

  /** Where a non-empty pattern is found, its first character is. */
  lemma FoundAtFirstChar(s: string, p: string, from: nat)
    ensures var r := FindFrom(s, p, from);
      r != -1 && |p| > 0 ==> s[r] == p[0] && s[r] in s
  {
    var r := FindFrom(s, p, from);
    if r != -1 && |p| > 0 {
      assert s[r..r + |p|][0] == s[r];
    }
  }

  /** `p in s` */
  predicate Contains(s: string, p: string) {
    FindFrom(s, p, 0) != -1
  }

  /** `sep.join(lines)` */
  function Join(lines: seq<string>, sep: char): string
  {
    if |lines| == 0 then ""
    else if |lines| == 1 then lines[0]
    else lines[0] + [sep] + Join(lines[1..], sep)
  }

  /** `s.split(sep)`: the pieces between separators, at least one piece. */
  function Split(s: string, sep: char): (r: seq<string>)
    ensures |r| >= 1
    ensures forall k :: 0 <= k < |r| ==> sep !in r[k]
    ensures Join(r, sep) == s
    decreases |s|
  {
    var i := IndexFrom(s, sep, 0);
    if i == -1 then [s]
    else
      var rest := Split(s[i + 1..], sep);
      JoinCons(s[..i], rest, sep);
      assert s == s[..i] + [sep] + s[i + 1..];
      [s[..i]] + rest
  }

  lemma JoinCons(line: string, rest: seq<string>, sep: char)
    requires |rest| >= 1
    ensures Join([line] + rest, sep) == line + [sep] + Join(rest, sep)
  {
    assert ([line] + rest)[1..] == rest;
  }

  /** The offset in `Join(lines, sep)` at which line `i` begins. */
  function LineStart(lines: seq<string>, i: nat): nat
    requires i <= |lines|
  {
    if i == 0 then 0 else |lines[0]| + 1 + LineStart(lines[1..], i - 1)
  }

  ghost predicate NoSeparator(lines: seq<string>, sep: char) {
    forall k :: 0 <= k < |lines| ==> sep !in lines[k]
  }

  /** Splitting a joined text gives back its lines, provided no line holds the separator. */
  lemma {:induction false} SplitJoin(lines: seq<string>, sep: char)
    requires |lines| >= 1 && NoSeparator(lines, sep)
    ensures Split(Join(lines, sep), sep) == lines
  {
    if |lines| > 1 {
      var s := Join(lines, sep);
      assert s == lines[0] + [sep] + Join(lines[1..], sep);
      assert s[|lines[0]|] == sep;
      assert forall k :: 0 <= k < |lines[0]| ==> s[k] == lines[0][k];
      assert IndexFrom(s, sep, 0) == |lines[0]|;
      assert s[..|lines[0]|] == lines[0];
      assert s[|lines[0]| + 1..] == Join(lines[1..], sep);
      SplitJoin(lines[1..], sep);
    } else {
      assert IndexFrom(lines[0], sep, 0) == -1;
    }
  }

  /** One piece more than there are separators. */
  lemma {:induction false} SplitCount(s: string, sep: char)
    ensures |Split(s, sep)| == Count(s, sep) + 1
    decreases |s|
  {
    var i := IndexFrom(s, sep, 0);
    if i == -1 {
      assert sep !in s;
    } else {
      SplitCount(s[i + 1..], sep);
      assert s == s[..i] + [sep] + s[i + 1..];
      CountConcat(s[..i] + [sep], s[i + 1..], sep);
      CountConcat(s[..i], [sep], sep);
      assert sep !in s[..i];
      assert Count([sep], sep) == 1 by {
        assert [sep][..0] == [];
      }
    }
  }

  lemma {:induction false} CountConcat(a: string, b: string, c: char)
    ensures Count(a + b, c) == Count(a, c) + Count(b, c)
    decreases |b|
  {
    if |b| > 0 {
      assert (a + b)[..|a + b| - 1] == a + b[..|b| - 1];
      CountConcat(a, b[..|b| - 1], c);
    } else {
      assert a + b == a;
    }
  }

  lemma {:induction false} LastIndexConcat(a: string, b: string, c: char)
    ensures LastIndexOf(a + b, c) == if c in b then |a| + LastIndexOf(b, c) else LastIndexOf(a, c)
    decreases |b|
  {
    if |b| > 0 {
      assert (a + b)[..|a + b| - 1] == a + b[..|b| - 1];
      if b[|b| - 1] != c {
        LastIndexConcat(a, b[..|b| - 1], c);
        assert c in b <==> c in b[..|b| - 1] by {
          assert b == b[..|b| - 1] + [b[|b| - 1]];
        }
      }
    } else {
      assert a + b == a;
    }
  }

  lemma LineStartStep(lines: seq<string>, i: nat)
    requires i < |lines|
    ensures LineStart(lines, i + 1) == LineStart(lines, i) + |lines[i]| + 1
  {
    if i > 0 {
      LineStartStep(lines[1..], i - 1);
    }
  }

  /** Line `i` of a joined text sits at `LineStart(lines, i)`, character for character,
      and is followed by the separator unless it is the last line. */
  lemma {:induction false} CharAtLineStart(lines: seq<string>, sep: char, i: nat, j: nat)
    requires i < |lines| && j <= |lines[i]|
    ensures LineStart(lines, i) + |lines[i]| <= |Join(lines, sep)|
    ensures i + 1 < |lines| ==> LineStart(lines, i) + |lines[i]| < |Join(lines, sep)|
    ensures j < |lines[i]| ==> Join(lines, sep)[LineStart(lines, i) + j] == lines[i][j]
    ensures j == |lines[i]| && i + 1 < |lines| ==> Join(lines, sep)[LineStart(lines, i) + j] == sep
    ensures i + 1 == |lines| ==> |Join(lines, sep)| == LineStart(lines, i) + |lines[i]|
  {
    if |lines| > 1 {
      assert Join(lines, sep) == lines[0] + [sep] + Join(lines[1..], sep);
      if i > 0 {
        CharAtLineStart(lines[1..], sep, i - 1, j);
      }
    }
  }

  /** The line index that offset `o` of `Join(lines, sep)` falls on; an offset at
      a separator belongs to the line the separator ends. */
  function LineOf(lines: seq<string>, o: nat): (i: nat)
    requires |lines| >= 1
    ensures i < |lines|
  {
    if |lines| == 1 || o <= |lines[0]| then 0
    else 1 + LineOf(lines[1..], o - |lines[0]| - 1)
  }

  /** How many separators precede offset `o`, and where the last of them is,
      in terms of the line structure. */
  lemma LocateOffset(lines: seq<string>, sep: char, o: nat)
    requires |lines| >= 1 && NoSeparator(lines, sep)
    requires o <= |Join(lines, sep)|
    ensures LineStart(lines, LineOf(lines, o)) <= o <= LineStart(lines, LineOf(lines, o)) + |lines[LineOf(lines, o)]|
    ensures Count(Join(lines, sep)[..o], sep) == LineOf(lines, o)
    ensures LastIndexOf(Join(lines, sep)[..o], sep) == LineStart(lines, LineOf(lines, o)) - 1
  {
    LocateBounds(lines, sep, o);
    LocateCount(lines, sep, o);
    LocateLast(lines, sep, o);
  }

  /** The lines after the first still contain no separator. */
  lemma TailNoSeparator(lines: seq<string>, sep: char)
    requires |lines| >= 1 && NoSeparator(lines, sep)
    ensures NoSeparator(lines[1..], sep)
  {
    forall k | 0 <= k < |lines| - 1 ensures sep !in lines[1..][k] {
      assert lines[1..][k] == lines[k + 1];
    }
  }

  /** Offset `o` lies within line `LineOf(lines, o)`. */
  lemma {:induction false} LocateBounds(lines: seq<string>, sep: char, o: nat)
    requires |lines| >= 1 && o <= |Join(lines, sep)|
    ensures LineStart(lines, LineOf(lines, o)) <= o <= LineStart(lines, LineOf(lines, o)) + |lines[LineOf(lines, o)]|
  {
    if |lines| == 1 {
      assert Join(lines, sep) == lines[0];
    } else if o > |lines[0]| {
      var tail := lines[1..];
      var o' := o - |lines[0]| - 1;
      JoinCons(lines[0], tail, sep);
      LocateBounds(tail, sep, o');
      var x := LineOf(tail, o');
      assert LineOf(lines, o) == 1 + x;
      assert LineStart(lines, 1 + x) == |lines[0]| + 1 + LineStart(tail, x);
      assert lines[1 + x] == tail[x];
    }
  }

  /** The separators before offset `o` are the line breaks above its line. */
  lemma {:induction false} LocateCount(lines: seq<string>, sep: char, o: nat)
    requires |lines| >= 1 && NoSeparator(lines, sep)
    requires o <= |Join(lines, sep)|
    ensures Count(Join(lines, sep)[..o], sep) == LineOf(lines, o)
  {
    if |lines| == 1 || o <= |lines[0]| {
      LocateInFirstLine(lines, sep, o);
    } else {
      var tail := lines[1..];
      var o' := o - |lines[0]| - 1;
      JoinCons(lines[0], tail, sep);
      TailNoSeparator(lines, sep);
      LocateCount(tail, sep, o');
      LocatePastFirstLine(lines[0], Join(tail, sep), sep, o');
    }
  }

  /** The last separator before offset `o` ends the line above its line. */
  lemma LocateLast(lines: seq<string>, sep: char, o: nat)
    requires |lines| >= 1 && NoSeparator(lines, sep)
    requires o <= |Join(lines, sep)|
    ensures LastIndexOf(Join(lines, sep)[..o], sep) == LineStart(lines, LineOf(lines, o)) - 1
  {
    var s := Join(lines, sep);
    var pre := s[..o];
    var a := LineOf(lines, o);
    var b := LineStart(lines, a);
    LocateBounds(lines, sep, o);
    forall k | b <= k < o
      ensures pre[k] != sep
    {
      CharAtLineStart(lines, sep, a, k - b);
      assert pre[k] == lines[a][k - b];
    }
    if a > 0 {
      CharAtLineStart(lines, sep, a - 1, |lines[a - 1]|);
      LineStartStep(lines, a - 1);
      assert pre[b - 1] == sep;
    }
    LastIndexUnique(pre, sep, b - 1);
  }

  /** `LastIndexOf` is the one index holding `c` with no `c` after it. */
  lemma LastIndexUnique(s: string, c: char, r: int)
    requires -1 <= r < |s| && (r >= 0 ==> s[r] == c)
    requires forall k :: r < k < |s| ==> s[k] != c
    ensures LastIndexOf(s, c) == r
  {
  }

  lemma LocateInFirstLine(lines: seq<string>, sep: char, o: nat)
    requires |lines| >= 1 && NoSeparator(lines, sep)
    requires o <= |Join(lines, sep)| && (|lines| == 1 || o <= |lines[0]|)
    ensures o <= |lines[0]|
    ensures Count(Join(lines, sep)[..o], sep) == 0
    ensures LastIndexOf(Join(lines, sep)[..o], sep) == -1
  {
    var s := Join(lines, sep);
    if |lines| > 1 {
      assert s == lines[0] + [sep] + Join(lines[1..], sep);
    }
    assert s[..o] == lines[0][..o];
    assert sep !in lines[0];
    assert sep !in lines[0][..o];
  }

  lemma LocatePastFirstLine(first: string, rest: string, sep: char, o': nat)
    requires sep !in first && o' <= |rest|
    ensures var pre := (first + [sep] + rest)[..|first| + 1 + o'];
      && Count(pre, sep) == 1 + Count(rest[..o'], sep)
      && LastIndexOf(pre, sep) == if sep in rest[..o'] then |first| + 1 + LastIndexOf(rest[..o'], sep) else |first|
  {
    var pre := (first + [sep] + rest)[..|first| + 1 + o'];
    assert pre == (first + [sep]) + rest[..o'];
    CountConcat(first + [sep], rest[..o'], sep);
    CountConcat(first, [sep], sep);
    assert Count([sep], sep) == 1 by {
      assert [sep][..0] == [];
    }
    LastIndexConcat(first + [sep], rest[..o'], sep);
    assert LastIndexOf(first + [sep], sep) == |first|;
  }

  /** `s.split("\n")` */
  function Lines(s: string): (lines: seq<string>)
    ensures |lines| >= 1 && NoSeparator(lines, '\n')
    ensures Join(lines, '\n') == s
  {
    Split(s, '\n')
  }

  /** Offset `j` of line `i` lies on line `i`. */
  lemma {:induction false} LineOfLineStart(lines: seq<string>, i: nat, j: nat)
    requires i < |lines| && j <= |lines[i]|
    ensures LineOf(lines, LineStart(lines, i) + j) == i
  {
    if i > 0 {
      LineOfLineStart(lines[1..], i - 1, j);
    }
  }

  /** Character `j` of line `i` of a text is the character at offset
      `LineStart + j` of the text, which is not a line feed and lies on line `i`. */
  lemma CharOfLine(s: string, i: nat, j: nat)
    requires i < |Lines(s)| && j < |Lines(s)[i]|
    ensures var o := LineStart(Lines(s), i) + j;
      && o < |s| && s[o] == Lines(s)[i][j] && s[o] != '\n'
      && LineOf(Lines(s), o) == i
  {
    var lines := Lines(s);
    CharAtLineStart(lines, '\n', i, j);
    LineOfLineStart(lines, i, j);
    assert lines[i][j] in lines[i];
  }

  /** `s.endswith(p)` */
  predicate EndsWith(s: string, p: string) {
    |p| <= |s| && s[|s| - |p|..] == p
  }

  /** `sep.join(parts)` for a separator string. */
  function JoinWith(parts: seq<string>, sep: string): string
  {
    if |parts| == 0 then ""
    else if |parts| == 1 then parts[0]
    else parts[0] + sep + JoinWith(parts[1..], sep)
  }

  /** `s.split(sep, n)`: at most `n` cuts, each at the first occurrence of
      `sep` left of the rest; the last piece keeps the rest of the text. */
  function SplitAtMost(s: string, sep: string, n: nat): (parts: seq<string>)
    requires |sep| > 0
    ensures 1 <= |parts| <= n + 1
    decreases n
  {
    var i := FindFrom(s, sep, 0);
    if n == 0 || i == -1 then [s]
    else [s[..i]] + SplitAtMost(s[i + |sep|..], sep, n - 1)
  }

  /** Joining the pieces with the separator gives the text back. */
  lemma {:induction false} SplitAtMostJoin(s: string, sep: string, n: nat)
    requires |sep| > 0
    ensures JoinWith(SplitAtMost(s, sep, n), sep) == s
    decreases n
  {
    if n > 0 && FindFrom(s, sep, 0) != -1 {
      var t := JoinCut(s, sep, n);
      SplitAtMostJoin(t, sep, n - 1);
    } else {
      Uncut(s, sep, n);
    }
  }

  /** A cut at the first occurrence, then at most `n - 1` more in the rest. */
  lemma CutOnce(s: string, sep: string, n: nat, i: int)
    requires |sep| > 0 && n > 0 && i == FindFrom(s, sep, 0) != -1
    ensures SplitAtMost(s, sep, n) == [s[..i]] + SplitAtMost(s[i + |sep|..], sep, n - 1)
  {
  }

  /** With no cut to make, the one piece is the whole text. */
  lemma Uncut(s: string, sep: string, n: nat)
    requires |sep| > 0 && (n == 0 || FindFrom(s, sep, 0) == -1)
    ensures SplitAtMost(s, sep, n) == [s]
    ensures JoinWith(SplitAtMost(s, sep, n), sep) == s
    ensures CleanPieces(SplitAtMost(s, sep, n), sep, n)
  {
  }

  /** After the first cut, pieces that join back to the rest join back to
      the whole text. */
  lemma JoinCut(s: string, sep: string, n: nat) returns (t: string)
    requires |sep| > 0 && n > 0 && FindFrom(s, sep, 0) != -1
    ensures JoinWith(SplitAtMost(t, sep, n - 1), sep) == t ==> JoinWith(SplitAtMost(s, sep, n), sep) == s
  {
    var i := FindFrom(s, sep, 0);
    t := s[i + |sep|..];
    JoinFirstCut(s, sep, n, i, t);
    CutAt(s, sep, i);
  }

  lemma JoinFirstCut(s: string, sep: string, n: nat, i: int, t: string)
    requires |sep| > 0 && n > 0 && i == FindFrom(s, sep, 0) != -1 && t == s[i + |sep|..]
    ensures JoinWith(SplitAtMost(s, sep, n), sep) == s[..i] + sep + JoinWith(SplitAtMost(t, sep, n - 1), sep)
  {
    CutOnce(s, sep, n, i);
    JoinWithCons(s[..i], SplitAtMost(t, sep, n - 1), sep);
  }

  lemma CutAt(s: string, sep: string, i: nat)
    requires i + |sep| <= |s| && s[i..i + |sep|] == sep
    ensures s[..i] + sep + s[i + |sep|..] == s
  {
    assert s == s[..i] + s[i..i + |sep|] + s[i + |sep|..];
  }

  lemma JoinWithCons(first: string, rest: seq<string>, sep: string)
    requires |rest| >= 1
    ensures JoinWith([first] + rest, sep) == first + sep + JoinWith(rest, sep)
  {
    assert ([first] + rest)[1..] == rest;
  }

  /** No piece but the last holds the separator, and the last holds it only
      when all `n` cuts were made. */
  predicate CleanPieces(parts: seq<string>, sep: string, n: nat) {
    forall k :: 0 <= k < |parts| && (k < |parts| - 1 || |parts| <= n) ==> !Contains(parts[k], sep)
  }

  /** No piece of `str.split(sep, n)` but the last holds `sep`. For a separator
      that overlaps itself this does not fix where the cuts are;
      `SplitAtMostFirst` does. */
  lemma {:induction false} SplitAtMostClean(s: string, sep: string, n: nat)
    requires |sep| > 0
    ensures CleanPieces(SplitAtMost(s, sep, n), sep, n)
    decreases n
  {
    if n > 0 && FindFrom(s, sep, 0) != -1 {
      var t := CleanCut(s, sep, n);
      SplitAtMostClean(t, sep, n - 1);
    } else {
      Uncut(s, sep, n);
    }
  }

  /** Each cut is at the first occurrence of `sep` in what is left: joined to
      the separator after it, a piece meets `sep` first at that separator.
      The last piece holds no `sep` unless all `n` cuts were made. For a
      separator that overlaps itself, such as `---`, this is stronger than
      no piece holding it. */
  ghost predicate FirstCutPieces(parts: seq<string>, sep: string, n: nat)
    decreases |parts|
  {
    if |parts| <= 1 then |parts| == 1 && (n > 0 ==> !Contains(parts[0], sep))
    else n > 0 && CutAtFirst(parts[0], sep) && FirstCutPieces(parts[1..], sep, n - 1)
  }

  /** `piece + sep` meets `sep` first at its end. */
  ghost predicate CutAtFirst(piece: string, sep: string) {
    FindFrom(piece + sep, sep, 0) == |piece|
  }

  /** `str.split(sep, n)` cuts at the first occurrence each time. */
  lemma {:induction false} SplitAtMostFirst(s: string, sep: string, n: nat)
    requires |sep| > 0
    ensures FirstCutPieces(SplitAtMost(s, sep, n), sep, n)
    decreases n
  {
    if n > 0 && FindFrom(s, sep, 0) != -1 {
      var t := FirstCutStep(s, sep, n);
      SplitAtMostFirst(t, sep, n - 1);
    } else {
      Uncut(s, sep, n);
    }
  }

  /** After the first cut, pieces of the rest cut at first occurrences make
      pieces of the whole text cut at first occurrences. */
  lemma FirstCutStep(s: string, sep: string, n: nat) returns (t: string)
    requires |sep| > 0 && n > 0 && FindFrom(s, sep, 0) != -1
    ensures FirstCutPieces(SplitAtMost(t, sep, n - 1), sep, n - 1) ==> FirstCutPieces(SplitAtMost(s, sep, n), sep, n)
  {
    var i := FindFrom(s, sep, 0);
    t := s[i + |sep|..];
    CutOnce(s, sep, n, i);
    FirstOccurrenceEnds(s, sep, i);
    if FirstCutPieces(SplitAtMost(t, sep, n - 1), sep, n - 1) {
      FirstCutCons(SplitAtMost(s, sep, n), s[..i], SplitAtMost(t, sep, n - 1), sep, n);
    }
  }

  /** With the separator `---`, `["-", "x"]` joins to `----x` and no piece
      holds `---`, yet `split` cuts `----x` at its first occurrence, at 0. */
  lemma OverlappingSeparatorCut()
    ensures JoinWith(["-", "x"], "---") == "----x"
    ensures CleanPieces(["-", "x"], "---", 2)
    ensures !FirstCutPieces(["-", "x"], "---", 2)
    ensures SplitAtMost("----x", "---", 2) == ["", "-x"]
  {
    var s := "----x";
    assert s[0..3] == "---";
    CutOnce(s, "---", 2, 0);
    assert s[3..] == "-x";
    assert FindFrom("-x", "---", 0) == -1;
    assert FindFrom("-", "---", 0) == -1;
    assert FindFrom("x", "---", 0) == -1;
    var joined := "-" + "---";
    assert joined[0..3] == "---";
    assert FindFrom(joined, "---", 0) == 0;
    assert CleanPieces(["-", "x"], "---", 2) by {
      assert ["-", "x"][0] == "-" && ["-", "x"][1] == "x";
    }
  }

  /** The text up to and including the first occurrence of `sep` meets it
      first at the same place. */
  lemma FirstOccurrenceEnds(s: string, sep: string, i: nat)
    requires |sep| > 0 && i == FindFrom(s, sep, 0)
    ensures CutAtFirst(s[..i], sep)
  {
    var m := i + |sep|;
    FindFromTake(s, sep, m, 0);
    PrefixThroughMatch(s, sep, i);
  }

  lemma PrefixThroughMatch(s: string, sep: string, i: nat)
    requires i + |sep| <= |s| && s[i..i + |sep|] == sep
    ensures s[..i + |sep|] == s[..i] + sep
  {
    assert s[..i + |sep|] == s[..i] + s[i..i + |sep|];
  }

  lemma FirstCutCons(parts: seq<string>, head: string, rest: seq<string>, sep: string, n: nat)
    requires parts == [head] + rest && n > 0
    requires CutAtFirst(head, sep) && FirstCutPieces(rest, sep, n - 1)
    ensures FirstCutPieces(parts, sep, n)
  {
    assert parts[0] == head && parts[1..] == rest;
  }

  /** Pieces that join back to the text and are cut at first occurrences are
      the pieces of `str.split(sep, n)`: that characterisation pins the split. */
  lemma {:induction false} SplitAtMostUnique(s: string, sep: string, n: nat, parts: seq<string>)
    requires |sep| > 0 && JoinWith(parts, sep) == s && FirstCutPieces(parts, sep, n)
    ensures parts == SplitAtMost(s, sep, n)
    decreases |parts|
  {
    if |parts| >= 2 {
      var rest := parts[1..];
      var t := UniqueStep(s, sep, n, parts);
      SplitAtMostUnique(t, sep, n - 1, rest);
    } else {
      OnePiece(s, sep, n, parts);
    }
  }

  /** A single piece that holds no separator, or for which no cut is allowed,
      is the whole text. */
  lemma OnePiece(s: string, sep: string, n: nat, parts: seq<string>)
    requires |sep| > 0 && JoinWith(parts, sep) == s && FirstCutPieces(parts, sep, n) && |parts| == 1
    ensures parts == SplitAtMost(s, sep, n)
  {
    assert parts[0] == s;
    Uncut(s, sep, n);
  }

  /** The first of several pieces cut at first occurrences is the first cut of
      their join, and the others join to the rest. */
  lemma UniqueStep(s: string, sep: string, n: nat, parts: seq<string>) returns (t: string)
    requires |sep| > 0 && JoinWith(parts, sep) == s && FirstCutPieces(parts, sep, n) && |parts| >= 2
    ensures n > 0 && JoinWith(parts[1..], sep) == t && FirstCutPieces(parts[1..], sep, n - 1)
    ensures parts[1..] == SplitAtMost(t, sep, n - 1) ==> parts == SplitAtMost(s, sep, n)
  {
    var head, rest := parts[0], parts[1..];
    assert parts == [head] + rest;
    JoinWithCons(head, rest, sep);
    t := JoinWith(rest, sep);
    FoundAtJoin(s, head, sep, t);
    CutOnce(s, sep, n, |head|);
    assert s[..|head|] == head && s[|head| + |sep|..] == t;
    FirstCutTail(parts, rest, sep, n);
  }

  /** A separator that `head + sep` meets first at its end is met there first
      in any longer text too. */
  lemma FoundAtJoin(s: string, head: string, sep: string, tail: string)
    requires s == head + sep + tail && CutAtFirst(head, sep)
    ensures FindFrom(s, sep, 0) == |head|
  {
    FindFromTake(s, sep, |head| + |sep|, 0);
    assert s[..|head| + |sep|] == head + sep;
  }

  lemma FirstCutTail(parts: seq<string>, rest: seq<string>, sep: string, n: nat)
    requires |parts| >= 2 && rest == parts[1..] && FirstCutPieces(parts, sep, n)
    ensures n > 0 && CutAtFirst(parts[0], sep) && FirstCutPieces(rest, sep, n - 1)
  {
  }

  /** The first cut: the text before the first separator, which does not
      hold it, and the rest after it, which the remaining cuts split. */
  lemma FirstCut(s: string, sep: string, n: nat) returns (head: string, t: string)
    requires |sep| > 0 && n > 0 && FindFrom(s, sep, 0) != -1
    ensures !Contains(head, sep)
    ensures SplitAtMost(s, sep, n) == [head] + SplitAtMost(t, sep, n - 1)
  {
    var i := FindFrom(s, sep, 0);
    NoEarlierOccurrence(s, sep, i);
    CutOnce(s, sep, n, i);
    head, t := s[..i], s[i + |sep|..];
  }

  /** After the first cut, clean pieces of the rest make clean pieces of
      the whole text. */
  lemma CleanCut(s: string, sep: string, n: nat) returns (t: string)
    requires |sep| > 0 && n > 0 && FindFrom(s, sep, 0) != -1
    ensures CleanPieces(SplitAtMost(t, sep, n - 1), sep, n - 1) ==> CleanPieces(SplitAtMost(s, sep, n), sep, n)
  {
    var head;
    head, t := FirstCut(s, sep, n);
    if CleanPieces(SplitAtMost(t, sep, n - 1), sep, n - 1) {
      CleanCons(SplitAtMost(s, sep, n), head, SplitAtMost(t, sep, n - 1), sep, n);
    }
  }

  lemma CleanCons(parts: seq<string>, head: string, rest: seq<string>, sep: string, n: nat)
    requires parts == [head] + rest
    requires n > 0 && |rest| >= 1 && !Contains(head, sep) && CleanPieces(rest, sep, n - 1)
    ensures CleanPieces(parts, sep, n)
  {
    forall k | 1 <= k < |parts|
      ensures parts[k] == rest[k - 1]
    {
    }
  }

  /** The text before the first occurrence of `sep` does not contain it. */
  lemma NoEarlierOccurrence(s: string, sep: string, i: nat)
    requires |sep| > 0 && i <= |s| && i == FindFrom(s, sep, 0)
    ensures !Contains(s[..i], sep)
  {
    FindFromTake(s, sep, i, 0);
  }

  /** Searching a prefix finds the occurrences that end inside it. */
  lemma {:induction false} FindFromTake(s: string, p: string, m: nat, from: nat)
    requires m <= |s|
    ensures FindFrom(s[..m], p, from) ==
      if FindFrom(s, p, from) != -1 && FindFrom(s, p, from) + |p| <= m then FindFrom(s, p, from) else -1
    decreases |s| - from
  {
    if from + |p| <= m {
      SliceOfTake(s, m, from, from + |p|);
      if s[from..from + |p|] != p {
        FindFromTake(s, p, m, from + 1);
      }
    }
  }

  lemma SliceOfTake(s: string, m: nat, a: nat, b: nat)
    requires a <= b <= m <= |s|
    ensures s[..m][a..b] == s[a..b]
  {
  }

  /** Searching the suffix `t` of `s` from `d` finds the same occurrences,
      shifted by `d`; `i` is an index into `s`. */
  lemma {:induction false} FindFromShift(s: string, t: string, p: string, d: nat, i: nat)
    requires d <= i && d <= |s| && t == s[d..]
    ensures FindFrom(t, p, i - d) == ShiftedBack(FindFrom(s, p, i), d)
    decreases |s| - i
  {
    if i + |p| <= |s| {
      assert t[i - d..i - d + |p|] == s[i..i + |p|];
      if s[i..i + |p|] != p {
        FindFromShift(s, t, p, d, i + 1);
        assert i + 1 - d == i - d + 1;
      }
    }
  }

  /** An index found in `s` as an index into `s[d..]`; `-1` stays `-1`. */
  function ShiftedBack(r: int, d: nat): int {
    if r == -1 then -1 else r - d
  }

  /** A one-character pattern occurs exactly where that character does. */
  lemma CharContains(s: string, c: char)
    ensures c in s <==> Contains(s, [c])
  {
    FindCharIsIndex(s, c, 0);
    if c in s {
      var k :| 0 <= k < |s| && s[k] == c;
    }
  }

  /** Finding a one-character pattern is finding the character. */
  lemma {:induction false} FindCharIsIndex(s: string, c: char, from: nat)
    ensures FindFrom(s, [c], from) == IndexFrom(s, c, from)
    decreases |s| - from
  {
    if from < |s| {
      assert s[from..from + 1] == [c] <==> s[from] == c by {
        assert s[from..from + 1][0] == s[from];
      }
      FindCharIsIndex(s, c, from + 1);
    }
  }
}
